=== FILE: README.md ===
# MirrorMe data extraction, modelled in Dafny

MirrorMe turns the data exports that Reddit and Instagram hand out into
compact records, and then shows them on a dashboard and a shared scoreboard.
This project models the core of that pipeline and proves properties of the
model:

- **Archive walk** (`Archive`). This is `processCompany`. It keeps the file
  entries of an export whose type is supported, and pairs each text read
  with the entry's basename. It parses each text, then folds a per-company
  rule over the results, in enumeration order. If the archive fails to load,
  the initial record is returned.
- **Reddit rule** (`Reddit`). This is `processReddit`. It copies CSV rows into
  the record's lists and turns vote rows into `{subreddit, direction}` pairs.
  It also shows the aliasing of the code: the rule's writes to the `gender`
  and `subreddits` fields land on a shallow copy that is thrown away.
- **Instagram rule** (`Instagram`). This is `processInstagram`. It is a switch
  on the basename. Each case replaces or extends one list of the record:
  dates in milliseconds, accounts, interests, and the messages of two-party
  threads.
- **Object helpers** (`JsonUtils`).
  - `getValuesFromObject`, `getValuesFromNestedObject` and `populateJsonArray`
    work over an ordered-key JSON datatype (`JsValues`). Its `Entries` follows
    the own-property order of ECMA-262: array-index keys ascending, then the
    other keys in creation order.
  - `decodeString` is `decodeURIComponent(escape(s))`. It is modelled
    literally, following ECMA-262 (Annex B.2.1.1 and section 18.2.6). It is
    proved equal to UTF-8 decoding of the code units as octets
    (`UriCoding`, `Utf8`, following RFC 3629).
- **Score slice** (`ScoreSlice`). The reducer that keeps the user's nickname,
  score, uploaded flag and the fetched scoreboard.
- **Scoreboard** (`Scoreboard`). The list of the scoreboard page: keep the
  positive figures, sort them stably in ascending order, and label each with
  its place and whether it is the user's.
- **Instagram dashboard** (`InstagramDashboard`). The figures the Instagram
  detail page computes: mutual relationships, messages per participant, and
  the two word clouds.

JavaScript strings are sequences of UTF-16 code units (`JsStrings`).
`indexOf`, `lastIndexOf`, `substring` and `substr` are modelled with their
clamping and swapping rules. Errors that JavaScript would throw are `Err`
values of a `Result`: `TypeError`, `URIError`, and `ReadError` for an entry
whose text cannot be read. An error thrown inside a rule makes the whole
extraction fail, as the rejected promise does in the code.

## Model

| member | source | states |
|---|---|---|
| JsStrings.IndexOfSpec | mirror-me-electron/src/components/DataDropzone/index.ts:141-142 | `indexOf` returns the first occurrence at or after the clamped start, and -1 exactly when there is none from there on |
| JsStrings.LastIndexOfSpec | mirror-me-electron/src/components/DataDropzone/index.ts:64-68 | `lastIndexOf` returns an occurrence with no occurrence after it, or -1 when the pattern does not occur |
| JsStrings.Substring | mirror-me-electron/src/components/DataDropzone/index.ts:144 | with both bounds inside the string, `substring` is the slice between them, taken in either order |
| JsStrings.SubstringClamped | mirror-me-electron/src/components/DataDropzone/index.ts:141-144 | `substring` ignores the order of its bounds, and a bound below 0 or past the end acts as that end of the string |
| JsStrings.SubstrFrom | mirror-me-electron/src/components/DataDropzone/index.ts:64-68 | `substr(start)` is the suffix from `start`, and a negative start counts from the end |
| JsStrings.SubstrFromOutOfRange | mirror-me-electron/src/components/DataDropzone/index.ts:64-68 | a start before the beginning of the string gives the whole string, and one past its end gives the empty string |
| JsStrings.SubstrLen | mirror-me-electron/src/components/DataDropzone/jsonUtils.tsx:23 | `substr(start, length)` is the slice of that length when it fits in the string |
| JsStrings.DecimalRoundTrip | mirror-me-electron/src/components/DataDropzone/jsonUtils.tsx:3 | reading back the decimal key text of an index gives the index |
| JsStrings.IndexKey | mirror-me-electron/src/components/DataDropzone/jsonUtils.tsx:3 | the key under which an array stores element `i` is an array index whose value is `i` |
| JsValues.OwnOrderPermutes | mirror-me-electron/src/components/DataDropzone/jsonUtils.tsx:3 | putting own properties in key order neither adds nor drops a property |
| JsValues.OwnOrderIndexKeysFirst | mirror-me-electron/src/components/DataDropzone/jsonUtils.tsx:3 | in `Object.entries` order, every array-index key comes before every other key, in ascending numeric order |
| JsValues.OwnOrderWithoutIndexKeys | mirror-me-electron/src/components/DataDropzone/jsonUtils.tsx:3 | an object without array-index keys lists its properties in creation order |
| JsValues.Entries | mirror-me-electron/src/components/DataDropzone/jsonUtils.tsx:3 | `Object.entries` throws TypeError exactly on null and undefined |
| JsValues.EntriesListed | mirror-me-electron/src/components/DataDropzone/jsonUtils.tsx:3 | an array's entries are its elements under their index keys; an object's entries are a permutation of its properties |
| JsValues.FindPropFirst | mirror-me-electron/src/components/DataDropzone/jsonUtils.tsx:19 | looking up a key finds the first property that has it |
| JsValues.FindPropAbsent | mirror-me-electron/src/components/DataDropzone/jsonUtils.tsx:19 | looking up a key that no property has gives undefined |
| JsValues.Index | mirror-me-electron/src/components/DataDropzone/index.ts:121 | `v[i]` throws exactly on null and undefined, and on an array gives the element, or undefined past the end |
| JsValues.Length | mirror-me-electron/src/components/DataDropzone/index.ts:160 | `v.length` throws exactly on null and undefined, and on an array is its element count |
| JsValues.DateOf | mirror-me-electron/src/components/DataDropzone/index.ts:234 | `new Date(t)` is a valid date exactly when `t` is a number within the time range, and then holds `t` |
| JsValues.FromSeconds | mirror-me-electron/src/components/DataDropzone/index.ts:206-208 | a timestamp of `t` seconds becomes the date `t` × 1000 ms, and undefined becomes an invalid date |
| JsValues.Elements | mirror-me-electron/src/components/DataDropzone/index.ts:134 | iterating parsed data succeeds exactly on arrays, over their elements, and otherwise throws TypeError |
| Sorting.SortBy | mirror-me-electron/src/pages/ScoreboardPage/ScoreboardPage.tsx:62 | sorting by score returns a permutation of its input in non-decreasing order |
| Sorting.SortByStable | mirror-me-electron/src/pages/ScoreboardPage/ScoreboardPage.tsx:62 | elements with equal scores keep their relative input order, as ECMA-262 requires of `sort` |
| Utf8.EncodeScalarFramed | mirror-me-electron/src/components/DataDropzone/jsonUtils.tsx:57 | every multi-octet UTF-8 encoding has a valid lead and continuation octets, and reads back as its scalar |
| Utf8.DecodeEncode | mirror-me-electron/src/components/DataDropzone/jsonUtils.tsx:57 | decoding the UTF-8 encoding of scalars gives the scalars back |
| Utf8.EncodeDecode | mirror-me-electron/src/components/DataDropzone/jsonUtils.tsx:57 | octets that decode are exactly the encoding of what they decode to |
| Utf8.DecodeIffEncode | mirror-me-electron/src/components/DataDropzone/jsonUtils.tsx:57 | octets decode to a sequence of scalars if and only if they are its encoding |
| Utf8.Utf16Of | mirror-me-electron/src/components/DataDropzone/jsonUtils.tsx:57 | a scalar below 0x10000 is one code unit; any other is a surrogate pair that reads back as the scalar |
| UriCoding.EscapedOctet | mirror-me-electron/src/components/DataDropzone/jsonUtils.tsx:57 | `escape` writes an octet that is not left alone as `%XX`, and the hex digits read back as the octet |
| UriCoding.DecodeEscaped | mirror-me-electron/src/components/DataDropzone/jsonUtils.tsx:57 | `decodeURIComponent(escape(s))` equals UTF-8 decoding of the code units of `s`, errors included |
| JsonUtils.GetValuesFromObject | mirror-me-electron/src/components/DataDropzone/jsonUtils.tsx:1-9 | `getValuesFromObject` throws exactly when the object is null or undefined |
| JsonUtils.MatchIndicesSound | mirror-me-electron/src/components/DataDropzone/jsonUtils.tsx:3-8 | the positions the values come from hold requested keys and strictly ascend, so the values are a subsequence of the entries |
| JsonUtils.MatchIndicesComplete | mirror-me-electron/src/components/DataDropzone/jsonUtils.tsx:3-8 | every entry whose key is requested is among those positions |
| JsonUtils.SelectIsMatches | mirror-me-electron/src/components/DataDropzone/jsonUtils.tsx:1-9 | the j-th value is the value of the entry at the j-th matching position, and there are no more values than entries |
| JsonUtils.SelectLength | mirror-me-electron/src/components/DataDropzone/jsonUtils.tsx:1-9 | there are exactly as many values as matching entries |
| JsonUtils.SelectKeySetOnly | mirror-me-electron/src/components/DataDropzone/jsonUtils.tsx:4 | only the set of requested keys matters, not their order or repetitions |
| JsonUtils.SelectEmptyIff | mirror-me-electron/src/components/DataDropzone/jsonUtils.tsx:1-9 | the result is empty exactly when no entry has a requested key |
| JsonUtils.SelectAll | mirror-me-electron/src/components/DataDropzone/jsonUtils.tsx:1-9 | requesting every key present gives every value, in entry order |
| JsonUtils.SelectOneKey | mirror-me-electron/src/components/DataDropzone/jsonUtils.tsx:19 | `getValuesFromObject(o, [k])[0]` is the value of the first entry with key `k`, or undefined |
| JsonUtils.GetValuesFromPlainObject | mirror-me-electron/src/components/DataDropzone/jsonUtils.tsx:1-9 | on an object without array-index keys, the values follow the properties' creation order |
| JsonUtils.DotFreeKey | mirror-me-electron/src/components/DataDropzone/jsonUtils.tsx:17-19 | a dot-free key contributes exactly one output, the key's value or undefined, and throws only on null or undefined |
| JsonUtils.DottedKeyCount | mirror-me-electron/src/components/DataDropzone/jsonUtils.tsx:21-33 | a dotted key contributes one output per entry named by its prefix, and nothing when there is none |
| JsonUtils.DottedKeySplit | mirror-me-electron/src/components/DataDropzone/jsonUtils.tsx:21-24 | a dotted key is split at its first '.' into the prefix and the rest |
| JsonUtils.FlatPartsOfScalars | mirror-me-electron/src/components/DataDropzone/jsonUtils.tsx:26-29 | over an array whose lookups give non-array values, `flatMap` gives exactly those values in order |
| JsonUtils.FlatPartsConcat | mirror-me-electron/src/components/DataDropzone/jsonUtils.tsx:26-29 | `flatMap` splices an array result one level deep and keeps any other result as one element |
| JsonUtils.OverSingleArray | mirror-me-electron/src/components/DataDropzone/jsonUtils.tsx:22-31 | a prefix that names an array gives one output: the flattened lookups of the rest over its elements |
| JsonUtils.FlatMapExample | mirror-me-electron/src/components/DataDropzone/jsonUtils.tsx:11-38 | `{a: [{b: 1}, {b: 2}]}` with key "a.b" gives the single output `[1, 2]` |
| JsonUtils.SetPropKeys | mirror-me-electron/src/components/DataDropzone/jsonUtils.tsx:50 | assigning a property appends the key unless the object already has it |
| JsonUtils.SetPropFind | mirror-me-electron/src/components/DataDropzone/jsonUtils.tsx:50 | reading a key just assigned gives the assigned value |
| JsonUtils.SetPropOther | mirror-me-electron/src/components/DataDropzone/jsonUtils.tsx:50 | assigning one key leaves every other key's value as it was |
| JsonUtils.LabelFields | mirror-me-electron/src/components/DataDropzone/jsonUtils.tsx:47-51 | with distinct fields, the element built for a row has exactly the fields as keys, the i-th holding the i-th value |
| JsonUtils.PopulateShape | mirror-me-electron/src/components/DataDropzone/jsonUtils.tsx:40-54 | `populateJsonArray` throws exactly when some row is null or undefined; otherwise it appends one element per row and keeps the earlier elements as a prefix |
| JsonUtils.PopulateRows | mirror-me-electron/src/components/DataDropzone/jsonUtils.tsx:40-54 | the element appended for row `i` sits after the earlier ones, has exactly the fields as keys, and gives `fields[j]` the j-th matched value |
| JsonUtils.MissingFieldShifts | mirror-me-electron/src/components/DataDropzone/jsonUtils.tsx:46-51 | in the element appended for a row that matches fewer values than fields, the matched values fill the first fields in order and the trailing fields are undefined |
| JsonUtils.RowInFieldOrder | mirror-me-electron/src/components/DataDropzone/jsonUtils.tsx:46-51 | a row whose keys are exactly the fields, in order, gives each field its own value |
| JsonUtils.DecodeStringIsUtf8 | mirror-me-electron/src/components/DataDropzone/jsonUtils.tsx:56-58 | `decodeString` reads the code units as UTF-8 octets |
| JsonUtils.DecodeStringAscii | mirror-me-electron/src/components/DataDropzone/jsonUtils.tsx:56-58 | `decodeString` leaves an ASCII string unchanged |
| JsonUtils.DecodeStringUtf8RoundTrip | mirror-me-electron/src/components/DataDropzone/jsonUtils.tsx:56-58 | the UTF-8 octets of any text, as code units, decode to that text in UTF-16 |
| JsonUtils.DecodeStringWide | mirror-me-electron/src/components/DataDropzone/jsonUtils.tsx:56-58 | a code unit above 255 makes `decodeString` throw URIError |
| JsonUtils.DecodeStringMalformed | mirror-me-electron/src/components/DataDropzone/jsonUtils.tsx:56-58 | octets that are not well-formed UTF-8 make `decodeString` throw URIError |
| Archive.FileTypeSpec | mirror-me-electron/src/components/DataDropzone/index.ts:64 | an entry's type is the text from its last '.' on; without a '.' it is the last character |
| Archive.BaseNameHasNoSlash | mirror-me-electron/src/components/DataDropzone/index.ts:67-69 | the rule key has no '/', ends the path, and starts right after a '/' or at the start of the path: the text after the last '/', or the whole path when it has none |
| Archive.KeptEntries | mirror-me-electron/src/components/DataDropzone/index.ts:62-66 | every kept entry is an entry of the archive, a file, and of a supported type |
| Archive.KeptEntriesSpec | mirror-me-electron/src/components/DataDropzone/index.ts:62-66 | an entry is kept if and only if it is a file of a supported type |
| Archive.EnumerateKept | mirror-me-electron/src/components/DataDropzone/index.ts:62-72 | the i-th pending read and the i-th basename belong to the i-th kept entry |
| Archive.AwaitAll | mirror-me-electron/src/components/DataDropzone/index.ts:82 | `Promise.all` gives every text, in order, exactly when every read succeeds, and ReadError otherwise |
| Archive.ProcessCompany | mirror-me-electron/src/components/DataDropzone/index.ts:45-97 | an archive that fails to load, or keeps no entry, returns the initial record; an unreadable kept entry makes the extraction fail |
| Archive.DispatchFold | mirror-me-electron/src/components/DataDropzone/index.ts:82-91 | dispatching the awaited texts is the same as folding the rule over the archive's entries |
| Archive.ProcessCompanyIsFold | mirror-me-electron/src/components/DataDropzone/index.ts:45-97 | with every kept entry readable, `processCompany` is the per-entry fold of the rule |
| Archive.DispatchTrace | mirror-me-electron/src/components/DataDropzone/index.ts:83-91 | the rule is handed each parsed text with its basename, each once and in order |
| Archive.DispatchOncePerEntry | mirror-me-electron/src/components/DataDropzone/index.ts:62-91 | over a whole archive, the rule sees each kept entry exactly once, in enumeration order, parsed and under its basename |
| Archive.DispatchInvariant | mirror-me-electron/src/components/DataDropzone/index.ts:82-94 | a property that every rule application keeps holds of the dispatched result |
| Archive.ProcessCompanyInvariant | mirror-me-electron/src/components/DataDropzone/index.ts:45-97 | a property of the initial record that every rule application keeps holds of the returned record |
| Reddit.StepKeepsScalars | mirror-me-electron/src/components/DataDropzone/index.ts:116-166 | as written, no rule application changes the returned record's gender or subreddit count |
| Reddit.ScalarWritesLost | mirror-me-electron/src/components/DataDropzone/index.ts:99-170 | as written, every extraction returns gender '' and 0 subreddits, whatever the archive holds |
| Reddit.IntendedChangesOnlyScalars | mirror-me-electron/src/components/DataDropzone/index.ts:116-166 | the corrected rule fails exactly when the written one does, and differs from it only in gender and subreddit count |
| Reddit.GenderRecordedOnlyWhenIntended | mirror-me-electron/src/components/DataDropzone/index.ts:120-124 | the gender file records the first row's `account_gender` in the corrected rule, and nothing as written |
| Reddit.SubredditCountRecordedOnlyWhenIntended | mirror-me-electron/src/components/DataDropzone/index.ts:159-161 | the subreddit file records its row count in the corrected rule, and nothing as written |
| Reddit.GenderFileRecorded | mirror-me-electron/src/components/DataDropzone/index.ts:99-170 | an archive holding only the gender file yields that gender in the corrected extraction and the initial record as written |
| Reddit.UnmatchedFileIsNoOp | mirror-me-electron/src/components/DataDropzone/index.ts:162-163 | a basename that no rule names leaves the record unchanged |
| Reddit.RowRulesAppend | mirror-me-electron/src/components/DataDropzone/index.ts:125-158 | the ip-log, comment, post and message rules append one element per row to their own list, keep the earlier elements as a prefix, and leave every other field of the record, the gender and subreddit count included, as it was |
| Reddit.NoneVoteIgnored | mirror-me-electron/src/components/DataDropzone/index.ts:134-140 | a vote row whose direction is 'none' adds no vote |
| Reddit.OtherVoteRecorded | mirror-me-electron/src/components/DataDropzone/index.ts:140-146 | any other vote row adds one vote, with the subreddit cut from the permalink and direction true iff it is 'up' |
| Reddit.VotesOfCount | mirror-me-electron/src/components/DataDropzone/index.ts:133-150 | there are at most as many votes as rows, and exactly as many if and only if no row is skipped |
| Reddit.VotesAppended | mirror-me-electron/src/components/DataDropzone/index.ts:133-150 | the vote rule keeps the earlier votes as a prefix, adds the rows' votes after them, at most one per row, and changes nothing else |
| Reddit.SubredditBetweenSlashes | mirror-me-electron/src/components/DataDropzone/index.ts:141-144 | the subreddit is the text between '/r/' and the next '/', and contains no '/' |
| Reddit.SubredditWithoutClosingSlash | mirror-me-electron/src/components/DataDropzone/index.ts:141-144 | with no '/' after '/r/', `substring` swaps its arguments and the subreddit is the permalink up to and including '/r/' |
| Instagram.FilesDistinct | mirror-me-electron/src/components/DataDropzone/index.ts:27-37 | no two cases of the switch name the same file |
| Instagram.RuleOfFile | mirror-me-electron/src/components/DataDropzone/index.ts:197-336 | a basename selects a case if and only if it is that case's file, and selects none exactly when it is no case's file |
| Instagram.RuleOfOwnFile | mirror-me-electron/src/components/DataDropzone/index.ts:197-336 | the file of each case selects that case |
| Instagram.StepSelects | mirror-me-electron/src/components/DataDropzone/index.ts:195-339 | a basename that names a case applies that case; any other leaves the record unchanged |
| Instagram.MapAll | mirror-me-electron/src/components/DataDropzone/index.ts:205-209 | `map` succeeds exactly when the callback succeeds on every element, and then gives one result per element, in order |
| Instagram.FromOthersShape | mirror-me-electron/src/components/DataDropzone/index.ts:225-237 | each message yields at most one entry, and every entry carries the decoded participant |
| Instagram.FromOthersCount | mirror-me-electron/src/components/DataDropzone/index.ts:225-237 | every message yields an entry if and only if none has the participant as sender, and none does if and only if all have |
| Instagram.FromOthersConcat | mirror-me-electron/src/components/DataDropzone/index.ts:225-237 | the entries of two runs of messages are those of the first run followed by those of the second |
| Instagram.FromOthersSingle | mirror-me-electron/src/components/DataDropzone/index.ts:231-236 | a message from another sender yields one entry dated by its `timestamp_ms`; a message whose sender is the participant yields none |
| Instagram.LargeThreadIgnored | mirror-me-electron/src/components/DataDropzone/index.ts:220-238 | a thread with more than two participants contributes nothing |
| Instagram.SmallThreadKeepsOthers | mirror-me-electron/src/components/DataDropzone/index.ts:220-238 | for any thread object with at most two participants, the entries are exactly the messages whose raw sender differs from the decoded name of the first participant, in order, each carrying that name and its timestamp |
| Instagram.TwoPartyThread | mirror-me-electron/src/components/DataDropzone/index.ts:213-238 | for a concrete thread object, the entries are the messages of senders other than the decoded first participant |
| Instagram.MessagesConcatenated | mirror-me-electron/src/components/DataDropzone/index.ts:240-243 | the message case appends the thread's entries to the existing list, never replacing it, and changes nothing else |
| Instagram.DatesReplaced | mirror-me-electron/src/components/DataDropzone/index.ts:198-333 | the comment, post, like and story cases replace only their own list, with dates that do not depend on the previous record |
| Instagram.OneDatePerEntry | mirror-me-electron/src/components/DataDropzone/index.ts:198-266 | the comment and like cases give one date per looked-up entry, from its first element's `timestamp` |
| Instagram.OneDatePerPost | mirror-me-electron/src/components/DataDropzone/index.ts:246-253 | the post case gives one date per post, and throws TypeError when the data is not an array |
| Instagram.StampInSeconds | mirror-me-electron/src/components/DataDropzone/index.ts:206-208 | a `timestamp` of `t` seconds is the date `t` × 1000 ms |
| Instagram.PostInSeconds | mirror-me-electron/src/components/DataDropzone/index.ts:247-252 | a post whose first medium was created at `t` seconds is dated `t` × 1000 ms |
| Instagram.StoriesInSeconds | mirror-me-electron/src/components/DataDropzone/index.ts:323-330 | story timestamps of `t` seconds become dates of `t` × 1000 ms, one per story, in order |
| Instagram.ListsReplaced | mirror-me-electron/src/components/DataDropzone/index.ts:268-321 | the follower, following, ad and topic cases leave every other list alone, and the list they write does not depend on what the record held before |
| Instagram.OneAccountPerEntry | mirror-me-electron/src/components/DataDropzone/index.ts:268-292 | followers and followings give one account per looked-up entry, from its first element's `value` |
| Instagram.AccountValue | mirror-me-electron/src/components/DataDropzone/index.ts:275-277 | an entry whose first element is `{value: v}` is recorded as `v` |
| Instagram.LabelledValue | mirror-me-electron/src/components/DataDropzone/index.ts:301-319 | an interest `{Interest: {value: v}}` or topic `{Name: {value: v}}` is recorded as `v` |
| ScoreSlice.Reduce | mirror-me-electron/src/pages/ScoreboardPage/scoreControllerSlice.tsx:91-108 | each action leaves every field outside its write set as it was; deleteLocalScore clears nickname, score and scoreboard; a fulfilled addScore sets the uploaded flag; a fulfilled getAll stores its payload; a fulfilled delete clears nickname, scoreboard and flag |
| ScoreSlice.Untouched | mirror-me-electron/src/pages/ScoreboardPage/scoreControllerSlice.tsx:97-109 | a field that no dispatched action writes keeps its starting value |
| ScoreSlice.LastWriteWins | mirror-me-electron/src/pages/ScoreboardPage/scoreControllerSlice.tsx:91-108 | after any run, a field holds what the last action writing it wrote, whatever came before |
| ScoreSlice.ScoreOnlyCleared | mirror-me-electron/src/pages/ScoreboardPage/scoreControllerSlice.tsx:91-95 | the score is zero after a run containing deleteLocalScore, and the starting score otherwise |
| ScoreSlice.UploadedIffLastAdd | mirror-me-electron/src/pages/ScoreboardPage/scoreControllerSlice.tsx:98-108 | the uploaded flag is set if and only if a fulfilled addScore came with no fulfilled delete after it, or it was set at the start and no fulfilled delete came |
| ScoreSlice.IgnoredKeepState | mirror-me-electron/src/pages/ScoreboardPage/scoreControllerSlice.tsx:22-27 | refresh completions and pending or rejected actions leave any state as it is |
| Scoreboard.BoardOf | mirror-me-electron/src/pages/ScoreboardPage/ScoreboardPage.tsx:52-87 | the Reddit name selects the Reddit figure, otherwise the Instagram name selects the Instagram figure, and anything else the total |
| Scoreboard.KeptSpec | mirror-me-electron/src/pages/ScoreboardPage/ScoreboardPage.tsx:54-83 | the kept entries are exactly those with a strictly positive figure, and there are no more of them than entries |
| Scoreboard.KeptConcat | mirror-me-electron/src/pages/ScoreboardPage/ScoreboardPage.tsx:54-83 | filtering keeps the order of the fetched scoreboard |
| Scoreboard.LabelSpec | mirror-me-electron/src/pages/ScoreboardPage/ScoreboardPage.tsx:89-109 | dropping place and highlight gives back the sorted list; item i has place i + 1; an item is highlighted exactly when its nickname is the user's |
| Scoreboard.ScoreboardListSpec | mirror-me-electron/src/pages/ScoreboardPage/ScoreboardPage.tsx:48-112 | the list has one item per kept entry, shows a permutation of them in non-decreasing order of figure, labelled 1, 2, …, with only the user's items highlighted |
| Scoreboard.ScoreboardListStable | mirror-me-electron/src/pages/ScoreboardPage/ScoreboardPage.tsx:54-84 | entries with equal figures appear in the order the service returned them |
| InstagramDashboard.MutualsCount | mirror-me-electron/src/pages/DetailPage/InstagramDetailPage.tsx:47-52 | a follower is mutual as often as it is listed if it is also followed, and never otherwise; so there are at most as many mutuals as followers |
| InstagramDashboard.MutualsConcat | mirror-me-electron/src/pages/DetailPage/InstagramDetailPage.tsx:47-52 | the mutuals keep the followers' order |
| InstagramDashboard.RelationshipFigures | mirror-me-electron/src/pages/DetailPage/InstagramDetailPage.tsx:45-59 | the three bars are the follower count, the following count and the number of followers the user also follows, which never exceeds the follower count |
| InstagramDashboard.CountPositive | mirror-me-electron/src/pages/DetailPage/InstagramDetailPage.tsx:91-98 | a participant's count is positive exactly when some message is theirs |
| InstagramDashboard.TallyNew | mirror-me-electron/src/pages/DetailPage/InstagramDetailPage.tsx:91-97 | a message from a participant not seen before adds a key counting 1, and the tally stays exact |
| InstagramDashboard.TallyOld | mirror-me-electron/src/pages/DetailPage/InstagramDetailPage.tsx:91-97 | a message from a participant seen before adds one to their count, and the tally stays exact |
| InstagramDashboard.MessageDistribution | mirror-me-electron/src/pages/DetailPage/InstagramDetailPage.tsx:87-101 | the keys are distinct and are exactly the participants that occur; each maps to that participant's number of messages; the counts add up to the number of messages |
| InstagramDashboard.WordCloudSpec | mirror-me-electron/src/pages/DetailPage/InstagramDetailPage.tsx:61-85 | a word cloud has min(n, 30) words of the given weight, drawn without repetition from the items, and all of them when there are at most 30 |
| InstagramDashboard.AdWordCloud | mirror-me-electron/src/pages/DetailPage/InstagramDetailPage.tsx:61-72 | the ad cloud has at most 30 words, each of weight 10 and drawn from the ads |
| InstagramDashboard.TopicWordCloud | mirror-me-electron/src/pages/DetailPage/InstagramDetailPage.tsx:74-85 | the topic cloud has at most 30 words, each of weight 15 and drawn from the topics |

## Left out

- Loading the archive (JSZip), reading texts (`file.async`) and `Promise.all` are not modelled as concurrency. The archive is a list of entries with their path, directory flag and text, or `None` when it cannot be loaded. Texts are awaited in enumeration order.
- `JSON.parse` and papaparse's `readString` are not modelled. They are the `parse` parameter of `processCompany`: a function from text to a parsed value or an error.
- `getValueFromObjectArray` is imported by the Instagram rule, but its definition is not part of this model. It is the `lookup` parameter, and the rules are verified for whatever it returns.
- `SUPPORTED_FILE_TYPES` and the company names live in `globals.ts`, which is not part of this model. They are the `supported`, `redditName` and `instagramName` parameters.
- Numbers are integers. `ToNumber` of a string, array or object is treated as NaN, so `new Date(...)` of such a value is an invalid date. Floating-point timestamps and `new Date(string)` parsing are not modelled.
- Times are milliseconds since the epoch, held in an `Instant`. Time zones and calendar fields are left to the chart code, which is not modelled.
- `saveTextToFile` and `console.log` are left out: they do file I/O and logging.
- The error the archive loader logs is swallowed. The model keeps only its effect: the initial record is returned.
- The HTTP thunks of the score slice and the axios instance are left out: they do network I/O. Only the actions the reducer reacts to are modelled, with the payload a fulfilled getAll carries.
- The JSX, Ionic components, Redux selectors, `dispatch` and `useEffect` are left out, as is all rendering. The chart helpers `createChartDataset`, `createChartDatasetFromMap`, `getFieldsPerMonth` and `getFieldPerHour` are left out too: they belong to chart code that is not part of this model.
- `Math.random` and the random comparator are left out. A word cloud takes the shuffled order as a parameter that must be a permutation of the items.
- The scoreboard page reads `scoreReddit`, `scoreInsta` and `scoreTotal`, while the slice declares `redditScore`, `instaScore` and `totalScore`. The entries come from the score service, so both are modelled with one abstract score triple (`ScoreSlice.Score`).
- `includes`, and the `Map` keys of the message distribution, compare with SameValueZero. On strings and integers that is equality of values, which is what the model uses. Followers that are objects would compare by reference, and that is not modelled.
- InstagramDashboard.MessageDistribution: gives the keys in first-occurrence order, but the contract does not state that order, since the chart code that reads it is not modelled.
- InstagramDashboard.AdWordCloud and InstagramDashboard.TopicWordCloud: state only the bound, the weights and where the words come from. The exact count is stated by InstagramDashboard.WordCloudSpec.
- The `RedditRelevantData` type and the rule's own assignments show that the gender and the subreddit count are meant to be recorded. The code loses both (see Findings). `Reddit.ProcessRedditAsWritten` follows the code, and `Reddit.ProcessReddit` follows the evident intent.
- The code does not show which side of a thread the message filter is meant to keep. The model keeps the code's literal test: a message is kept when its raw `sender_name` differs from the decoded name of the first participant.

## Findings

| source | as written | input that shows it | evidently intended | confidence | as-written member | corrected member |
|---|---|---|---|---|---|---|
| mirror-me-electron/src/components/DataDropzone/index.ts:117-165 | The rule assigns `gender` and `subreddits` on `{ ...json }`, a shallow copy. It then reassigns only its own parameter. `processCompany` returns the original object, so both writes are lost. | An archive holding only `account_gender.csv` with one row `{account_gender: 'female'}`: the returned record keeps gender ''. | The gender of the first row, and the number of rows of `subscribed_subreddits.csv`, are recorded in the returned record. | not executed | Reddit.ScalarWritesLost | Reddit.GenderFileRecorded |

=== FILE: archive.dfy ===
/** processCompany (DataDropzone/index.ts): the entries of an export
    archive are filtered by file type, named by their basename, read as
    text, parsed, and handed one by one, in enumeration order, to a
    provider rule that updates the provider's record. A failure to load the
    archive is logged and swallowed; a failure to read, parse or apply a rule
    to an entry rejects the whole operation. */
module Archive {
  import opened JsStrings
  import opened JsValues

  /** One archive entry: its relative path, whether it is a directory, and its
      text content (None when reading it as text fails). */
  datatype Entry = Entry(path: JsString, dir: bool, text: Option<JsString>)

  /** The text from the last '.' of a path on. */
  function FileType(path: JsString): JsString
  {
    SubstrFrom(path, LastIndexOf(path, Lit(".")))
  }

  /** The file type starts at the last '.'; with no '.' at all, `substr(-1)`
      makes it the last code unit of the path. */
  lemma FileTypeSpec(path: JsString)
    ensures var k := LastIndexOf(path, Lit("."));
      && (k >= 0 ==> k < |path| && path[k] == 0x2E && FileType(path) == path[k..])
      && (k < 0 && |path| > 0 ==> FileType(path) == [path[|path| - 1]])
  {
    LastIndexOfSpec(path, Lit("."));
    var k := LastIndexOf(path, Lit("."));
    if k >= 0 {
      assert path[k..k + 1] == Lit(".");
    }
  }

  /** The text after the last '/' of a path. */
  function BaseName(path: JsString): JsString
  {
    SubstrFrom(path, LastIndexOf(path, Lit("/")) + 1)
  }

  lemma SlashAt(path: JsString, k: int)
    requires 0 <= k < |path|
    ensures OccursAt(path, Lit("/"), k) <==> path[k] == 0x2F
  {
    assert Lit("/") == [0x2F];
    if k + 1 <= |path| {
      assert |path[k..k + 1]| == 1 && path[k..k + 1][0] == path[k];
    }
  }

  /** A basename contains no '/', the path ends with it, and it starts
      right after a '/' or at the start of the path: it is the text after
      the last '/', or the whole path when there is none. */
  lemma BaseNameHasNoSlash(path: JsString)
    ensures var b := BaseName(path);
      && (forall i :: 0 <= i < |b| ==> b[i] != 0x2F)
      && |b| <= |path| && path[|path| - |b|..] == b
      && (|b| == |path| || path[|path| - |b| - 1] == 0x2F)
  {
    var k := LastIndexOf(path, Lit("/"));
    LastIndexOfSpec(path, Lit("/"));
    var b := BaseName(path);
    assert b == if k < 0 then path else path[k + 1..];
    forall i | 0 <= i < |b| ensures b[i] != 0x2F {
      var j := if k < 0 then i else k + 1 + i;
      assert b[i] == path[j];
      SlashAt(path, j);
    }
    if k >= 0 {
      SlashAt(path, k);
    }
  }

  /** An entry is kept when it is a file whose type is supported. */
  predicate Kept(e: Entry, supported: seq<JsString>)
  {
    !e.dir && FileType(e.path) in supported
  }

  /** The kept entries, in enumeration order. */
  function KeptEntries(entries: seq<Entry>, supported: seq<JsString>): (k: seq<Entry>)
    ensures forall i :: 0 <= i < |k| ==> k[i] in entries && Kept(k[i], supported)
  {
    if entries == [] then []
    else (if Kept(entries[0], supported) then [entries[0]] else []) + KeptEntries(entries[1..], supported)
  }

  /** The kept entries are exactly the entries that are kept, no more of
      them than there are entries. */
  lemma {:induction false} KeptEntriesSpec(entries: seq<Entry>, supported: seq<JsString>)
    ensures |KeptEntries(entries, supported)| <= |entries|
    ensures forall e :: e in KeptEntries(entries, supported) <==> e in entries && Kept(e, supported)
  {
    if entries != [] {
      KeptEntriesSpec(entries[1..], supported);
      var k1 := KeptEntries(entries[1..], supported);
      var k := KeptEntries(entries, supported);
      if Kept(entries[0], supported) {
        assert k == [entries[0]] + k1;
      } else {
        assert k == k1;
      }
      assert entries == [entries[0]] + entries[1..];
    }
  }

  /** The two parallel lists the enumeration fills: the pending text reads
      and the basenames. */
  datatype Pending = Pending(texts: seq<Option<JsString>>, paths: seq<JsString>)

  /** The enumeration of the archive: one pending read and one basename per
      kept entry. */
  function Enumerate(entries: seq<Entry>, supported: seq<JsString>): Pending
  {
    if entries == [] then Pending([], [])
    else
      var rest := Enumerate(entries[1..], supported);
      var e := entries[0];
      if !e.dir && FileType(e.path) in supported then Pending([e.text] + rest.texts, [BaseName(e.path)] + rest.paths)
      else rest
  }

  /** The i-th read and the i-th basename belong to the i-th kept entry. */
  lemma {:induction false} EnumerateKept(entries: seq<Entry>, supported: seq<JsString>)
    ensures Matches(Enumerate(entries, supported), KeptEntries(entries, supported))
  {
    if entries != [] {
      EnumerateKept(entries[1..], supported);
      EnumerateStep(entries, supported);
    }
  }

  /** The i-th read and the i-th basename of an enumeration belong to the
      i-th of the entries `k`. */
  predicate Matches(p: Pending, k: seq<Entry>)
  {
    && |p.texts| == |p.paths| == |k|
    && forall i :: 0 <= i < |k| ==> p.texts[i] == k[i].text && p.paths[i] == BaseName(k[i].path)
  }

  /** The step of EnumerateKept: a kept first entry goes in front of both
      lists, a skipped one changes nothing. */
  lemma EnumerateStep(entries: seq<Entry>, supported: seq<JsString>)
    requires entries != []
    requires Matches(Enumerate(entries[1..], supported), KeptEntries(entries[1..], supported))
    ensures Matches(Enumerate(entries, supported), KeptEntries(entries, supported))
  {
    var e := entries[0];
    var p1 := Enumerate(entries[1..], supported);
    var k1 := KeptEntries(entries[1..], supported);
    if Kept(e, supported) {
      assert Enumerate(entries, supported) == Pending([e.text] + p1.texts, [BaseName(e.path)] + p1.paths);
      assert KeptEntries(entries, supported) == [e] + k1;
      MatchesCons(p1, k1, e);
    } else {
      assert Enumerate(entries, supported) == p1;
      assert KeptEntries(entries, supported) == k1;
    }
  }

  lemma MatchesCons(p1: Pending, k1: seq<Entry>, e: Entry)
    requires Matches(p1, k1)
    ensures Matches(Pending([e.text] + p1.texts, [BaseName(e.path)] + p1.paths), [e] + k1)
  {
    var texts := [e.text] + p1.texts;
    var paths := [BaseName(e.path)] + p1.paths;
    var k := [e] + k1;
    forall i | 1 <= i < |k| ensures texts[i] == k[i].text && paths[i] == BaseName(k[i].path) {
      assert texts[i] == p1.texts[i - 1];
      assert paths[i] == p1.paths[i - 1];
      assert k[i] == k1[i - 1];
    }
  }

  /** Promise.all over the pending reads: every text, or ReadError when any
      read fails. */
  function AwaitAll(texts: seq<Option<JsString>>): (r: Result<seq<JsString>>)
    ensures r.Ok? <==> forall i :: 0 <= i < |texts| ==> texts[i].Some?
    ensures r.Ok? ==> |r.value| == |texts| && forall i :: 0 <= i < |texts| ==> r.value[i] == texts[i].value
    ensures r.Err? ==> r.error == ReadError
  {
    if texts == [] then Ok([])
    else if texts[0].None? then Err(ReadError)
    else
      match AwaitAll(texts[1..])
      case Err(e) => Err(e)
      case Ok(rest) => Ok([texts[0].value] + rest)
  }

  /** The loop over the read texts: the i-th text is parsed and handed to the
      rule together with the i-th basename. */
  function Dispatch<R>(acc: R, rule: (R, Json, JsString) -> Result<R>, parse: JsString -> Result<Json>,
                       texts: seq<JsString>, paths: seq<JsString>): Result<R>
    requires |texts| == |paths|
    decreases |texts|
  {
    if texts == [] then Ok(acc)
    else
      var data :- parse(texts[0]);
      var next :- rule(acc, data, paths[0]);
      Dispatch(next, rule, parse, texts[1..], paths[1..])
  }

  /** processCompany. `archive` is None when the archive cannot be loaded;
      `parse` is JSON.parse or the CSV parser's row list; `supported` is the
      list of supported file types. */
  function ProcessCompany<R>(init: R, rule: (R, Json, JsString) -> Result<R>, parse: JsString -> Result<Json>,
                             archive: Option<seq<Entry>>, supported: seq<JsString>): (r: Result<R>)
    ensures archive.None? ==> r == Ok(init)
    ensures archive.Some? && KeptEntries(archive.value, supported) == [] ==> r == Ok(init)
    ensures archive.Some? && (exists e :: e in archive.value && Kept(e, supported) && e.text.None?) ==> r == Err(ReadError)
  {
    match archive
    case None => Ok(init)
    case Some(entries) =>
      var p := Enumerate(entries, supported);
      EnumerateKept(entries, supported);
      assert forall e :: e in entries && Kept(e, supported) && e.text.None? ==>
        exists i :: 0 <= i < |p.texts| && p.texts[i].None? by {
        forall e | e in entries && Kept(e, supported) && e.text.None?
          ensures exists i :: 0 <= i < |p.texts| && p.texts[i].None?
        {
          var k := KeptEntries(entries, supported);
          KeptEntriesSpec(entries, supported);
          var i :| 0 <= i < |k| && k[i] == e;
          assert p.texts[i] == e.text;
        }
      }
      var texts :- AwaitAll(p.texts);
      Dispatch(init, rule, parse, texts, p.paths)
  }

  /** Reference semantics, one archive entry at a time: a kept entry is read,
      parsed and handed to the rule; other entries are skipped. */
  function FoldEntries<R>(acc: R, rule: (R, Json, JsString) -> Result<R>, parse: JsString -> Result<Json>,
                          entries: seq<Entry>, supported: seq<JsString>): Result<R>
    decreases |entries|
  {
    if entries == [] then Ok(acc)
    else if !Kept(entries[0], supported) then FoldEntries(acc, rule, parse, entries[1..], supported)
    else
      var text :- if entries[0].text.Some? then Ok(entries[0].text.value) else Err(ReadError);
      var data :- parse(text);
      var next :- rule(acc, data, BaseName(entries[0].path));
      FoldEntries(next, rule, parse, entries[1..], supported)
  }

  /** When every kept entry can be read, so can every pending read. */
  lemma EnumerateReadable(entries: seq<Entry>, supported: seq<JsString>)
    requires forall e :: e in entries && Kept(e, supported) ==> e.text.Some?
    ensures var p := Enumerate(entries, supported);
      AwaitAll(p.texts).Ok? && |AwaitAll(p.texts).value| == |p.paths|
  {
    EnumerateKept(entries, supported);
    KeptEntriesSpec(entries, supported);
    var p := Enumerate(entries, supported);
    var k := KeptEntries(entries, supported);
    forall i | 0 <= i < |p.texts| ensures p.texts[i].Some? {
      assert k[i] in k;
    }
  }

  lemma {:induction false} DispatchFold<R>(acc: R, rule: (R, Json, JsString) -> Result<R>, parse: JsString -> Result<Json>,
                                          entries: seq<Entry>, supported: seq<JsString>)
    requires forall e :: e in entries && Kept(e, supported) ==> e.text.Some?
    ensures var p := Enumerate(entries, supported);
      AwaitAll(p.texts).Ok? && |AwaitAll(p.texts).value| == |p.paths|
      && Dispatch(acc, rule, parse, AwaitAll(p.texts).value, p.paths) == FoldEntries(acc, rule, parse, entries, supported)
    decreases |entries|
  {
    EnumerateReadable(entries, supported);
    if entries != [] {
      assert forall e :: e in entries[1..] ==> e in entries;
      EnumerateReadable(entries[1..], supported);
      var e := entries[0];
      var p := Enumerate(entries, supported);
      var p1 := Enumerate(entries[1..], supported);
      if !Kept(e, supported) {
        assert p == p1;
        DispatchFold(acc, rule, parse, entries[1..], supported);
      } else {
        assert p.texts == [e.text] + p1.texts && p.paths == [BaseName(e.path)] + p1.paths;
        var all := AwaitAll(p.texts).value;
        var all1 := AwaitAll(p1.texts).value;
        assert all == [e.text.value] + all1;
        assert all[1..] == all1 && p.paths[1..] == p1.paths;
        match parse(e.text.value) {
          case Err(_) =>
          case Ok(data) =>
            match rule(acc, data, BaseName(e.path)) {
              case Err(_) =>
              case Ok(next) => DispatchFold(next, rule, parse, entries[1..], supported);
            }
        }
      }
    }
  }

  /** With every kept entry readable, processCompany is the per-entry fold. */
  lemma ProcessCompanyIsFold<R>(init: R, rule: (R, Json, JsString) -> Result<R>, parse: JsString -> Result<Json>,
                               entries: seq<Entry>, supported: seq<JsString>)
    requires forall e :: e in entries && Kept(e, supported) ==> e.text.Some?
    ensures ProcessCompany(init, rule, parse, Some(entries), supported) == FoldEntries(init, rule, parse, entries, supported)
  {
    DispatchFold(init, rule, parse, entries, supported);
  }

  /** What a rule was handed: a parsed text and a basename. */
  datatype Call = Call(data: Json, name: JsString)

  /** A rule that only records what it is handed. */
  function Record(calls: seq<Call>, data: Json, name: JsString): Result<seq<Call>>
  {
    Ok(calls + [Call(data, name)])
  }

  /** The calls a recording rule is expected to see: the i-th parsed text
      with the i-th name. */
  function Trace(parse: JsString -> Result<Json>, texts: seq<JsString>, paths: seq<JsString>): (r: seq<Call>)
    requires |texts| == |paths|
    requires forall i :: 0 <= i < |texts| ==> parse(texts[i]).Ok?
    ensures |r| == |texts|
    ensures forall i :: 0 <= i < |texts| ==> r[i] == Call(parse(texts[i]).value, paths[i])
  {
    if texts == [] then []
    else
      assert forall i :: 0 <= i < |texts| - 1 ==> texts[1..][i] == texts[i + 1] && paths[1..][i] == paths[i + 1];
      [Call(parse(texts[0]).value, paths[0])] + Trace(parse, texts[1..], paths[1..])
  }

  /** The rule sees the parsed texts with their names, each once, in order. */
  lemma {:induction false} DispatchTrace(calls: seq<Call>, parse: JsString -> Result<Json>, texts: seq<JsString>, paths: seq<JsString>)
    requires |texts| == |paths|
    requires forall i :: 0 <= i < |texts| ==> parse(texts[i]).Ok?
    ensures Dispatch(calls, Record, parse, texts, paths) == Ok(calls + Trace(parse, texts, paths))
    decreases |texts|
  {
    if texts != [] {
      assert forall i :: 0 <= i < |texts| - 1 ==> texts[1..][i] == texts[i + 1];
      var c := Call(parse(texts[0]).value, paths[0]);
      DispatchTrace(calls + [c], parse, texts[1..], paths[1..]);
      assert calls + [c] + Trace(parse, texts[1..], paths[1..]) == calls + Trace(parse, texts, paths);
    } else {
      assert calls + [] == calls;
    }
  }

  /** Every kept entry is handed to the rule exactly once, in enumeration
      order, paired with its own basename, and nothing else is. */
  lemma DispatchOncePerEntry(parse: JsString -> Result<Json>, entries: seq<Entry>, supported: seq<JsString>)
    requires forall e :: e in entries && Kept(e, supported) ==> e.text.Some? && parse(e.text.value).Ok?
    ensures var k := KeptEntries(entries, supported);
      var r := ProcessCompany([], Record, parse, Some(entries), supported);
      && r.Ok? && |r.value| == |k|
      && forall i :: 0 <= i < |k| ==> r.value[i] == Call(parse(k[i].text.value).value, BaseName(k[i].path))
  {
    EnumerateKept(entries, supported);
    KeptEntriesSpec(entries, supported);
    var k := KeptEntries(entries, supported);
    var p := Enumerate(entries, supported);
    assert forall i :: 0 <= i < |k| ==> k[i] in k;
    var texts := AwaitAll(p.texts).value;
    DispatchTrace([], parse, texts, p.paths);
    assert [] + Trace(parse, texts, p.paths) == Trace(parse, texts, p.paths);
  }

  /** A property every rule application keeps holds of the final record. */
  lemma {:induction false} DispatchInvariant<R>(acc: R, rule: (R, Json, JsString) -> Result<R>, parse: JsString -> Result<Json>,
                                               texts: seq<JsString>, paths: seq<JsString>, inv: R -> bool)
    requires |texts| == |paths|
    requires inv(acc)
    requires forall a, d, p :: inv(a) && rule(a, d, p).Ok? ==> inv(rule(a, d, p).value)
    ensures Dispatch(acc, rule, parse, texts, paths).Ok? ==> inv(Dispatch(acc, rule, parse, texts, paths).value)
    decreases |texts|
  {
    if texts != [] {
      match parse(texts[0]) {
        case Err(_) =>
        case Ok(data) =>
          match rule(acc, data, paths[0]) {
            case Err(_) =>
            case Ok(next) => DispatchInvariant(next, rule, parse, texts[1..], paths[1..], inv);
          }
      }
    }
  }

  lemma ProcessCompanyInvariant<R>(init: R, rule: (R, Json, JsString) -> Result<R>, parse: JsString -> Result<Json>,
                                   archive: Option<seq<Entry>>, supported: seq<JsString>, inv: R -> bool)
    requires inv(init)
    requires forall a, d, p :: inv(a) && rule(a, d, p).Ok? ==> inv(rule(a, d, p).value)
    ensures ProcessCompany(init, rule, parse, archive, supported).Ok? ==> inv(ProcessCompany(init, rule, parse, archive, supported).value)
  {
    if archive.Some? {
      var p := Enumerate(archive.value, supported);
      EnumerateKept(archive.value, supported);
      var texts := AwaitAll(p.texts);
      if texts.Ok? {
        DispatchInvariant(init, rule, parse, texts.value, p.paths, inv);
      }
    }
  }
}

=== FILE: instagram.dfy ===
/** processInstagram (DataDropzone/index.ts): the rule that turns the JSON
    files of an Instagram export into an InstagramRelevantData record. Every
    write goes into one of the nested objects the rule's shallow copy shares
    with the record processCompany returns, so all of them are visible.
    getValueFromObjectArray is not part of this model: it is the `lookup`
    parameter, and the rules are modelled around whatever it yields. The
    decoder the message case applies is the `decode` parameter of Step, so
    that lemmas about a thread need not unfold it; ProcessInstagram supplies
    JsonUtils.DecodeString. */
module Instagram {
  import opened JsStrings
  import opened JsValues
  import JsonUtils
  import Archive

  /** One message of a two-party thread, as the record stores it. */
  datatype Message = Message(participant: JsString, date: Instant)

  datatype Contributions = Contributions(comments: seq<Instant>, messages: seq<Message>, posts: seq<Instant>,
                                         likes: seq<Instant>, stories: seq<Instant>)

  datatype Relationships = Relationships(followers: seq<Json>, followings: seq<Json>)

  datatype Interests = Interests(ads: seq<Json>, topics: seq<Json>)

  datatype InstagramRecord = InstagramRecord(contributions: Contributions, relationships: Relationships,
                                             interests: Interests)

  /** The record an extraction starts from: every list empty. */
  const Initial: InstagramRecord :=
    InstagramRecord(Contributions([], [], [], [], []), Relationships([], []), Interests([], []))

  /** The files the rule reacts to, one per case of its switch. */
  datatype Rule = Comments | Messages | Posts | Likes | Followers | Followings | Ads | Topics | Stories

  /** The basename each case of the switch matches. */
  function FileOf(k: Rule): JsString
  {
    match k
    case Comments => Lit("post_comments.json")
    case Messages => Lit("message_1.json")
    case Posts => Lit("posts_1.json")
    case Likes => Lit("liked_posts.json")
    case Followers => Lit("followers.json")
    case Followings => Lit("following.json")
    case Ads => Lit("ads_interests.json")
    case Topics => Lit("your_topics.json")
    case Stories => Lit("stories.json")
  }

  /** The cases of the switch, in source order. */
  const SwitchOrder: seq<Rule> := [Comments, Messages, Posts, Likes, Followers, Followings, Ads, Topics, Stories]

  /** The first of `rules` whose file is `path`. */
  function FirstRule(path: JsString, rules: seq<Rule>): Option<Rule>
  {
    if rules == [] then None
    else if path == FileOf(rules[0]) then Some(rules[0])
    else FirstRule(path, rules[1..])
  }

  /** The case of the switch a basename selects. */
  function RuleOf(path: JsString): Option<Rule>
  {
    FirstRule(path, SwitchOrder)
  }

  /** No two cases match the same basename. */
  lemma FilesDistinct(k1: Rule, k2: Rule)
    requires k1 != k2
    ensures FileOf(k1) != FileOf(k2)
  {
    var f1, f2 := FileOf(k1), FileOf(k2);
    if |f1| == |f2| {
      if {k1, k2} == {Followers, Followings} {
        assert f1[6] != f2[6];
      } else {
        assert f1[0] != f2[0];
      }
    }
  }

  /** What the search finds is one of the rules, and its file is the basename. */
  lemma {:induction false} FirstRuleSound(path: JsString, rules: seq<Rule>)
    ensures FirstRule(path, rules).Some? ==>
      FirstRule(path, rules).value in rules && path == FileOf(FirstRule(path, rules).value)
  {
    if rules != [] && path != FileOf(rules[0]) {
      FirstRuleSound(path, rules[1..]);
    }
  }

  /** The file of any of the rules is found, and selects that rule. */
  lemma {:induction false} FirstRuleComplete(path: JsString, rules: seq<Rule>, k: Rule)
    requires k in rules && path == FileOf(k)
    ensures FirstRule(path, rules) == Some(k)
  {
    if rules[0] != k {
      FilesDistinct(rules[0], k);
      FirstRuleComplete(path, rules[1..], k);
    }
  }

  /** Every case is in the switch. */
  lemma AllCases(k: Rule)
    ensures k in SwitchOrder
  {
  }

  /** The file of a case selects that case. */
  lemma RuleOfOwnFile(k: Rule)
    ensures RuleOf(FileOf(k)) == Some(k)
  {
    AllCases(k);
    FirstRuleComplete(FileOf(k), SwitchOrder, k);
  }

  /** A basename selects a case exactly when it is that case's file, and
      no case when it is none of them. */
  lemma RuleOfFile(path: JsString, k: Rule)
    ensures RuleOf(path) == Some(k) <==> path == FileOf(k)
    ensures RuleOf(path).None? <==> forall k' :: path != FileOf(k')
  {
    FirstRuleSound(path, SwitchOrder);
    if path == FileOf(k) {
      RuleOfOwnFile(k);
    }
    if RuleOf(path).Some? {
      assert path == FileOf(RuleOf(path).value);
    } else {
      forall k' ensures path != FileOf(k') {
        if path == FileOf(k') {
          RuleOfOwnFile(k');
        }
      }
    }
  }

  /** getValueFromObjectArray(data, key, fields). */
  type Lookup = (Json, JsString, seq<JsString>) -> Result<seq<Json>>

  /** The text decoder the message case applies to the participant's name;
      ProcessInstagram passes JsonUtils.DecodeString. */
  type Decoder = JsString -> Result<JsString>

  /** Array.prototype.map with a callback that may throw: the first throw
      ends the walk. */
  function MapAll<T>(xs: seq<Json>, f: Json -> Result<T>): (r: Result<seq<T>>)
    ensures r.Ok? <==> forall i :: 0 <= i < |xs| ==> f(xs[i]).Ok?
    ensures r.Ok? ==> |r.value| == |xs| && forall i :: 0 <= i < |xs| ==> f(xs[i]) == Ok(r.value[i])
  {
    if xs == [] then Ok([])
    else
      assert forall i :: 1 <= i < |xs| ==> xs[1..][i - 1] == xs[i];
      var y :- f(xs[0]);
      var ys :- MapAll(xs[1..], f);
      Ok([y] + ys)
  }

  /** `getValuesFromObject(v, [key])[0]`. */
  function FieldValue(v: Json, key: JsString): Result<Json>
  {
    var vs :- JsonUtils.GetValuesFromObject(v, [key]);
    Ok(At(vs, 0))
  }

  /** `new Date(getValuesFromObject(item[0], [key])[0] * 1000)`. */
  function StampOf(item: Json, key: JsString): Result<Instant>
  {
    var first :- Index(item, 0);
    var seconds :- FieldValue(first, key);
    Ok(FromSeconds(seconds))
  }

  /** The date of one post: the creation time of the first entry of its media. */
  function PostDate(post: Json): Result<Instant>
  {
    var media :- FieldValue(post, Lit("media"));
    StampOf(media, Lit("creation_timestamp"))
  }

  /** `getValuesFromObject(item[0], ['value'])[0]`: one follower or following. */
  function AccountOf(item: Json): Result<Json>
  {
    var first :- Index(item, 0);
    FieldValue(first, Lit("value"))
  }

  /** The `value` inside the field `field` of an ad interest or topic. */
  function LabelValue(item: Json, field: JsString): Result<Json>
  {
    var inner :- FieldValue(item, field);
    FieldValue(inner, Lit("value"))
  }

  /** `values[0].length <= 2`; a length that is not a number compares false. */
  predicate SmallThread(count: Json)
  {
    var n := NumberOf(count);
    n.Some? && n.value <= 2
  }

  /** The [sender_name, timestamp_ms] values of one message, in key order. */
  function ContentOf(message: Json): Result<seq<Json>>
  {
    JsonUtils.GetValuesFromObject(message, [Lit("sender_name"), Lit("timestamp_ms")])
  }

  /** The entries a thread contributes: one per message whose first value is
      not the participant's name, dated by its second value. */
  function FromOthers(participant: JsString, contents: seq<seq<Json>>): seq<Message>
  {
    if contents == [] then []
    else
      (if At(contents[0], 0) != JStr(participant)
       then [Message(participant, DateOf(NumberOf(At(contents[0], 1))))]
       else [])
      + FromOthers(participant, contents[1..])
  }

  /** The keys a thread file is read by. */
  const ThreadFields: seq<JsString> := [Lit("participants"), Lit("messages")]

  /** The messages of a thread whose participant list is short enough. */
  function ThreadMessages(values: seq<Json>, decode: Decoder): Result<seq<Message>>
  {
    var first :- Index(At(values, 0), 0);
    var name :- FieldValue(first, Lit("name"));
    var participant :- decode(ToJsString(name));
    var messages :- Elements(At(values, 1));
    var contents :- MapAll(messages, ContentOf);
    Ok(FromOthers(participant, contents))
  }

  /** The entries message_1.json adds: none for a thread with more than two
      participants. */
  function ThreadEntries(data: Json, decode: Decoder): Result<seq<Message>>
  {
    var values :- JsonUtils.GetValuesFromObject(data, ThreadFields);
    var count :- Length(At(values, 0));
    if SmallThread(count) then ThreadMessages(values, decode) else Ok([])
  }

  function CommentDates(data: Json, lookup: Lookup): Result<seq<Instant>>
  {
    var items :- lookup(data, Lit("comments_media_comments"), [Lit("string_list_data")]);
    MapAll(items, (x: Json) => StampOf(x, Lit("timestamp")))
  }

  function PostDates(data: Json): Result<seq<Instant>>
  {
    var posts :- Elements(data);
    MapAll(posts, PostDate)
  }

  function LikeDates(data: Json, lookup: Lookup): Result<seq<Instant>>
  {
    var items :- lookup(data, Lit("likes_media_likes"), [Lit("string_list_data")]);
    MapAll(items, (x: Json) => StampOf(x, Lit("timestamp")))
  }

  function FollowerAccounts(data: Json, lookup: Lookup): Result<seq<Json>>
  {
    var items :- lookup(data, Lit("relationships_followers"), [Lit("string_list_data")]);
    MapAll(items, AccountOf)
  }

  function FollowingAccounts(data: Json, lookup: Lookup): Result<seq<Json>>
  {
    var items :- lookup(data, Lit("relationships_following"), [Lit("string_list_data")]);
    MapAll(items, AccountOf)
  }

  function AdInterests(data: Json, lookup: Lookup): Result<seq<Json>>
  {
    var items :- lookup(data, Lit("inferred_data_ig_interest"), [Lit("string_map_data")]);
    MapAll(items, (x: Json) => LabelValue(x, Lit("Interest")))
  }

  function TopicNames(data: Json, lookup: Lookup): Result<seq<Json>>
  {
    var items :- lookup(data, Lit("topics_your_topics"), [Lit("string_map_data")]);
    MapAll(items, (x: Json) => LabelValue(x, Lit("Name")))
  }

  function StoryDates(data: Json, lookup: Lookup): Result<seq<Instant>>
  {
    var stamps :- lookup(data, Lit("ig_stories"), [Lit("creation_timestamp")]);
    MapAll(stamps, (x: Json) => Ok(FromSeconds(x)))
  }

  /** One case of the switch applied to one parsed file: the message case
      appends to its list, every other case replaces its own list. */
  function Apply(acc: InstagramRecord, data: Json, k: Rule, lookup: Lookup, decode: Decoder): Result<InstagramRecord>
  {
    var c := acc.contributions;
    var rel := acc.relationships;
    var interests := acc.interests;
    match k
    case Comments =>
      var dates :- CommentDates(data, lookup);
      Ok(acc.(contributions := c.(comments := dates)))
    case Messages =>
      var added :- ThreadEntries(data, decode);
      Ok(acc.(contributions := c.(messages := c.messages + added)))
    case Posts =>
      var dates :- PostDates(data);
      Ok(acc.(contributions := c.(posts := dates)))
    case Likes =>
      var dates :- LikeDates(data, lookup);
      Ok(acc.(contributions := c.(likes := dates)))
    case Followers =>
      var accounts :- FollowerAccounts(data, lookup);
      Ok(acc.(relationships := rel.(followers := accounts)))
    case Followings =>
      var accounts :- FollowingAccounts(data, lookup);
      Ok(acc.(relationships := rel.(followings := accounts)))
    case Ads =>
      var ads :- AdInterests(data, lookup);
      Ok(acc.(interests := interests.(ads := ads)))
    case Topics =>
      var topics :- TopicNames(data, lookup);
      Ok(acc.(interests := interests.(topics := topics)))
    case Stories =>
      var dates :- StoryDates(data, lookup);
      Ok(acc.(contributions := c.(stories := dates)))
  }

  /** One application of the rule: the case the basename selects, or
      nothing at all. */
  function Step(acc: InstagramRecord, data: Json, path: JsString, lookup: Lookup, decode: Decoder): Result<InstagramRecord>
  {
    match RuleOf(path)
    case None => Ok(acc)
    case Some(k) => Apply(acc, data, k, lookup, decode)
  }

  /** processInstagram: the JSON rule run over an archive. */
  function ProcessInstagram(archive: Option<seq<Archive.Entry>>, supported: seq<JsString>,
                            parseJson: JsString -> Result<Json>, lookup: Lookup): Result<InstagramRecord>
  {
    Archive.ProcessCompany(Initial, (a, d, p) => Step(a, d, p, lookup, JsonUtils.DecodeString), parseJson, archive, supported)
  }

  /** A basename no case names leaves the record unchanged; the file of a
      case is handed to that case. */
  lemma StepSelects(acc: InstagramRecord, data: Json, path: JsString, lookup: Lookup, decode: Decoder)
    ensures (forall k :: path != FileOf(k)) ==> Step(acc, data, path, lookup, decode) == Ok(acc)
    ensures forall k :: path == FileOf(k) ==> Step(acc, data, path, lookup, decode) == Apply(acc, data, k, lookup, decode)
  {
    forall k | path == FileOf(k) ensures Step(acc, data, path, lookup, decode) == Apply(acc, data, k, lookup, decode) {
      RuleOfFile(path, k);
    }
    RuleOfFile(path, Comments);
  }

  /** Each message becomes at most one entry, carrying the participant. */
  lemma {:induction false} FromOthersShape(participant: JsString, contents: seq<seq<Json>>)
    ensures |FromOthers(participant, contents)| <= |contents|
    ensures forall j :: 0 <= j < |FromOthers(participant, contents)| ==>
      FromOthers(participant, contents)[j].participant == participant
  {
    if contents != [] {
      FromOthersShape(participant, contents[1..]);
    }
  }

  /** Every message yields an entry exactly when none was sent under the
      participant's name, and none does exactly when all were. */
  lemma {:induction false} FromOthersCount(participant: JsString, contents: seq<seq<Json>>)
    ensures |FromOthers(participant, contents)| == |contents| <==>
      forall i :: 0 <= i < |contents| ==> At(contents[i], 0) != JStr(participant)
    ensures FromOthers(participant, contents) == [] <==>
      forall i :: 0 <= i < |contents| ==> At(contents[i], 0) == JStr(participant)
  {
    if contents != [] {
      var tail := contents[1..];
      FromOthersCount(participant, tail);
      FromOthersShape(participant, tail);
      assert forall i :: 1 <= i < |contents| ==> tail[i - 1] == contents[i];
      if forall i :: 0 <= i < |contents| ==> At(contents[i], 0) != JStr(participant) {
        assert forall i :: 0 <= i < |tail| ==> At(tail[i], 0) != JStr(participant) by {
          forall i | 0 <= i < |tail| ensures At(tail[i], 0) != JStr(participant) {
            assert tail[i] == contents[i + 1];
          }
        }
      }
      if forall i :: 0 <= i < |contents| ==> At(contents[i], 0) == JStr(participant) {
        assert forall i :: 0 <= i < |tail| ==> At(tail[i], 0) == JStr(participant) by {
          forall i | 0 <= i < |tail| ensures At(tail[i], 0) == JStr(participant) {
            assert tail[i] == contents[i + 1];
          }
        }
      }
    }
  }

  /** The entries of two runs of messages are the entries of each, in order. */
  lemma {:induction false} FromOthersConcat(participant: JsString, a: seq<seq<Json>>, b: seq<seq<Json>>)
    ensures FromOthers(participant, a + b) == FromOthers(participant, a) + FromOthers(participant, b)
  {
    if a != [] {
      assert (a + b)[1..] == a[1..] + b;
      FromOthersConcat(participant, a[1..], b);
    } else {
      assert a + b == b;
    }
  }

  /** One message from the other party gives one entry dated by its
      timestamp; one sent under the participant's name gives none. */
  lemma FromOthersSingle(participant: JsString, sender: Json, stamp: int)
    ensures sender != JStr(participant) ==>
      FromOthers(participant, [[sender, JNum(stamp)]]) == [Message(participant, DateOf(Some(stamp)))]
    ensures sender == JStr(participant) ==> FromOthers(participant, [[sender, JNum(stamp)]]) == []
  {
    assert [[sender, JNum(stamp)]][1..] == [];
  }

  /** A thread with more than two participants contributes nothing. */
  lemma LargeThreadIgnored(data: Json, decode: Decoder, values: seq<Json>, participants: seq<Json>)
    requires JsonUtils.GetValuesFromObject(data, ThreadFields) == Ok(values)
    requires At(values, 0) == JArr(participants)
    requires |participants| > 2
    ensures ThreadEntries(data, decode) == Ok([])
  {
  }

  /** A thread with at most two participants contributes its messages. */
  lemma SmallThreadEntries(data: Json, decode: Decoder, values: seq<Json>, participants: seq<Json>)
    requires JsonUtils.GetValuesFromObject(data, ThreadFields) == Ok(values)
    requires At(values, 0) == JArr(participants)
    requires |participants| <= 2
    ensures ThreadEntries(data, decode) == ThreadMessages(values, decode)
  {
    assert Length(At(values, 0)) == Ok(JNum(|participants|));
    assert SmallThread(JNum(|participants|));
  }

  /** The messages of a thread whose first participant has the name `name`
      that `decode` turns into `participant`. */
  lemma NamedThreadMessages(values: seq<Json>, decode: Decoder, first: Json, name: Json, participant: JsString,
                            messages: seq<Json>, contents: seq<seq<Json>>)
    requires Index(At(values, 0), 0) == Ok(first)
    requires FieldValue(first, Lit("name")) == Ok(name)
    requires decode(ToJsString(name)) == Ok(participant)
    requires At(values, 1) == JArr(messages)
    requires MapAll(messages, ContentOf) == Ok(contents)
    ensures ThreadMessages(values, decode) == Ok(FromOthers(participant, contents))
  {
  }

  /** A thread with at most two participants contributes one entry per
      message whose raw sender differs from the decoded name of its first
      participant, each carrying that name and the message's timestamp. */
  lemma SmallThreadKeepsOthers(data: Json, decode: Decoder, values: seq<Json>, participants: seq<Json>,
                               first: Json, name: Json, participant: JsString,
                               messages: seq<Json>, contents: seq<seq<Json>>)
    requires JsonUtils.GetValuesFromObject(data, ThreadFields) == Ok(values)
    requires At(values, 0) == JArr(participants)
    requires |participants| <= 2
    requires Index(At(values, 0), 0) == Ok(first)
    requires FieldValue(first, Lit("name")) == Ok(name)
    requires decode(ToJsString(name)) == Ok(participant)
    requires At(values, 1) == JArr(messages)
    requires MapAll(messages, ContentOf) == Ok(contents)
    ensures ThreadEntries(data, decode) == Ok(FromOthers(participant, contents))
  {
    SmallThreadEntries(data, decode, values, participants);
    NamedThreadMessages(values, decode, first, name, participant, messages, contents);
  }

  /** The message case only ever adds the thread's entries after the ones
      already there, and changes nothing else. */
  lemma MessagesConcatenated(acc: InstagramRecord, data: Json, lookup: Lookup, decode: Decoder)
    ensures Apply(acc, data, Messages, lookup, decode).Ok? <==> ThreadEntries(data, decode).Ok?
    ensures Apply(acc, data, Messages, lookup, decode).Ok? ==>
      var r := Apply(acc, data, Messages, lookup, decode).value;
      var n := |acc.contributions.messages|;
      && Extends(r.contributions.messages, acc.contributions.messages, |ThreadEntries(data, decode).value|)
      && r.contributions.messages[n..] == ThreadEntries(data, decode).value
      && r == acc.(contributions := acc.contributions.(messages := r.contributions.messages))
  {
    if ThreadEntries(data, decode).Ok? {
      var old_ := acc.contributions.messages;
      var added := ThreadEntries(data, decode).value;
      assert (old_ + added)[..|old_|] == old_;
      assert (old_ + added)[|old_|..] == added;
    }
  }

  /** Object keys that start with a letter are not array indices. */
  lemma ThreadKeys()
    ensures !IsArrayIndex(Lit("participants")) && !IsArrayIndex(Lit("messages"))
    ensures !IsArrayIndex(Lit("name")) && !IsArrayIndex(Lit("value"))
  {
    assert !IsDigitUnit(Lit("participants")[0]);
    assert !IsDigitUnit(Lit("messages")[0]);
    assert !IsDigitUnit(Lit("name")[0]);
    assert !IsDigitUnit(Lit("value")[0]);
  }

  /** The projection of a two-property object on both of its keys. */
  lemma PairFields(pk: JsString, mk: JsString, p: Json, m: Json)
    requires !IsArrayIndex(pk) && !IsArrayIndex(mk)
    ensures JsonUtils.GetValuesFromObject(JObj([Prop(pk, p), Prop(mk, m)]), [pk, mk]) == Ok([p, m])
  {
    JsonUtils.GetValuesFromPlainObject([Prop(pk, p), Prop(mk, m)], [pk, mk]);
    JsonUtils.SelectPair(Prop(pk, p), Prop(mk, m), [pk, mk]);
  }

  /** `{key: v}` projected on `key`. */
  lemma SingleField(key: JsString, v: Json)
    requires !IsArrayIndex(key)
    ensures FieldValue(JObj([Prop(key, v)]), key) == Ok(v)
  {
    JsonUtils.GetValuesFromPlainObject([Prop(key, v)], [key]);
  }

  /** A two-party thread `{participants: [{name: n}, ...], messages: [...]}`
      gives one entry per message from the other party, named after the
      decoded name `n`. */
  lemma TwoPartyThread(data: Json, decode: Decoder, participants: seq<Json>, messages: seq<Json>,
                       name: JsString, participant: JsString, contents: seq<seq<Json>>)
    requires data == JObj([Prop(Lit("participants"), JArr(participants)), Prop(Lit("messages"), JArr(messages))])
    requires 1 <= |participants| <= 2
    requires participants[0] == JObj([Prop(Lit("name"), JStr(name))])
    requires decode(name) == Ok(participant)
    requires MapAll(messages, ContentOf) == Ok(contents)
    ensures ThreadEntries(data, decode) == Ok(FromOthers(participant, contents))
  {
    ThreadKeys();
    var values := [JArr(participants), JArr(messages)];
    PairFields(Lit("participants"), Lit("messages"), JArr(participants), JArr(messages));
    SmallThreadEntries(data, decode, values, participants);
    SingleField(Lit("name"), JStr(name));
    StringToString(name);
    NamedThreadMessages(values, decode, participants[0], JStr(name), participant, messages, contents);
  }

  /** The list of dates a date-replacing case writes. */
  function DatesOf(r: InstagramRecord, k: Rule): seq<Instant>
  {
    match k
    case Comments => r.contributions.comments
    case Posts => r.contributions.posts
    case Likes => r.contributions.likes
    case _ => r.contributions.stories
  }

  /** The comment, post, like and story cases replace their list, whatever
      it held before, and change nothing else. */
  lemma DatesReplaced(acc: InstagramRecord, other: InstagramRecord, data: Json, k: Rule, lookup: Lookup, decode: Decoder)
    requires k in {Comments, Posts, Likes, Stories}
    ensures Apply(acc, data, k, lookup, decode).Ok? ==>
      var r := Apply(acc, data, k, lookup, decode).value;
      && r.relationships == acc.relationships && r.interests == acc.interests
      && r.contributions.messages == acc.contributions.messages
      && (k != Comments ==> r.contributions.comments == acc.contributions.comments)
      && (k != Posts ==> r.contributions.posts == acc.contributions.posts)
      && (k != Likes ==> r.contributions.likes == acc.contributions.likes)
      && (k != Stories ==> r.contributions.stories == acc.contributions.stories)
      && Apply(other, data, k, lookup, decode).Ok?
      && DatesOf(Apply(other, data, k, lookup, decode).value, k) == DatesOf(r, k)
  {
  }

  /** Comments and likes: one date per entry getValueFromObjectArray yields,
      read from the `timestamp` of the entry's first element. */
  lemma OneDatePerEntry(data: Json, lookup: Lookup)
    ensures CommentDates(data, lookup).Ok? ==>
      && lookup(data, Lit("comments_media_comments"), [Lit("string_list_data")]).Ok?
      && var items := lookup(data, Lit("comments_media_comments"), [Lit("string_list_data")]).value;
      && |CommentDates(data, lookup).value| == |items|
      && forall i :: 0 <= i < |items| ==> StampOf(items[i], Lit("timestamp")) == Ok(CommentDates(data, lookup).value[i])
    ensures LikeDates(data, lookup).Ok? ==>
      && lookup(data, Lit("likes_media_likes"), [Lit("string_list_data")]).Ok?
      && var items := lookup(data, Lit("likes_media_likes"), [Lit("string_list_data")]).value;
      && |LikeDates(data, lookup).value| == |items|
      && forall i :: 0 <= i < |items| ==> StampOf(items[i], Lit("timestamp")) == Ok(LikeDates(data, lookup).value[i])
  {
  }

  /** Posts: one date per element of the parsed array; anything else throws. */
  lemma OneDatePerPost(data: Json)
    ensures PostDates(data).Ok? ==>
      && data.JArr? && |PostDates(data).value| == |data.elems|
      && forall i :: 0 <= i < |data.elems| ==> PostDate(data.elems[i]) == Ok(PostDates(data).value[i])
    ensures !data.JArr? ==> PostDates(data) == Err(TypeError)
  {
  }

  /** An entry whose first element records `t` seconds under `key` is
      dated `t` × 1000 milliseconds. */
  lemma StampInSeconds(item: Json, key: JsString, t: int, rest: seq<Json>)
    requires !IsArrayIndex(key)
    requires item == JArr([JObj([Prop(key, JNum(t))])] + rest)
    requires -MaxTimeMs <= t * 1000 <= MaxTimeMs
    ensures StampOf(item, key) == Ok(Time(t * 1000))
  {
    SingleField(key, JNum(t));
  }

  /** A post whose media's first element records `t` seconds is dated
      `t` × 1000 milliseconds. */
  lemma PostInSeconds(post: Json, mk: JsString, ck: JsString, t: int, rest: seq<Json>)
    requires mk == Lit("media") && ck == Lit("creation_timestamp")
    requires post == JObj([Prop(mk, JArr([JObj([Prop(ck, JNum(t))])] + rest))])
    requires -MaxTimeMs <= t * 1000 <= MaxTimeMs
    ensures PostDate(post) == Ok(Time(t * 1000))
  {
    assert !IsArrayIndex(mk) by { assert !IsDigitUnit(mk[0]); }
    assert !IsArrayIndex(ck) by { assert !IsDigitUnit(ck[0]); }
    SingleField(mk, JArr([JObj([Prop(ck, JNum(t))])] + rest));
    StampInSeconds(JArr([JObj([Prop(ck, JNum(t))])] + rest), ck, t, rest);
  }

  /** Story timestamps of `t` seconds become dates of `t` × 1000 milliseconds. */
  lemma StoriesInSeconds(data: Json, lookup: Lookup, stamps: seq<int>)
    requires lookup(data, Lit("ig_stories"), [Lit("creation_timestamp")]) ==
             Ok(seq(|stamps|, i requires 0 <= i < |stamps| => JNum(stamps[i])))
    requires forall i :: 0 <= i < |stamps| ==> -MaxTimeMs <= stamps[i] * 1000 <= MaxTimeMs
    ensures StoryDates(data, lookup).Ok?
    ensures var dates := StoryDates(data, lookup).value;
      |dates| == |stamps| && forall i :: 0 <= i < |stamps| ==> dates[i] == Time(stamps[i] * 1000)
  {
  }

  /** The list the followers, followings, ads or topics case writes. */
  function ListOf(r: InstagramRecord, k: Rule): seq<Json>
  {
    match k
    case Followers => r.relationships.followers
    case Followings => r.relationships.followings
    case Ads => r.interests.ads
    case _ => r.interests.topics
  }

  /** What the followers, followings, ads or topics case `k` promises of
      one application: every other list is unchanged, and the list it
      writes is the same had it been applied to `other` instead. */
  predicate ListReplaced(acc: InstagramRecord, other: InstagramRecord, data: Json, k: Rule, lookup: Lookup, decode: Decoder)
  {
    Apply(acc, data, k, lookup, decode).Ok? ==>
      var r := Apply(acc, data, k, lookup, decode).value;
      && r.contributions == acc.contributions
      && (k != Followers ==> r.relationships.followers == acc.relationships.followers)
      && (k != Followings ==> r.relationships.followings == acc.relationships.followings)
      && (k != Ads ==> r.interests.ads == acc.interests.ads)
      && (k != Topics ==> r.interests.topics == acc.interests.topics)
      && Apply(other, data, k, lookup, decode).Ok?
      && ListOf(Apply(other, data, k, lookup, decode).value, k) == ListOf(r, k)
  }

  lemma FollowersReplaced(acc: InstagramRecord, other: InstagramRecord, data: Json, lookup: Lookup, decode: Decoder)
    ensures ListReplaced(acc, other, data, Followers, lookup, decode)
  {
  }

  lemma FollowingsReplaced(acc: InstagramRecord, other: InstagramRecord, data: Json, lookup: Lookup, decode: Decoder)
    ensures ListReplaced(acc, other, data, Followings, lookup, decode)
  {
  }

  lemma AdsReplaced(acc: InstagramRecord, other: InstagramRecord, data: Json, lookup: Lookup, decode: Decoder)
    ensures ListReplaced(acc, other, data, Ads, lookup, decode)
  {
  }

  lemma TopicsReplaced(acc: InstagramRecord, other: InstagramRecord, data: Json, lookup: Lookup, decode: Decoder)
    ensures ListReplaced(acc, other, data, Topics, lookup, decode)
  {
  }

  /** The followers, followings, ads and topics cases replace their list,
      whatever it held before, and change nothing else. */
  lemma ListsReplaced(acc: InstagramRecord, other: InstagramRecord, data: Json, k: Rule, lookup: Lookup, decode: Decoder)
    requires k in {Followers, Followings, Ads, Topics}
    ensures Apply(acc, data, k, lookup, decode).Ok? ==>
      var r := Apply(acc, data, k, lookup, decode).value;
      && r.contributions == acc.contributions
      && (k != Followers ==> r.relationships.followers == acc.relationships.followers)
      && (k != Followings ==> r.relationships.followings == acc.relationships.followings)
      && (k != Ads ==> r.interests.ads == acc.interests.ads)
      && (k != Topics ==> r.interests.topics == acc.interests.topics)
      && Apply(other, data, k, lookup, decode).Ok?
      && ListOf(Apply(other, data, k, lookup, decode).value, k) == ListOf(r, k)
  {
    if k == Followers {
      FollowersReplaced(acc, other, data, lookup, decode);
    } else if k == Followings {
      FollowingsReplaced(acc, other, data, lookup, decode);
    } else if k == Ads {
      AdsReplaced(acc, other, data, lookup, decode);
    } else {
      TopicsReplaced(acc, other, data, lookup, decode);
    }
  }

  /** One account per entry, read from the `value` of its first element. */
  lemma OneAccountPerEntry(data: Json, lookup: Lookup)
    ensures FollowerAccounts(data, lookup).Ok? ==>
      && lookup(data, Lit("relationships_followers"), [Lit("string_list_data")]).Ok?
      && var items := lookup(data, Lit("relationships_followers"), [Lit("string_list_data")]).value;
      && |FollowerAccounts(data, lookup).value| == |items|
      && forall i :: 0 <= i < |items| ==> AccountOf(items[i]) == Ok(FollowerAccounts(data, lookup).value[i])
    ensures FollowingAccounts(data, lookup).Ok? ==>
      && lookup(data, Lit("relationships_following"), [Lit("string_list_data")]).Ok?
      && var items := lookup(data, Lit("relationships_following"), [Lit("string_list_data")]).value;
      && |FollowingAccounts(data, lookup).value| == |items|
      && forall i :: 0 <= i < |items| ==> AccountOf(items[i]) == Ok(FollowingAccounts(data, lookup).value[i])
  {
  }

  /** An account entry whose first element is `{value: v}` is recorded as `v`. */
  lemma AccountValue(item: Json, v: Json, rest: seq<Json>)
    requires item == JArr([JObj([Prop(Lit("value"), v)])] + rest)
    ensures AccountOf(item) == Ok(v)
  {
    ThreadKeys();
    SingleField(Lit("value"), v);
  }

  /** An interest or topic entry `{field: {value: v}}` is recorded as `v`. */
  lemma LabelledValue(item: Json, field: JsString, v: Json)
    requires !IsArrayIndex(field)
    requires item == JObj([Prop(field, JObj([Prop(Lit("value"), v)]))])
    ensures LabelValue(item, field) == Ok(v)
  {
    ThreadKeys();
    SingleField(field, JObj([Prop(Lit("value"), v)]));
    SingleField(Lit("value"), v);
  }
}

=== FILE: instagram_dashboard.dfy ===
/** The figures the Instagram detail page (DetailPage/InstagramDetailPage.tsx)
    computes from an extracted record before charting them: mutual
    relationships, messages per participant, and the two word clouds. The
    charts themselves are not modelled. */
module InstagramDashboard {
  import opened JsStrings
  import opened JsValues
  import Instagram

  /** The followers that the user also follows, in follower order. */
  function Mutuals<T(==)>(followers: seq<T>, followings: seq<T>): seq<T>
  {
    if followers == [] then []
    else (if followers[0] in followings then [followers[0]] else []) + Mutuals(followers[1..], followings)
  }

  /** A follower is mutual as many times as it is listed among the
      followers if it is also followed, and never otherwise. */
  lemma {:induction false} MutualsCount<T>(followers: seq<T>, followings: seq<T>)
    ensures forall x ::
              multiset(Mutuals(followers, followings))[x] == (if x in followings then multiset(followers)[x] else 0)
    ensures |Mutuals(followers, followings)| <= |followers|
  {
    if followers != [] {
      MutualsCount(followers[1..], followings);
      assert followers == [followers[0]] + followers[1..];
    }
  }

  /** Mutuals distributes over a split of the followers, so the mutuals
      keep the followers' order. */
  lemma {:induction false} MutualsConcat<T>(xs: seq<T>, ys: seq<T>, followings: seq<T>)
    ensures Mutuals(xs + ys, followings) == Mutuals(xs, followings) + Mutuals(ys, followings)
  {
    if xs == [] {
      assert xs + ys == ys;
    } else {
      MutualsConcat(xs[1..], ys, followings);
      assert (xs + ys)[1..] == xs[1..] + ys;
      assert (xs + ys)[0] == xs[0];
    }
  }

  /** getRelationships: the three bars of the relationship chart. */
  function RelationshipFigures(rel: Instagram.Relationships): (r: seq<int>)
    ensures |r| == 3
    ensures r[0] == |rel.followers| && r[1] == |rel.followings|
    ensures r[2] == |Mutuals(rel.followers, rel.followings)|
    ensures 0 <= r[2] <= r[0]
  {
    MutualsCount(rel.followers, rel.followings);
    [|rel.followers|, |rel.followings|, |Mutuals(rel.followers, rel.followings)|]
  }

  /** How many of `ms` were exchanged with participant `p`. */
  function Count(ms: seq<Instagram.Message>, p: JsString): nat
  {
    if ms == [] then 0
    else Count(ms[..|ms| - 1], p) + (if ms[|ms| - 1].participant == p then 1 else 0)
  }

  /** A participant is counted at all exactly when some message is theirs. */
  lemma {:induction false} CountPositive(ms: seq<Instagram.Message>, p: JsString)
    ensures Count(ms, p) > 0 <==> exists j :: 0 <= j < |ms| && ms[j].participant == p
  {
    if ms != [] {
      var init := ms[..|ms| - 1];
      CountPositive(init, p);
      if Count(init, p) > 0 {
        var j :| 0 <= j < |init| && init[j].participant == p;
        assert ms[j] == init[j];
      }
      if exists j :: 0 <= j < |ms| && ms[j].participant == p {
        var j :| 0 <= j < |ms| && ms[j].participant == p;
        if j < |init| {
          assert init[j] == ms[j];
        }
      }
    }
  }

  /** One more message adds one to its participant's count and nothing to
      anyone else's. */
  lemma CountSnoc(ms: seq<Instagram.Message>, i: nat)
    requires i < |ms|
    ensures forall q :: Count(ms[..i + 1], q) == Count(ms[..i], q) + (if ms[i].participant == q then 1 else 0)
  {
    assert ms[..i + 1][..i] == ms[..i];
  }

  predicate Distinct<T(==)>(xs: seq<T>)
  {
    forall a, b :: 0 <= a < b < |xs| ==> xs[a] != xs[b]
  }

  /** The counts of `keys` added up. */
  function Sum(keys: seq<JsString>, counts: map<JsString, nat>): int
    requires forall k :: k in keys ==> k in counts
  {
    if keys == [] then 0 else counts[keys[0]] + Sum(keys[1..], counts)
  }

  /** Changing the count of a participant that is not a key leaves the sum. */
  lemma {:induction false} SumOther(keys: seq<JsString>, counts: map<JsString, nat>, p: JsString, v: nat)
    requires forall k :: k in keys ==> k in counts
    requires p !in keys
    ensures Sum(keys, counts[p := v]) == Sum(keys, counts)
  {
    if keys != [] {
      SumOther(keys[1..], counts, p, v);
    }
  }

  /** Changing the count of a key that occurs once changes the sum by the
      difference. */
  lemma {:induction false} SumUpdate(keys: seq<JsString>, counts: map<JsString, nat>, p: JsString, v: nat)
    requires forall k :: k in keys ==> k in counts
    requires Distinct(keys) && p in keys
    ensures Sum(keys, counts[p := v]) == Sum(keys, counts) - counts[p] + v
  {
    if keys[0] == p {
      assert p !in keys[1..];
      SumOther(keys[1..], counts, p, v);
    } else {
      SumUpdate(keys[1..], counts, p, v);
    }
  }

  /** Appending a key adds its count. */
  lemma {:induction false} SumAppend(keys: seq<JsString>, counts: map<JsString, nat>, p: JsString)
    requires forall k :: k in keys ==> k in counts
    requires p in counts
    ensures Sum(keys + [p], counts) == Sum(keys, counts) + counts[p]
  {
    if keys == [] {
      assert keys + [p] == [p];
    } else {
      SumAppend(keys[1..], counts, p);
      assert (keys + [p])[1..] == keys[1..] + [p];
    }
  }

  /** `keys` and `counts` tally the messages `ms`: each participant that
      occurs is a key once and is mapped to the number of their messages. */
  ghost predicate Tallies(keys: seq<JsString>, counts: map<JsString, nat>, ms: seq<Instagram.Message>)
  {
    && Distinct(keys)
    && (forall p :: p in counts <==> p in keys)
    && (forall p :: p in counts <==> Count(ms, p) > 0)
    && (forall p :: p in counts ==> counts[p] == Count(ms, p))
    && Sum(keys, counts) == |ms|
  }

  /** A message from a participant not seen before adds a key counting 1. */
  lemma TallyNew(keys: seq<JsString>, counts: map<JsString, nat>, ms: seq<Instagram.Message>, i: nat)
    requires i < |ms| && Tallies(keys, counts, ms[..i]) && ms[i].participant !in counts
    ensures Tallies(keys + [ms[i].participant], counts[ms[i].participant := 1], ms[..i + 1])
  {
    var p := ms[i].participant;
    CountSnoc(ms, i);
    SumOther(keys, counts, p, 1);
    SumAppend(keys, counts[p := 1], p);
  }

  /** A message from a participant seen before adds 1 to their count. */
  lemma TallyOld(keys: seq<JsString>, counts: map<JsString, nat>, ms: seq<Instagram.Message>, i: nat)
    requires i < |ms| && Tallies(keys, counts, ms[..i]) && ms[i].participant in counts
    ensures Tallies(keys, counts[ms[i].participant := counts[ms[i].participant] + 1], ms[..i + 1])
  {
    var p := ms[i].participant;
    CountSnoc(ms, i);
    SumUpdate(keys, counts, p, counts[p] + 1);
  }

  /** getMessageDistribution: one key per participant, in the order of
      their first message, mapped to the number of their messages. */
  method MessageDistribution(ms: seq<Instagram.Message>) returns (keys: seq<JsString>, counts: map<JsString, nat>)
    ensures Distinct(keys)
    ensures forall p :: p in counts <==> p in keys
    ensures forall p :: p in counts <==> exists j :: 0 <= j < |ms| && ms[j].participant == p
    ensures forall p :: p in counts ==> counts[p] == Count(ms, p)
    ensures Sum(keys, counts) == |ms|
  {
    keys, counts := [], map[];
    var i := 0;
    while i < |ms|
      invariant i <= |ms|
      invariant Tallies(keys, counts, ms[..i])
    {
      var p := ms[i].participant;
      if p !in counts {
        TallyNew(keys, counts, ms, i);
        keys, counts := keys + [p], counts[p := 1];
      } else {
        TallyOld(keys, counts, ms, i);
        counts := counts[p := counts[p] + 1];
      }
      i := i + 1;
    }
    assert ms[..i] == ms;
    forall p ensures p in counts <==> exists j :: 0 <= j < |ms| && ms[j].participant == p {
      CountPositive(ms, p);
    }
  }

  /** One word of a word cloud: its text and its weight. */
  datatype Word = Word(text: Json, value: int)

  /** A word cloud shows at most this many words. */
  const MaxWords: nat := 30
  const AdValue: int := 10
  const TopicValue: int := 15

  function Texts(ws: seq<Word>): seq<Json>
  {
    seq(|ws|, i requires 0 <= i < |ws| => ws[i].text)
  }

  /** The first words of the shuffled items, each with weight `value`.
      `shuffled` is the order the random sort produced, which the caller
      supplies as a permutation of the items. */
  function WordCloud(items: seq<Json>, shuffled: seq<Json>, value: int): (r: seq<Word>)
    requires multiset(shuffled) == multiset(items)
  {
    var words := seq(|shuffled|, i requires 0 <= i < |shuffled| => Word(shuffled[i], value));
    if |words| <= MaxWords then words else words[..MaxWords]
  }

  /** At most MaxWords words, all of weight `value`, drawn without repetition
      from the items, and all of the items when there are few enough. */
  lemma WordCloudSpec(items: seq<Json>, shuffled: seq<Json>, value: int)
    requires multiset(shuffled) == multiset(items)
    ensures var r := WordCloud(items, shuffled, value);
      |r| <= MaxWords &&
      |r| == (if |items| <= MaxWords then |items| else MaxWords) &&
      (forall k :: 0 <= k < |r| ==> r[k].value == value) &&
      multiset(Texts(r)) <= multiset(items) &&
      (|items| <= MaxWords ==> multiset(Texts(r)) == multiset(items))
  {
    var r := WordCloud(items, shuffled, value);
    assert |shuffled| == |items| by {
      assert |multiset(shuffled)| == |multiset(items)|;
    }
    var n := |r|;
    assert Texts(r) == shuffled[..n];
    assert shuffled == shuffled[..n] + shuffled[n..];
    assert multiset(shuffled) == multiset(shuffled[..n]) + multiset(shuffled[n..]);
  }

  /** getAddWordCloud: the ads of interest, weighted 10. */
  function AdWordCloud(i: Instagram.Interests, shuffled: seq<Json>): (r: seq<Word>)
    requires multiset(shuffled) == multiset(i.ads)
    ensures |r| <= MaxWords
    ensures forall k :: 0 <= k < |r| ==> r[k].value == AdValue
    ensures multiset(Texts(r)) <= multiset(i.ads)
  {
    WordCloudSpec(i.ads, shuffled, AdValue);
    WordCloud(i.ads, shuffled, AdValue)
  }

  /** getTopicWordCloud: the topics of interest, weighted 15. */
  function TopicWordCloud(i: Instagram.Interests, shuffled: seq<Json>): (r: seq<Word>)
    requires multiset(shuffled) == multiset(i.topics)
    ensures |r| <= MaxWords
    ensures forall k :: 0 <= k < |r| ==> r[k].value == TopicValue
    ensures multiset(Texts(r)) <= multiset(i.topics)
  {
    WordCloudSpec(i.topics, shuffled, TopicValue);
    WordCloud(i.topics, shuffled, TopicValue)
  }
}

=== FILE: js_strings.dfy ===
/** JavaScript strings: sequences of UTF-16 code units, and the few
    String.prototype operations the extraction pipeline relies on
    (indexOf, lastIndexOf, includes, substring, substr) together with the
    decimal text of integers used for array-index property keys. */
module JsStrings {

  /** One UTF-16 code unit. */
  type CodeUnit = x: int | 0 <= x < 0x1_0000

  /** A JavaScript string value. */
  type JsString = seq<CodeUnit>

  /** The code units of a literal written in this model; every literal used is
      ASCII, so each character is its own code unit. */
  function Lit(s: string): JsString
  {
    seq(|s|, i requires 0 <= i < |s| => if s[i] as int < 0x1_0000 then s[i] as int else 0xFFFD)
  }

  function Clamp(x: int, lo: int, hi: int): (r: int)
    requires lo <= hi
    ensures lo <= r <= hi
    ensures lo <= x <= hi ==> r == x
  {
    if x < lo then lo else if x > hi then hi else x
  }

  /** `pat` occurs in `s` starting at index `k`. */
  predicate OccursAt(s: JsString, pat: JsString, k: int)
  {
    0 <= k && k + |pat| <= |s| && s[k..k + |pat|] == pat
  }

  /** The first occurrence of `pat` at an index `k` or later, or -1. */
  function IndexOfFrom(s: JsString, pat: JsString, k: nat): int
    requires k <= |s|
    decreases |s| - k
  {
    if k + |pat| > |s| then -1
    else if s[k..k + |pat|] == pat then k
    else IndexOfFrom(s, pat, k + 1)
  }

  lemma {:induction false} IndexOfFromSpec(s: JsString, pat: JsString, k: nat)
    requires k <= |s|
    ensures var r := IndexOfFrom(s, pat, k);
      && (r == -1 || (k <= r && OccursAt(s, pat, r)))
      && forall j :: k <= j && (r == -1 || j < r) ==> !OccursAt(s, pat, j)
    decreases |s| - k
  {
    if k + |pat| <= |s| && s[k..k + |pat|] != pat {
      IndexOfFromSpec(s, pat, k + 1);
    }
  }

  /** String.prototype.indexOf(pat, from): the start position is clamped
      into [0, |s|] before the search. */
  function IndexOf(s: JsString, pat: JsString, from: int): int
  {
    IndexOfFrom(s, pat, Clamp(from, 0, |s|))
  }

  /** indexOf finds the first occurrence at or after the clamped start. */
  lemma IndexOfSpec(s: JsString, pat: JsString, from: int)
    ensures var r := IndexOf(s, pat, from);
      && (r == -1 || (Clamp(from, 0, |s|) <= r && OccursAt(s, pat, r)))
      && forall j :: Clamp(from, 0, |s|) <= j && (r == -1 || j < r) ==> !OccursAt(s, pat, j)
  {
    IndexOfFromSpec(s, pat, Clamp(from, 0, |s|));
  }

  /** The last occurrence of `pat` at an index no greater than `k`, or -1. */
  function LastIndexOfUpTo(s: JsString, pat: JsString, k: int): int
    requires -1 <= k
    decreases k + 1
  {
    if k < 0 then -1
    else if OccursAt(s, pat, k) then k
    else LastIndexOfUpTo(s, pat, k - 1)
  }

  lemma {:induction false} LastIndexOfUpToSpec(s: JsString, pat: JsString, k: int)
    requires -1 <= k
    ensures var r := LastIndexOfUpTo(s, pat, k);
      && (r == -1 || (r <= k && OccursAt(s, pat, r)))
      && forall j :: j <= k && r < j ==> !OccursAt(s, pat, j)
    decreases k + 1
  {
    if k >= 0 && !OccursAt(s, pat, k) {
      LastIndexOfUpToSpec(s, pat, k - 1);
    }
  }

  /** String.prototype.lastIndexOf(pat) with no position argument: the
      search starts from the end of the string. */
  function LastIndexOf(s: JsString, pat: JsString): int
  {
    LastIndexOfUpTo(s, pat, |s|)
  }

  /** lastIndexOf finds the last occurrence, or -1 when there is none. */
  lemma LastIndexOfSpec(s: JsString, pat: JsString)
    ensures var r := LastIndexOf(s, pat);
      && (r == -1 || OccursAt(s, pat, r))
      && forall j :: r < j ==> !OccursAt(s, pat, j)
  {
    LastIndexOfUpToSpec(s, pat, |s|);
  }

  /** String.prototype.includes(pat). */
  predicate Includes(s: JsString, pat: JsString)
  {
    IndexOf(s, pat, 0) != -1
  }

  /** String.prototype.substring(start, end): both bounds are clamped into
      [0, |s|] and swapped when start is the larger. */
  function Substring(s: JsString, start: int, end: int): (r: JsString)
    ensures |r| <= |s|
    ensures 0 <= start <= end <= |s| ==> r == s[start..end]
    ensures 0 <= end <= start <= |s| ==> r == s[end..start]
  {
    var a := Clamp(start, 0, |s|);
    var b := Clamp(end, 0, |s|);
    if a <= b then s[a..b] else s[b..a]
  }

  /** substring does not care about the order of its bounds, and a bound
      outside [0, |s|] acts as the nearest end of the string. */
  lemma SubstringClamped(s: JsString, start: int, end: int)
    ensures Substring(s, start, end) == Substring(s, end, start)
    ensures Substring(s, start, end) == Substring(s, Clamp(start, 0, |s|), Clamp(end, 0, |s|))
    ensures start <= 0 ==> Substring(s, start, end) == Substring(s, 0, end)
    ensures |s| <= end ==> Substring(s, start, end) == Substring(s, start, |s|)
  {
  }

  /** The start index of String.prototype.substr (section B.2.2.1 of
      ECMA-262): a negative start counts back from the end of the string. */
  function SubstrStart(s: JsString, start: int): (k: int)
    ensures 0 <= k <= |s|
  {
    if start < 0 then (if |s| + start < 0 then 0 else |s| + start)
    else if start > |s| then |s|
    else start
  }

  /** String.prototype.substr(start) with no length argument. */
  function SubstrFrom(s: JsString, start: int): (r: JsString)
    ensures 0 <= start <= |s| ==> r == s[start..]
    ensures -|s| <= start < 0 ==> r == s[|s| + start..]
  {
    s[SubstrStart(s, start)..]
  }

  /** A start before the beginning of the string gives all of it, and one
      past its end gives nothing. */
  lemma SubstrFromOutOfRange(s: JsString, start: int)
    ensures start < -|s| ==> SubstrFrom(s, start) == s
    ensures start > |s| ==> SubstrFrom(s, start) == []
  {
  }

  /** String.prototype.substr(start, length). */
  function SubstrLen(s: JsString, start: int, length: int): (r: JsString)
    ensures 0 <= start && 0 <= length && start + length <= |s| ==> r == s[start..start + length]
  {
    var a := SubstrStart(s, start);
    var n := Clamp(length, 0, |s|);
    var b := if a + n > |s| then |s| else a + n;
    s[a..b]
  }

  /** The code unit of a decimal digit. */
  function DigitUnit(d: nat): CodeUnit
    requires d < 10
  {
    0x30 + d
  }

  predicate IsDigitUnit(c: CodeUnit)
  {
    0x30 <= c <= 0x39
  }

  /** The decimal text of a natural number, as Number::toString prints it. */
  function NatToDecimal(n: nat): (r: JsString)
    ensures |r| > 0
    ensures forall i :: 0 <= i < |r| ==> IsDigitUnit(r[i])
    ensures |r| > 1 ==> r[0] != 0x30
    decreases n
  {
    if n < 10 then [DigitUnit(n)] else NatToDecimal(n / 10) + [DigitUnit(n % 10)]
  }

  /** The decimal text of an integer, with a leading '-' when negative. */
  function IntToDecimal(n: int): JsString
  {
    if n < 0 then [0x2D] + NatToDecimal(-n) else NatToDecimal(n)
  }

  /** The value of a string of decimal digits. */
  function DecimalValue(s: JsString): nat
    requires forall i :: 0 <= i < |s| ==> IsDigitUnit(s[i])
  {
    if s == [] then 0
    else
      assert IsDigitUnit(s[|s| - 1]);
      DecimalValue(s[..|s| - 1]) * 10 + (s[|s| - 1] - 0x30)
  }

  /** Reading back the decimal text of `n` gives `n`. */
  lemma {:induction false} DecimalRoundTrip(n: nat)
    ensures DecimalValue(NatToDecimal(n)) == n
    decreases n
  {
    if n >= 10 {
      DecimalRoundTrip(n / 10);
      var d := NatToDecimal(n / 10);
      var s := d + [DigitUnit(n % 10)];
      assert s[..|s| - 1] == d;
    }
  }

  /** A property key that is an array index (section 6.1.7 of ECMA-262): the
      canonical decimal text of an integer below 2^32 - 1. */
  predicate IsArrayIndex(k: JsString)
  {
    && |k| > 0
    && (forall i :: 0 <= i < |k| ==> IsDigitUnit(k[i]))
    && (|k| == 1 || k[0] != 0x30)
    && DecimalValue(k) < 0xFFFF_FFFF
  }

  /** The property key under which an array or string stores element `i`. */
  function IndexKey(i: nat): (k: JsString)
    ensures i < 0xFFFF_FFFF ==> IsArrayIndex(k) && DecimalValue(k) == i
  {
    DecimalRoundTrip(i);
    NatToDecimal(i)
  }
}

=== FILE: js_values.dfy ===
/** JavaScript values as the extraction code handles them: the output of
    JSON.parse or of the CSV parser, plus `undefined`. Objects keep their
    properties in creation order; Object.entries then lists them in the order
    of the OrdinaryOwnPropertyKeys operation of ECMA-262 (array-index keys
    ascending, then the other keys in creation order). Property reads that
    JavaScript would make on `null` or `undefined` fail with TypeError. */
module JsValues {
  import opened JsStrings
  import Sorting

  /** The JavaScript exceptions the pipeline can raise. */
  datatype JsError =
    | TypeError    // property access on null or undefined, calling a missing method
    | URIError     // decodeURIComponent on a malformed escape sequence
    | SyntaxError  // JSON.parse on malformed text
    | ReadError    // an archive entry that cannot be decoded as text

  datatype Option<+T> = None | Some(value: T)

  /** A computation that either yields a value or throws. */
  datatype Result<+T> = Ok(value: T) | Err(error: JsError) {
    predicate IsFailure() { Err? }

    function PropagateFailure<U>(): Result<U>
      requires Err?
    {
      Err(error)
    }

    function Extract(): T
      requires Ok?
    {
      value
    }
  }

  datatype Json =
    | Undef
    | JNull
    | JBool(b: bool)
    | JNum(n: int)
    | JStr(s: JsString)
    | JArr(elems: seq<Json>)
    | JObj(props: seq<Prop>)

  /** One own property, as a key and its value. */
  datatype Prop = Prop(key: JsString, value: Json)

  /** The element at index `i`, or `undefined` past the end (JavaScript's
      `xs[i]` on an array). */
  function At(xs: seq<Json>, i: nat): Json
  {
    if i < |xs| then xs[i] else Undef
  }

  function Keys(ps: seq<Prop>): seq<JsString>
  {
    seq(|ps|, i requires 0 <= i < |ps| => ps[i].key)
  }

  function Values(ps: seq<Prop>): seq<Json>
  {
    seq(|ps|, i requires 0 <= i < |ps| => ps[i].value)
  }

  /** The numeric value of an array-index key; 0 for any other key. */
  function KeyNumber(k: JsString): nat
  {
    if IsArrayIndex(k) then DecimalValue(k) else 0
  }

  function IndexProps(ps: seq<Prop>): (r: seq<Prop>)
    ensures multiset(r) <= multiset(ps)
    ensures forall p :: p in r <==> p in ps && IsArrayIndex(p.key)
  {
    if ps == [] then []
    else
      assert ps == [ps[0]] + ps[1..];
      (if IsArrayIndex(ps[0].key) then [ps[0]] else []) + IndexProps(ps[1..])
  }

  function NamedProps(ps: seq<Prop>): (r: seq<Prop>)
    ensures forall p :: p in r <==> p in ps && !IsArrayIndex(p.key)
  {
    if ps == [] then []
    else (if IsArrayIndex(ps[0].key) then [] else [ps[0]]) + NamedProps(ps[1..])
  }

  lemma {:induction false} SplitByIndex(ps: seq<Prop>)
    ensures multiset(IndexProps(ps)) + multiset(NamedProps(ps)) == multiset(ps)
  {
    if ps != [] {
      SplitByIndex(ps[1..]);
      assert ps == [ps[0]] + ps[1..];
    }
  }

  /** The rank array-index keys are sorted by. */
  function IndexRank(p: Prop): int
  {
    KeyNumber(p.key)
  }

  /** The own properties of an ordinary object in [[OwnPropertyKeys]] order. */
  function OwnOrder(ps: seq<Prop>): seq<Prop>
  {
    Sorting.SortBy(IndexProps(ps), IndexRank) + NamedProps(ps)
  }

  /** The reordering neither adds nor drops a property. */
  lemma OwnOrderPermutes(ps: seq<Prop>)
    ensures multiset(OwnOrder(ps)) == multiset(ps)
    ensures |OwnOrder(ps)| == |ps|
  {
    SplitByIndex(ps);
    var r := OwnOrder(ps);
    assert |multiset(r)| == |multiset(ps)|;
  }

  /** Objects without array-index keys list their properties in creation order. */
  lemma {:induction false} OwnOrderWithoutIndexKeys(ps: seq<Prop>)
    requires forall p :: p in ps ==> !IsArrayIndex(p.key)
    ensures OwnOrder(ps) == ps
  {
    IndexPropsNone(ps);
    NamedPropsAll(ps);
  }

  lemma {:induction false} IndexPropsNone(ps: seq<Prop>)
    requires forall p :: p in ps ==> !IsArrayIndex(p.key)
    ensures IndexProps(ps) == []
  {
    if ps != [] {
      assert ps[0] in ps;
      IndexPropsNone(ps[1..]);
    }
  }

  lemma {:induction false} NamedPropsAll(ps: seq<Prop>)
    requires forall p :: p in ps ==> !IsArrayIndex(p.key)
    ensures NamedProps(ps) == ps
  {
    if ps != [] {
      assert ps[0] in ps;
      NamedPropsAll(ps[1..]);
      assert ps == [ps[0]] + ps[1..];
    }
  }

  /** The array-index keys come first, in ascending numeric order. */
  lemma OwnOrderIndexKeysFirst(ps: seq<Prop>)
    ensures var r := OwnOrder(ps);
      forall i, j :: 0 <= i < j < |r| && IsArrayIndex(r[j].key) ==>
        IsArrayIndex(r[i].key) && IndexRank(r[i]) <= IndexRank(r[j])
  {
    var s := Sorting.SortBy(IndexProps(ps), IndexRank);
    var n := NamedProps(ps);
    forall k | 0 <= k < |s| ensures IsArrayIndex(s[k].key) {
      assert s[k] in multiset(IndexProps(ps));
    }
    forall k | 0 <= k < |n| ensures !IsArrayIndex(n[k].key) {
      assert n[k] in n;
    }
    IndexKeysBeforeNames(s, n);
  }

  /** Sorted index-keyed properties followed by named ones keep every index
      key ahead of the names, in ascending order. */
  lemma IndexKeysBeforeNames(s: seq<Prop>, n: seq<Prop>)
    requires forall k :: 0 <= k < |s| ==> IsArrayIndex(s[k].key)
    requires forall k :: 0 <= k < |n| ==> !IsArrayIndex(n[k].key)
    requires Sorting.SortedBy(s, IndexRank)
    ensures var r := s + n;
      forall i, j :: 0 <= i < j < |r| && IsArrayIndex(r[j].key) ==>
        IsArrayIndex(r[i].key) && IndexRank(r[i]) <= IndexRank(r[j])
  {
    var r := s + n;
    assert forall k :: |s| <= k < |r| ==> !IsArrayIndex(r[k].key) by {
      forall k | |s| <= k < |r| ensures !IsArrayIndex(r[k].key) {
        assert r[k] == n[k - |s|];
      }
    }
    forall i, j | 0 <= i < j < |r| && IsArrayIndex(r[j].key)
      ensures IsArrayIndex(r[i].key) && IndexRank(r[i]) <= IndexRank(r[j])
    {
      if j < |s| {
        assert r[i] == s[i] && r[j] == s[j];
      }
    }
  }

  /** The entries Object.entries lists for a value, or TypeError for null
      and undefined. Arrays and strings list their elements under index keys;
      numbers and booleans have no own enumerable properties. */
  function Entries(v: Json): (r: Result<seq<Prop>>)
    ensures r.Err? <==> v.Undef? || v.JNull?
    ensures r.Err? ==> r.error == TypeError
  {
    match v
    case Undef => Err(TypeError)
    case JNull => Err(TypeError)
    case JBool(_) => Ok([])
    case JNum(_) => Ok([])
    case JStr(s) => Ok(seq(|s|, i requires 0 <= i < |s| => Prop(IndexKey(i), JStr([s[i]]))))
    case JArr(a) => Ok(seq(|a|, i requires 0 <= i < |a| => Prop(IndexKey(i), a[i])))
    case JObj(ps) => Ok(OwnOrder(ps))
  }

  /** An array lists its elements under their index keys; an object lists
      exactly its own properties. */
  lemma EntriesListed(v: Json)
    ensures v.JArr? ==> Entries(v) == Ok(seq(|v.elems|, i requires 0 <= i < |v.elems| => Prop(IndexKey(i), v.elems[i])))
    ensures v.JObj? ==> Entries(v).Ok? && multiset(Entries(v).value) == multiset(v.props)
  {
    match v
    case JArr(a) =>
      assert Entries(v) == Ok(seq(|a|, i requires 0 <= i < |a| => Prop(IndexKey(i), a[i])));
    case JObj(ps) =>
      OwnOrderPermutes(ps);
    case _ =>
  }

  /** The value of the property named `k`, or undefined. */
  function FindProp(ps: seq<Prop>, k: JsString): Json
  {
    if ps == [] then Undef
    else if ps[0].key == k then ps[0].value
    else FindProp(ps[1..], k)
  }

  /** Property lookup finds the first property with the key. */
  lemma {:induction false} FindPropFirst(ps: seq<Prop>, k: JsString, j: nat)
    requires j < |ps| && ps[j].key == k
    requires forall i :: 0 <= i < j ==> ps[i].key != k
    ensures FindProp(ps, k) == ps[j].value
  {
    if j > 0 {
      assert ps[0].key != k;
      assert forall i :: 0 <= i < j - 1 ==> ps[1..][i] == ps[i + 1];
      FindPropFirst(ps[1..], k, j - 1);
    }
  }

  /** Looking up a key no property has gives undefined. */
  lemma {:induction false} FindPropAbsent(ps: seq<Prop>, k: JsString)
    requires forall i :: 0 <= i < |ps| ==> ps[i].key != k
    ensures FindProp(ps, k) == Undef
  {
    if ps != [] {
      assert ps[0].key != k;
      assert forall i :: 0 <= i < |ps| - 1 ==> ps[1..][i] == ps[i + 1];
      FindPropAbsent(ps[1..], k);
    }
  }

  /** JavaScript's `v[i]`. */
  function Index(v: Json, i: nat): (r: Result<Json>)
    ensures r.Err? <==> v.Undef? || v.JNull?
    ensures v.JArr? ==> r == Ok(At(v.elems, i))
  {
    match v
    case Undef => Err(TypeError)
    case JNull => Err(TypeError)
    case JBool(_) => Ok(Undef)
    case JNum(_) => Ok(Undef)
    case JStr(s) => Ok(if i < |s| then JStr([s[i]]) else Undef)
    case JArr(a) => Ok(At(a, i))
    case JObj(ps) => Ok(FindProp(ps, IndexKey(i)))
  }

  /** JavaScript's `v.length`. */
  function Length(v: Json): (r: Result<Json>)
    ensures r.Err? <==> v.Undef? || v.JNull?
    ensures v.JArr? ==> r == Ok(JNum(|v.elems|))
  {
    match v
    case Undef => Err(TypeError)
    case JNull => Err(TypeError)
    case JBool(_) => Ok(Undef)
    case JNum(_) => Ok(Undef)
    case JStr(s) => Ok(JNum(|s|))
    case JArr(a) => Ok(JNum(|a|))
    case JObj(ps) => Ok(FindProp(ps, Lit("length")))
  }

  function Join(parts: seq<JsString>, sep: JsString): JsString
  {
    if parts == [] then []
    else if |parts| == 1 then parts[0]
    else parts[0] + sep + Join(parts[1..], sep)
  }

  /** The ToString operation of ECMA-262 on the values modelled here. */
  function ToJsString(v: Json): JsString
    decreases v, 1
  {
    match v
    case Undef => Lit("undefined")
    case JNull => Lit("null")
    case JBool(b) => if b then Lit("true") else Lit("false")
    case JNum(n) => IntToDecimal(n)
    case JStr(s) => s
    case JArr(a) => ElementsText(a)
    case JObj(_) => Lit("[object Object]")
  }

  /** Array.prototype.join with ',' as an array's ToString: undefined and
      null elements become empty text. */
  function ElementsText(a: seq<Json>): JsString
    decreases a, 0
  {
    Join(seq(|a|, i requires 0 <= i < |a| =>
      if a[i].Undef? || a[i].JNull? then [] else ToJsString(a[i])), Lit(","))
  }

  /** A string converts to itself. */
  lemma StringToString(s: JsString)
    ensures ToJsString(JStr(s)) == s
  {
  }

  /** ToNumber on the values modelled here; None stands for NaN. Numeric
      text in strings and single-element arrays is not converted. */
  function NumberOf(v: Json): Option<int>
  {
    match v
    case JNum(n) => Some(n)
    case JNull => Some(0)
    case JBool(b) => Some(if b then 1 else 0)
    case _ => None
  }

  /** A Date's time value in milliseconds since the epoch, or an invalid date. */
  datatype Instant = Time(ms: int) | InvalidDate

  /** The largest absolute time value a Date can hold. */
  const MaxTimeMs: int := 8_640_000_000_000_000

  /** `new Date(t)` for a number `t` (TimeClip of ECMA-262); None is NaN. */
  function DateOf(t: Option<int>): (d: Instant)
    ensures d.Time? <==> t.Some? && -MaxTimeMs <= t.value <= MaxTimeMs
    ensures d.Time? ==> d.ms == t.value
  {
    match t
    case None => InvalidDate
    case Some(n) => if -MaxTimeMs <= n <= MaxTimeMs then Time(n) else InvalidDate
  }

  /** `new Date(v * 1000)`: a timestamp in seconds as a Date. */
  function FromSeconds(v: Json): (d: Instant)
    ensures v.JNum? && -MaxTimeMs <= v.n * 1000 <= MaxTimeMs ==> d == Time(v.n * 1000)
    ensures v.Undef? ==> d == InvalidDate
  {
    match NumberOf(v)
    case None => InvalidDate
    case Some(n) => DateOf(Some(n * 1000))
  }

  /** The elements an array method such as `forEach` or `map` walks; on
      anything but an array the method is missing and the call throws. */
  function Elements(v: Json): (r: Result<seq<Json>>)
    ensures r.Ok? <==> v.JArr?
    ensures r.Ok? ==> r.value == v.elems
    ensures r.Err? ==> r.error == TypeError
  {
    if v.JArr? then Ok(v.elems) else Err(TypeError)
  }

  /** `longer` is `shorter` followed by exactly `n` more elements. */
  predicate Extends<T(==)>(longer: seq<T>, shorter: seq<T>, n: nat)
  {
    |longer| == |shorter| + n && longer[..|shorter|] == shorter
  }
}

=== FILE: json_utils.dfy ===
/** The JSON lookup helpers of the extraction pipeline (jsonUtils.tsx):
    key-filtered projection, dotted-path lookup with a one-level flatMap
    through arrays, the bulk copy of parsed rows into records, and the
    decoding of text whose UTF-8 octets were stored one per code unit. */
module JsonUtils {
  import opened JsStrings
  import opened JsValues
  import UriCoding
  import Utf8

  const Dot: JsString := [0x2E]

  /** The values of the entries whose key is one of `keys`, in entry order. */
  function Select(es: seq<Prop>, keys: seq<JsString>): seq<Json>
  {
    if es == [] then []
    else (if es[0].key in keys then [es[0].value] else []) + Select(es[1..], keys)
  }

  /** getValuesFromObject: walks Object.entries(obj) and keeps the values
      whose key `keys.includes`. Object.entries throws on null and undefined. */
  function GetValuesFromObject(obj: Json, keys: seq<JsString>): (r: Result<seq<Json>>)
    ensures r.Err? <==> obj.Undef? || obj.JNull?
  {
    var es :- Entries(obj);
    Ok(Select(es, keys))
  }

  /** Every position moved one place on. */
  function Shift(xs: seq<nat>): (r: seq<nat>)
    ensures |r| == |xs| && forall j :: 0 <= j < |xs| ==> r[j] == xs[j] + 1
  {
    seq(|xs|, j requires 0 <= j < |xs| => xs[j] + 1)
  }

  /** The positions of the entries whose key is one of `keys`, ascending;
      an index-level description of Select. */
  function MatchIndices(es: seq<Prop>, keys: seq<JsString>): seq<nat>
  {
    if es == [] then []
    else (if es[0].key in keys then [0] else []) + Shift(MatchIndices(es[1..], keys))
  }

  /** `idx` lists, in ascending order, positions of `es` whose key is one of `keys`. */
  predicate Matching(idx: seq<nat>, es: seq<Prop>, keys: seq<JsString>)
  {
    && (forall j :: 0 <= j < |idx| ==> idx[j] < |es| && es[idx[j]].key in keys)
    && (forall j, j' :: 0 <= j < j' < |idx| ==> idx[j] < idx[j'])
  }

  /** Every listed position holds a requested key, and the positions ascend. */
  lemma {:induction false} MatchIndicesSound(es: seq<Prop>, keys: seq<JsString>)
    ensures Matching(MatchIndices(es, keys), es, keys)
  {
    if es != [] {
      var rest := MatchIndices(es[1..], keys);
      MatchIndicesSound(es[1..], keys);
      MatchingShift(es, keys, rest);
      MatchIndicesStep(es, keys);
      if es[0].key in keys {
        MatchingCons(es, keys, Shift(rest));
      } else {
        assert [] + Shift(rest) == Shift(rest);
      }
    }
  }

  lemma MatchingShift(es: seq<Prop>, keys: seq<JsString>, idx: seq<nat>)
    requires es != [] && Matching(idx, es[1..], keys)
    ensures Matching(Shift(idx), es, keys)
  {
    var sh := Shift(idx);
    forall j | 0 <= j < |sh| ensures sh[j] < |es| && es[sh[j]].key in keys {
      assert es[1..][idx[j]] == es[idx[j] + 1];
    }
  }

  lemma MatchingCons(es: seq<Prop>, keys: seq<JsString>, idx: seq<nat>)
    requires es != [] && es[0].key in keys && Matching(idx, es, keys)
    requires forall j :: 0 <= j < |idx| ==> 0 < idx[j]
    ensures Matching([0] + idx, es, keys)
  {
    var r := [0] + idx;
    forall j | 1 <= j < |r| ensures r[j] == idx[j - 1] { }
  }

  /** No matching position is missed. */
  lemma {:induction false} MatchIndicesComplete(es: seq<Prop>, keys: seq<JsString>, i: nat)
    requires i < |es| && es[i].key in keys
    ensures exists j :: 0 <= j < |MatchIndices(es, keys)| && MatchIndices(es, keys)[j] == i
  {
    var idx := MatchIndices(es, keys);
    if i == 0 {
      assert idx[0] == 0;
    } else {
      var rest := MatchIndices(es[1..], keys);
      var h := if es[0].key in keys then 1 else 0;
      assert idx == (if h == 1 then [0] else []) + Shift(rest);
      assert es[1..][i - 1] == es[i];
      MatchIndicesComplete(es[1..], keys, i - 1);
      var j :| 0 <= j < |rest| && rest[j] == i - 1;
      var sh := Shift(rest);
      assert sh[j] == i;
      assert idx[j + h] == sh[j];
    }
  }

  /** As many values as matching positions, and no more than entries. */
  lemma {:induction false} SelectLength(es: seq<Prop>, keys: seq<JsString>)
    ensures |Select(es, keys)| == |MatchIndices(es, keys)| <= |es|
  {
    if es != [] {
      SelectLength(es[1..], keys);
    }
  }

  /** Select yields exactly the values at the matching positions, in order:
      nothing else, nothing missing, nothing reordered. */
  lemma {:induction false} SelectIsMatches(es: seq<Prop>, keys: seq<JsString>)
    ensures var r := Select(es, keys); var idx := MatchIndices(es, keys);
      && |r| == |idx| <= |es|
      && forall j :: 0 <= j < |r| ==> idx[j] < |es| && r[j] == es[idx[j]].value
  {
    SelectLength(es, keys);
    if es != [] {
      SelectIsMatches(es[1..], keys);
      SelectTail(es, keys);
    }
  }

  /** `r` lists the values of `es` at the positions `idx`. */
  predicate ValuesAt(r: seq<Json>, es: seq<Prop>, idx: seq<nat>)
  {
    |r| == |idx| && forall j :: 0 <= j < |r| ==> idx[j] < |es| && r[j] == es[idx[j]].value
  }

  /** Positions in the rest of the entries, moved one place on, are
      positions in the entries. */
  lemma ValuesAtShift(es: seq<Prop>, r: seq<Json>, idx: seq<nat>)
    requires es != [] && ValuesAt(r, es[1..], idx)
    ensures ValuesAt(r, es, Shift(idx))
  {
    var sh := Shift(idx);
    forall j | 0 <= j < |r| ensures sh[j] < |es| && r[j] == es[sh[j]].value {
      assert es[1..][idx[j]] == es[idx[j] + 1];
    }
  }

  /** The first entry's value, then values at positions past it. */
  lemma ValuesAtCons(es: seq<Prop>, r: seq<Json>, idx: seq<nat>)
    requires es != [] && ValuesAt(r, es, idx)
    ensures ValuesAt([es[0].value] + r, es, [0] + idx)
  {
    var r' := [es[0].value] + r;
    var idx' := [0] + idx;
    forall j | 1 <= j < |r'| ensures idx'[j] < |es| && r'[j] == es[idx'[j]].value {
      assert r'[j] == r[j - 1] && idx'[j] == idx[j - 1];
    }
  }

  /** The step of SelectIsMatches: the matches past the first entry are the
      matches of the rest, one position on. */
  lemma SelectTail(es: seq<Prop>, keys: seq<JsString>)
    requires es != []
    requires ValuesAt(Select(es[1..], keys), es[1..], MatchIndices(es[1..], keys))
    ensures ValuesAt(Select(es, keys), es, MatchIndices(es, keys))
  {
    var rest := MatchIndices(es[1..], keys);
    var r1 := Select(es[1..], keys);
    SelectStep(es, keys);
    MatchIndicesStep(es, keys);
    ValuesAtShift(es, r1, rest);
    if es[0].key in keys {
      ValuesAtCons(es, r1, Shift(rest));
    } else {
      assert [] + r1 == r1 && [] + Shift(rest) == Shift(rest);
    }
  }

  lemma SelectStep(es: seq<Prop>, keys: seq<JsString>)
    requires es != []
    ensures Select(es, keys) == (if es[0].key in keys then [es[0].value] else []) + Select(es[1..], keys)
  {
  }

  lemma MatchIndicesStep(es: seq<Prop>, keys: seq<JsString>)
    requires es != []
    ensures MatchIndices(es, keys) == (if es[0].key in keys then [0] else []) + Shift(MatchIndices(es[1..], keys))
  {
  }

  /** Only which keys are asked for matters: not their order, not duplicates. */
  lemma {:induction false} SelectKeySetOnly(es: seq<Prop>, keys1: seq<JsString>, keys2: seq<JsString>)
    requires forall k :: k in keys1 <==> k in keys2
    ensures Select(es, keys1) == Select(es, keys2)
  {
    if es != [] {
      SelectKeySetOnly(es[1..], keys1, keys2);
    }
  }

  /** The projection is empty exactly when no entry has a requested key. */
  lemma {:induction false} SelectEmptyIff(es: seq<Prop>, keys: seq<JsString>)
    ensures Select(es, keys) == [] <==> forall i :: 0 <= i < |es| ==> es[i].key !in keys
  {
    if es != [] {
      SelectEmptyIff(es[1..], keys);
      assert forall i :: 1 <= i < |es| ==> es[1..][i - 1] == es[i];
    }
  }

  /** Asking for every key present returns every value. */
  lemma {:induction false} SelectAll(es: seq<Prop>, keys: seq<JsString>)
    requires forall i :: 0 <= i < |es| ==> es[i].key in keys
    ensures Select(es, keys) == Values(es)
  {
    if es != [] {
      SelectAll(es[1..], keys);
      assert Values(es) == [es[0].value] + Values(es[1..]);
    }
  }

  /** The first value selected for a single key is the value of the first
      entry with that key, or undefined. */
  lemma {:induction false} SelectOneKey(es: seq<Prop>, k: JsString)
    ensures At(Select(es, [k]), 0) == FindProp(es, k)
  {
    if es != [] && es[0].key != k {
      SelectOneKey(es[1..], k);
    }
  }

  /** Projecting two entries whose keys are both asked for keeps both. */
  lemma SelectPair(e1: Prop, e2: Prop, keys: seq<JsString>)
    requires e1.key in keys && e2.key in keys
    ensures Select([e1, e2], keys) == [e1.value, e2.value]
  {
    var es := [e1, e2];
    assert es[1..] == [e2] && [e2][1..] == [];
    assert Select([e2], keys) == [e2.value];
  }

  /** For an object whose keys are not array indices, the projection follows
      the creation order of its properties. */
  lemma GetValuesFromPlainObject(ps: seq<Prop>, keys: seq<JsString>)
    requires forall p :: p in ps ==> !IsArrayIndex(p.key)
    ensures GetValuesFromObject(JObj(ps), keys) == Ok(Select(ps, keys))
  {
    OwnOrderWithoutIndexKeys(ps);
    assert Entries(JObj(ps)) == Ok(ps);
  }

  /** The values one key contributes to getValuesFromNestedObject. A key
      without '.' contributes the first value stored under it (undefined if
      absent). A dotted key is split at its first '.', and each entry named
      by the part before it contributes the lookup of the rest in the entry's
      value, flat-mapped one level over the elements when the value is an
      array. */
  function KeyValues(obj: Json, key: JsString): Result<seq<Json>>
    decreases |key|, 2, 0
  {
    if !Includes(key, Dot) then
      var vs :- GetValuesFromObject(obj, [key]);
      Ok([At(vs, 0)])
    else
      var d := IndexOf(key, Dot, 0);
      IndexOfSpec(key, Dot, 0);
      var es :- Entries(obj);
      OverEntries(es, SubstrLen(key, 0, d), SubstrFrom(key, d + 1))
  }

  function OverEntries(es: seq<Prop>, prefix: JsString, rest: JsString): Result<seq<Json>>
    decreases |rest| + 1, 1, |es|
  {
    if es == [] then Ok([])
    else if es[0].key != prefix then OverEntries(es[1..], prefix, rest)
    else
      var v := es[0].value;
      var out :- if v.JArr? then FlatMapped(v.elems, rest) else FirstOf(v, rest);
      var tail :- OverEntries(es[1..], prefix, rest);
      Ok([out] + tail)
  }

  /** `getValuesFromNestedObject(v, [rest])[0]`. */
  function FirstOf(v: Json, rest: JsString): Result<Json>
    decreases |rest| + 1, 0, 0
  {
    var vs :- KeyValues(v, rest);
    Ok(At(vs, 0))
  }

  /** `a.flatMap((e) => getValuesFromNestedObject(e, [rest])[0])`. */
  function FlatMapped(a: seq<Json>, rest: JsString): Result<Json>
    decreases |rest| + 1, 0, |a| + 1
  {
    var parts :- FlatParts(a, rest);
    Ok(JArr(parts))
  }

  function FlatParts(a: seq<Json>, rest: JsString): Result<seq<Json>>
    decreases |rest| + 1, 0, |a|
  {
    if a == [] then Ok([])
    else
      var x :- FirstOf(a[0], rest);
      var tail :- FlatParts(a[1..], rest);
      Ok((if x.JArr? then x.elems else [x]) + tail)
  }

  /** getValuesFromNestedObject: the contributions of the keys, in key order. */
  function GetValuesFromNestedObject(obj: Json, keys: seq<JsString>): Result<seq<Json>>
  {
    if keys == [] then Ok([])
    else
      var head :- KeyValues(obj, keys[0]);
      var tail :- GetValuesFromNestedObject(obj, keys[1..]);
      Ok(head + tail)
  }

  /** Which keys of `es` equal `k`, counted. */
  function CountKey(es: seq<Prop>, k: JsString): (n: nat)
    ensures n <= |es|
  {
    if es == [] then 0 else (if es[0].key == k then 1 else 0) + CountKey(es[1..], k)
  }

  /** A dot-free key contributes exactly one value: the value stored under it,
      or undefined. Only null and undefined objects throw. */
  lemma DotFreeKey(obj: Json, key: JsString)
    requires !Includes(key, Dot)
    ensures KeyValues(obj, key).Err? <==> obj.Undef? || obj.JNull?
    ensures KeyValues(obj, key).Ok? ==>
      KeyValues(obj, key).value == [FindProp(Entries(obj).value, key)]
  {
    if !(obj.Undef? || obj.JNull?) {
      SelectOneKey(Entries(obj).value, key);
    }
  }

  /** A dotted key contributes one value per entry named by its prefix, and
      nothing when no entry has that name. */
  lemma {:induction false} DottedKeyCount(es: seq<Prop>, prefix: JsString, rest: JsString)
    ensures OverEntries(es, prefix, rest).Ok? ==> |OverEntries(es, prefix, rest).value| == CountKey(es, prefix)
    ensures CountKey(es, prefix) == 0 ==> OverEntries(es, prefix, rest) == Ok([])
    decreases |es|
  {
    if es != [] {
      DottedKeyCount(es[1..], prefix, rest);
    }
  }

  /** The split of a dotted key: everything before its first '.' and
      everything after it. */
  lemma DottedKeySplit(key: JsString, obj: Json)
    requires Includes(key, Dot) && !(obj.Undef? || obj.JNull?)
    ensures var d := IndexOf(key, Dot, 0);
      && 0 <= d < |key| && key[d] == 0x2E
      && (forall j :: 0 <= j < d ==> key[j] != 0x2E)
      && KeyValues(obj, key) == OverEntries(Entries(obj).value, key[..d], key[d + 1..])
  {
    var d := IndexOf(key, Dot, 0);
    IndexOfSpec(key, Dot, 0);
    assert OccursAt(key, Dot, d);
    assert key[d..d + 1] == Dot;
    forall j | 0 <= j < d ensures key[j] != 0x2E {
      assert !OccursAt(key, Dot, j);
      assert key[j..j + 1] == [key[j]];
    }
  }

  /** When every element of an array yields a non-array first value, the
      flatMap is the plain map: one output per element. */
  lemma {:induction false} FlatPartsOfScalars(a: seq<Json>, rest: JsString, xs: seq<Json>)
    requires |xs| == |a|
    requires forall i :: 0 <= i < |a| ==> FirstOf(a[i], rest) == Ok(xs[i]) && !xs[i].JArr?
    ensures FlatParts(a, rest) == Ok(xs)
  {
    if a != [] {
      assert forall i :: 1 <= i < |a| ==> a[1..][i - 1] == a[i] && xs[1..][i - 1] == xs[i];
      FlatPartsOfScalars(a[1..], rest, xs[1..]);
      FlatPartsConcat(a, rest);
      HeadTail(xs);
    }
  }

  lemma HeadTail<T>(xs: seq<T>)
    requires xs != []
    ensures xs == [xs[0]] + xs[1..]
  {
  }

  /** An array value's results are spliced in: an element whose lookup is
      itself an array contributes all of its elements. */
  lemma FlatPartsConcat(a: seq<Json>, rest: JsString)
    requires a != [] && FirstOf(a[0], rest).Ok? && FlatParts(a[1..], rest).Ok?
    ensures var x := FirstOf(a[0], rest).value;
      FlatParts(a, rest) == Ok((if x.JArr? then x.elems else [x]) + FlatParts(a[1..], rest).value)
  {
  }

  /** A one-property object looked up with its own (dot-free, non-index) key. */
  lemma LookupSingle(key: JsString, v: Json)
    requires !Includes(key, Dot) && !IsArrayIndex(key)
    ensures FirstOf(JObj([Prop(key, v)]), key) == Ok(v)
  {
    OwnOrderWithoutIndexKeys([Prop(key, v)]);
    DotFreeKey(JObj([Prop(key, v)]), key);
  }

  lemma FlatPartsTwo(e1: Json, e2: Json, rest: JsString, x1: Json, x2: Json)
    requires FirstOf(e1, rest) == Ok(x1) && FirstOf(e2, rest) == Ok(x2) && !x1.JArr? && !x2.JArr?
    ensures FlatParts([e1, e2], rest) == Ok([x1, x2])
  {
    var es := [e1, e2];
    assert es[0] == e1 && es[1..] == [e2] && [e2][0] == e2 && [e2][1..] == [];
    assert FlatParts([], rest) == Ok([]);
    var r2 := FlatParts([e2], rest);
    assert r2.Ok? && r2.value == [x2];
    var r := FlatParts(es, rest);
    assert r.Ok? && r.value == [x1, x2];
  }

  lemma OverSingleArray(prefix: JsString, rest: JsString, a: seq<Json>, parts: seq<Json>)
    requires FlatParts(a, rest) == Ok(parts)
    ensures OverEntries([Prop(prefix, JArr(a))], prefix, rest) == Ok([JArr(parts)])
  {
    var es := [Prop(prefix, JArr(a))];
    assert es[0].key == prefix && es[0].value.JArr?;
    assert FlatMapped(a, rest) == Ok(JArr(parts));
    assert OverEntries(es[1..], prefix, rest) == Ok([]);
    var r := OverEntries(es, prefix, rest);
    assert r.Ok? && r.value == [JArr(parts)];
  }

  lemma ExampleKeys()
    ensures !IsArrayIndex([0x61]) && !IsArrayIndex([0x62]) && !Includes([0x62], Dot)
    ensures Includes([0x61, 0x2E, 0x62], Dot) && IndexOf([0x61, 0x2E, 0x62], Dot, 0) == 1
  {
    var b: JsString := [0x62];
    var key: JsString := [0x61, 0x2E, 0x62];
    assert !OccursAt(b, Dot, 0) by { assert b[0..1] == [0x62]; }
    assert OccursAt(key, Dot, 1) by { assert key[1..2] == Dot; }
    assert !OccursAt(key, Dot, 0) by { assert key[0..1] == [0x61]; }
  }

  /** The object `{a: [{b: 1}, {b: 2}]}`. */
  function ExampleObject(): Json
  {
    JObj([Prop([0x61], JArr([JObj([Prop([0x62], JNum(1))]), JObj([Prop([0x62], JNum(2))])]))])
  }

  /** The entries of the example object, in creation order. */
  lemma ExampleEntries(obj: Json, ps: seq<Prop>)
    requires obj == ExampleObject()
    requires ps == [Prop([0x61], JArr([JObj([Prop([0x62], JNum(1))]), JObj([Prop([0x62], JNum(2))])]))]
    ensures Entries(obj) == Ok(ps)
  {
    ExampleKeys();
    OwnOrderWithoutIndexKeys(ps);
  }

  /** The entry named "a" holds an array; "b" is looked up in each element. */
  lemma ExampleOverEntries(a: JsString, b: JsString, e1: Json, e2: Json)
    requires a == [0x61] && b == [0x62]
    requires e1 == JObj([Prop(b, JNum(1))]) && e2 == JObj([Prop(b, JNum(2))])
    ensures OverEntries([Prop(a, JArr([e1, e2]))], a, b) == Ok([JArr([JNum(1), JNum(2)])])
  {
    ExampleKeys();
    LookupSingle(b, JNum(1));
    LookupSingle(b, JNum(2));
    FlatPartsTwo(e1, e2, b, JNum(1), JNum(2));
    OverSingleArray(a, b, [e1, e2], [JNum(1), JNum(2)]);
  }

  /** "a.b" splits into "a" and "b". */
  lemma ExampleSplit(obj: Json, key: JsString)
    requires obj == ExampleObject() && key == [0x61, 0x2E, 0x62]
    ensures KeyValues(obj, key) == OverEntries(Entries(obj).value, [0x61], [0x62])
  {
    ExampleKeys();
    DottedKeySplit(key, obj);
    assert key[..1] == [0x61] && key[2..] == [0x62];
  }

  lemma ExampleKeyValues(obj: Json, key: JsString)
    requires obj == ExampleObject() && key == [0x61, 0x2E, 0x62]
    ensures KeyValues(obj, key) == Ok([JArr([JNum(1), JNum(2)])])
  {
    var a: JsString := [0x61];
    var b: JsString := [0x62];
    var e1 := JObj([Prop(b, JNum(1))]);
    var e2 := JObj([Prop(b, JNum(2))]);
    ExampleEntries(obj, [Prop(a, JArr([e1, e2]))]);
    ExampleOverEntries(a, b, e1, e2);
    ExampleSplit(obj, key);
  }

  /** `{a: [{b: 1}, {b: 2}]}` looked up with "a.b" gives the single value [1, 2]. */
  lemma FlatMapExample(obj: Json, key: JsString)
    requires obj == ExampleObject() && key == [0x61, 0x2E, 0x62]
    ensures GetValuesFromNestedObject(obj, [key]) == Ok([JArr([JNum(1), JNum(2)])])
  {
    ExampleKeyValues(obj, key);
    var keys := [key];
    assert keys[1..] == [];
    assert GetValuesFromNestedObject(obj, keys[1..]) == Ok([]);
    var r := GetValuesFromNestedObject(obj, keys);
    assert r.Ok? && r.value == [JArr([JNum(1), JNum(2)])];
  }

  /** An assignment `element[k] = v`: an existing property keeps its place
      and takes the new value; a new one is added last. */
  function SetProp(ps: seq<Prop>, k: JsString, v: Json): seq<Prop>
  {
    if ps == [] then [Prop(k, v)]
    else if ps[0].key == k then [Prop(k, v)] + ps[1..]
    else [ps[0]] + SetProp(ps[1..], k, v)
  }

  /** An assignment adds the key at the end unless the key is already there. */
  lemma {:induction false} SetPropKeys(ps: seq<Prop>, k: JsString, v: Json)
    ensures Keys(SetProp(ps, k, v)) == if k in Keys(ps) then Keys(ps) else Keys(ps) + [k]
  {
    if ps != [] {
      var r := SetProp(ps, k, v);
      assert Keys(ps) == [ps[0].key] + Keys(ps[1..]);
      if ps[0].key == k {
        assert Keys(r) == [k] + Keys(ps[1..]);
      } else {
        SetPropKeys(ps[1..], k, v);
        assert Keys(r) == [ps[0].key] + Keys(SetProp(ps[1..], k, v));
      }
    }
  }

  /** Reading a key just assigned gives the assigned value... */
  lemma {:induction false} SetPropFind(ps: seq<Prop>, k: JsString, v: Json)
    ensures FindProp(SetProp(ps, k, v), k) == v
  {
    if ps != [] && ps[0].key != k {
      SetPropFind(ps[1..], k, v);
    }
  }

  /** ...and every other key reads as before. */
  lemma {:induction false} SetPropOther(ps: seq<Prop>, k: JsString, v: Json, k': JsString)
    requires k' != k
    ensures FindProp(SetProp(ps, k, v), k') == FindProp(ps, k')
  {
    if ps != [] && ps[0].key != k {
      SetPropOther(ps[1..], k, v, k');
    }
  }

  /** The object built by `for (i…) element[fields[i]] = values[i]`, from
      position `i` on; `values[i]` past the end is undefined. */
  function Label(ps: seq<Prop>, fields: seq<JsString>, values: seq<Json>, i: nat): seq<Prop>
    requires i <= |fields|
    decreases |fields| - i
  {
    if i == |fields| then ps else Label(SetProp(ps, fields[i], At(values, i)), fields, values, i + 1)
  }

  /** The record one parsed row turns into. */
  function RowRecord(row: Json, fields: seq<JsString>): Result<Json>
  {
    var values :- GetValuesFromObject(row, fields);
    Ok(JObj(Label([], fields, values, 0)))
  }

  /** populateJsonArray: appends one record per row of `data` to `target`. */
  function PopulateJsonArray(target: seq<Json>, data: seq<Json>, fields: seq<JsString>): Result<seq<Json>>
    decreases |data|
  {
    if data == [] then Ok(target)
    else
      var element :- RowRecord(data[0], fields);
      PopulateJsonArray(target + [element], data[1..], fields)
  }

  predicate Distinct(ks: seq<JsString>)
  {
    forall i, j :: 0 <= i < j < |ks| ==> ks[i] != ks[j]
  }

  /** With distinct field names, the record has exactly the fields as keys, in
      field order, and field `i` holds the `i`-th selected value. */
  lemma {:induction false} LabelFields(ps: seq<Prop>, fields: seq<JsString>, values: seq<Json>, i: nat)
    requires i <= |fields| && Distinct(fields)
    requires Keys(ps) == fields[..i]
    requires forall j :: 0 <= j < i ==> FindProp(ps, fields[j]) == At(values, j)
    ensures var r := Label(ps, fields, values, i);
      Keys(r) == fields && forall j :: 0 <= j < |fields| ==> FindProp(r, fields[j]) == At(values, j)
    decreases |fields| - i
  {
    if i < |fields| {
      var k := fields[i];
      assert k !in Keys(ps) by {
        forall j | 0 <= j < i ensures Keys(ps)[j] != k {
          assert Keys(ps)[j] == fields[j];
        }
      }
      var ps' := SetProp(ps, k, At(values, i));
      SetPropKeys(ps, k, At(values, i));
      SetPropFind(ps, k, At(values, i));
      assert fields[..i + 1] == fields[..i] + [k];
      forall j | 0 <= j < i ensures FindProp(ps', fields[j]) == At(values, j) {
        SetPropOther(ps, k, At(values, i), fields[j]);
      }
      LabelFields(ps', fields, values, i + 1);
    } else {
      assert fields[..i] == fields;
    }
  }

  /** populateJsonArray appends exactly one element per row and leaves the
      existing elements alone; it throws only on a null or undefined row. */
  lemma {:induction false} PopulateShape(target: seq<Json>, data: seq<Json>, fields: seq<JsString>)
    ensures var r := PopulateJsonArray(target, data, fields);
      && (r.Err? <==> exists i :: 0 <= i < |data| && (data[i].Undef? || data[i].JNull?))
      && (r.Ok? ==> |r.value| == |target| + |data| && r.value[..|target|] == target)
    decreases |data|
  {
    if data != [] {
      assert forall i :: 1 <= i < |data| ==> data[1..][i - 1] == data[i];
      if !(data[0].Undef? || data[0].JNull?) {
        var element := RowRecord(data[0], fields).value;
        PopulateShape(target + [element], data[1..], fields);
        var r := PopulateJsonArray(target, data, fields);
        if r.Ok? {
          assert r.value[..|target|] == (r.value[..|target| + 1])[..|target|];
        }
      }
    }
  }

  /** The `i`-th row becomes the record at position |target| + i, whose field
      `j` holds the `j`-th value the row's projection yields (undefined when
      fewer fields matched), and whose keys are exactly the fields. */
  lemma {:induction false} PopulateRows(target: seq<Json>, data: seq<Json>, fields: seq<JsString>, i: nat)
    requires Distinct(fields) && i < |data|
    requires PopulateJsonArray(target, data, fields).Ok?
    requires !(data[i].Undef? || data[i].JNull?)
    ensures var r := PopulateJsonArray(target, data, fields).value;
      var vs := GetValuesFromObject(data[i], fields).value;
      && |r| == |target| + |data|
      && r[|target| + i].JObj?
      && Keys(r[|target| + i].props) == fields
      && forall j :: 0 <= j < |fields| ==> FindProp(r[|target| + i].props, fields[j]) == At(vs, j)
    decreases i
  {
    PopulateAt(target, data, fields, i);
    RowRecordFields(data[i], fields);
  }

  /** The `i`-th row's record lands at position |target| + i. */
  lemma {:induction false} PopulateAt(target: seq<Json>, data: seq<Json>, fields: seq<JsString>, i: nat)
    requires i < |data| && PopulateJsonArray(target, data, fields).Ok?
    ensures RowRecord(data[i], fields).Ok?
    ensures |PopulateJsonArray(target, data, fields).value| == |target| + |data|
    ensures PopulateJsonArray(target, data, fields).value[|target| + i] == RowRecord(data[i], fields).value
    decreases i
  {
    PopulateShape(target, data, fields);
    var element := RowRecord(data[0], fields).value;
    PopulateShape(target + [element], data[1..], fields);
    if i == 0 {
      var r := PopulateJsonArray(target, data, fields).value;
      assert r[..|target| + 1] == target + [element];
      assert r[|target|] == (target + [element])[|target|];
    } else {
      PopulateAt(target + [element], data[1..], fields, i - 1);
      assert data[1..][i - 1] == data[i];
    }
  }

  /** With distinct field names, a row's record has exactly the fields as
      keys, and field `j` holds the `j`-th selected value. */
  lemma RowRecordFields(row: Json, fields: seq<JsString>)
    requires Distinct(fields) && RowRecord(row, fields).Ok?
    ensures var rec := RowRecord(row, fields).value;
      var vs := GetValuesFromObject(row, fields).value;
      && rec.JObj? && Keys(rec.props) == fields
      && forall j :: 0 <= j < |fields| ==> FindProp(rec.props, fields[j]) == At(vs, j)
  {
    LabelFields([], fields, GetValuesFromObject(row, fields).value, 0);
  }

  /** A row lacking some field yields fewer values than fields: in the
      element appended for it, the matched values fill the first fields in
      order and every later field is undefined. */
  lemma MissingFieldShifts(target: seq<Json>, data: seq<Json>, fields: seq<JsString>, i: nat)
    requires Distinct(fields) && i < |data|
    requires PopulateJsonArray(target, data, fields).Ok?
    ensures var r := PopulateJsonArray(target, data, fields).value;
      && GetValuesFromObject(data[i], fields).Ok?
      && var vs := GetValuesFromObject(data[i], fields).value;
      && |r| == |target| + |data|
      && r[|target| + i].JObj?
      && (forall j :: 0 <= j < |fields| && j < |vs| ==> FindProp(r[|target| + i].props, fields[j]) == vs[j])
      && (forall j :: |vs| <= j < |fields| ==> FindProp(r[|target| + i].props, fields[j]) == Undef)
  {
    PopulateShape(target, data, fields);
    PopulateRows(target, data, fields, i);
  }

  /** A row whose keys are exactly the fields, in field order, is labelled
      value by value. */
  lemma RowInFieldOrder(es: seq<Prop>, fields: seq<JsString>, j: nat)
    requires Keys(es) == fields && j < |fields|
    ensures At(Select(es, fields), j) == es[j].value
  {
    forall i | 0 <= i < |es| ensures es[i].key in fields {
      assert Keys(es)[i] == es[i].key;
    }
    SelectAll(es, fields);
  }

  /** decodeString: `decodeURIComponent(escape(s))`. */
  function DecodeString(s: JsString): Result<JsString>
  {
    UriCoding.DecodeUriComponent(UriCoding.Escape(s))
  }

  /** decodeString reads the code units as UTF-8 octets. */
  lemma DecodeStringIsUtf8(s: JsString)
    ensures DecodeString(s) == UriCoding.Utf8Text(s)
  {
    UriCoding.DecodeEscaped(s);
  }

  /** Text that is already ASCII is left as it is. */
  lemma {:induction false} DecodeStringAscii(s: JsString)
    requires forall i :: 0 <= i < |s| ==> s[i] < 0x80
    ensures DecodeString(s) == Ok(s)
    decreases |s|
  {
    DecodeStringIsUtf8(s);
    if s == [] {
      assert Utf8.Decode([]) == Some([]);
    } else {
      UriCoding.Utf8TextStep(s);
      assert forall i :: 1 <= i < |s| ==> s[1..][i - 1] == s[i];
      DecodeStringAscii(s[1..]);
      DecodeStringIsUtf8(s[1..]);
      assert s == [s[0]] + s[1..];
    }
  }

  /** The UTF-8 octets of any text, stored one per code unit, decode back to
      that text in UTF-16. */
  lemma DecodeStringUtf8RoundTrip(cs: seq<Utf8.Scalar>)
    ensures var bs := Utf8.Encode(cs);
      DecodeString(seq(|bs|, i requires 0 <= i < |bs| => bs[i] as CodeUnit)) == Ok(Utf8.Utf16Encode(cs))
  {
    var bs := Utf8.Encode(cs);
    var s: JsString := seq(|bs|, i requires 0 <= i < |bs| => bs[i] as CodeUnit);
    DecodeStringIsUtf8(s);
    assert UriCoding.AsBytes(s) == bs;
    Utf8.DecodeEncode(cs);
  }

  /** A code unit above 255 cannot be an octet: decodeString throws URIError. */
  lemma DecodeStringWide(s: JsString, i: nat)
    requires i < |s| && s[i] >= 0x100
    ensures DecodeString(s) == Err(URIError)
  {
    DecodeStringIsUtf8(s);
  }

  /** Octets that are not well-formed UTF-8 make decodeString throw URIError. */
  lemma DecodeStringMalformed(s: JsString)
    requires UriCoding.AllBytes(s) && Utf8.Decode(UriCoding.AsBytes(s)).None?
    ensures DecodeString(s) == Err(URIError)
  {
    DecodeStringIsUtf8(s);
  }
}

=== FILE: reddit.dfy ===
/** processReddit (DataDropzone/index.ts): the rule that turns the CSV files
    of a Reddit export into a RedditRelevantData record. The rule writes into
    a shallow copy of the record it is given: the list pushes reach arrays
    the copy shares with the record, but the assignments to the top-level
    `gender` and `subreddits` fields only reach the copy, which is then
    dropped. The record processCompany returns therefore never carries them.
    ProcessRedditAsWritten models that code; ProcessReddit is the extraction
    with those two writes recorded, as evidently intended. */
module Reddit {
  import opened JsStrings
  import opened JsValues
  import JsonUtils
  import Archive

  /** One up- or down-vote: the subreddit it was cast in and whether it was up. */
  datatype Vote = Vote(subreddit: JsString, direction: bool)

  datatype Contributions = Contributions(comments: seq<Json>, votes: seq<Vote>, posts: seq<Json>, messages: seq<Json>)

  datatype RedditRecord = RedditRecord(gender: Json, ipLogs: seq<Json>, contributions: Contributions, subreddits: Json)

  /** The record an extraction starts from: empty lists, gender '' and 0 subreddits. */
  const Initial: RedditRecord := RedditRecord(JStr([]), [], Contributions([], [], [], []), JNum(0))

  const GenderFile: JsString := Lit("account_gender.csv")
  const IpLogsFile: JsString := Lit("ip_logs.csv")
  const CommentsFile: JsString := Lit("comments.csv")
  const PostsFile: JsString := Lit("posts.csv")
  const VotesFile: JsString := Lit("post_votes.csv")
  const MessagesFile: JsString := Lit("messages.csv")
  const SubredditsFile: JsString := Lit("subscribed_subreddits.csv")

  /** The basenames the rule reacts to. */
  predicate IsRuleFile(path: JsString)
  {
    path in [GenderFile, IpLogsFile, CommentsFile, PostsFile, VotesFile, MessagesFile, SubredditsFile]
  }

  /** The subreddit of a vote's permalink: the text between "/r/" and the
      next '/' (substring with clamping and swapping of its bounds). */
  function SubredditOf(permalink: JsString): JsString
  {
    var start := IndexOf(permalink, Lit("/r/"), 0) + 3;
    var end := IndexOf(permalink, Lit("/"), start);
    Substring(permalink, start, end)
  }

  /** The vote one CSV row contributes: none when the row has neither field
      or its direction is 'none'. A permalink that is not a string has no
      `indexOf` method, so the row throws TypeError. */
  function VoteOf(row: Json): Result<Option<Vote>>
  {
    var values :- JsonUtils.GetValuesFromObject(row, [Lit("permalink"), Lit("direction")]);
    if |values| > 0 && At(values, 1) != JStr(Lit("none")) then
      if values[0].JStr? then
        Ok(Some(Vote(SubredditOf(values[0].s), At(values, 1) == JStr(Lit("up")))))
      else Err(TypeError)
    else Ok(None)
  }

  /** The votes of all rows, in row order. */
  function VotesOf(rows: seq<Json>): Result<seq<Vote>>
  {
    if rows == [] then Ok([])
    else
      var v :- VoteOf(rows[0]);
      var rest :- VotesOf(rows[1..]);
      Ok((if v.Some? then [v.value] else []) + rest)
  }

  /** One application of the rule, as the returned record sees it. */
  function Step(acc: RedditRecord, data: Json, path: JsString): Result<RedditRecord>
  {
    var c := acc.contributions;
    if path == GenderFile then
      var first :- Index(data, 0);
      var values :- JsonUtils.GetValuesFromObject(first, [Lit("account_gender")]);
      Ok(acc)                                       // the gender lands on the dropped copy
    else if path == IpLogsFile then
      var rows :- Elements(data);
      var ipLogs :- JsonUtils.PopulateJsonArray(acc.ipLogs, rows, [Lit("date"), Lit("ip")]);
      Ok(acc.(ipLogs := ipLogs))
    else if path == CommentsFile then
      var rows :- Elements(data);
      var comments :- JsonUtils.PopulateJsonArray(c.comments, rows, [Lit("date"), Lit("subreddit")]);
      Ok(acc.(contributions := c.(comments := comments)))
    else if path == VotesFile then
      var rows :- Elements(data);
      var votes :- VotesOf(rows);
      Ok(acc.(contributions := c.(votes := c.votes + votes)))
    else if path == PostsFile then
      var rows :- Elements(data);
      var posts :- JsonUtils.PopulateJsonArray(c.posts, rows, [Lit("date"), Lit("subreddit")]);
      Ok(acc.(contributions := c.(posts := posts)))
    else if path == MessagesFile then
      var rows :- Elements(data);
      var messages :- JsonUtils.PopulateJsonArray(c.messages, rows, [Lit("date"), Lit("from")]);
      Ok(acc.(contributions := c.(messages := messages)))
    else if path == SubredditsFile then
      var n :- Length(data);
      Ok(acc)                                       // the count lands on the dropped copy
    else Ok(acc)
  }

  /** processReddit as written: the CSV rule run over an archive, with the
      scalar writes lost. */
  function ProcessRedditAsWritten(archive: Option<seq<Archive.Entry>>, supported: seq<JsString>,
                                  parseCsv: JsString -> Result<Json>): Result<RedditRecord>
  {
    Archive.ProcessCompany(Initial, Step, parseCsv, archive, supported)
  }

  /** The rule the code evidently intends: the gender and the row count of
      the subscribed subreddits are recorded too. */
  function StepIntended(acc: RedditRecord, data: Json, path: JsString): Result<RedditRecord>
  {
    if path == GenderFile then
      var first :- Index(data, 0);
      var values :- JsonUtils.GetValuesFromObject(first, [Lit("account_gender")]);
      Ok(acc.(gender := At(values, 0)))
    else if path == SubredditsFile then
      var n :- Length(data);
      Ok(acc.(subreddits := n))
    else Step(acc, data, path)
  }

  /** processReddit as intended: every write of the rule reaches the
      returned record. */
  function ProcessReddit(archive: Option<seq<Archive.Entry>>, supported: seq<JsString>,
                         parseCsv: JsString -> Result<Json>): Result<RedditRecord>
  {
    Archive.ProcessCompany(Initial, StepIntended, parseCsv, archive, supported)
  }

  /** No application of the rule changes the gender or the subreddit count. */
  lemma StepKeepsScalars(acc: RedditRecord, data: Json, path: JsString)
    ensures Step(acc, data, path).Ok? ==>
      Step(acc, data, path).value.gender == acc.gender && Step(acc, data, path).value.subreddits == acc.subreddits
  {
  }

  /** Whatever the archive holds, the returned record has gender '' and 0
      subreddits. */
  lemma ScalarWritesLost(archive: Option<seq<Archive.Entry>>, supported: seq<JsString>, parseCsv: JsString -> Result<Json>)
    ensures var r := ProcessRedditAsWritten(archive, supported, parseCsv);
      r.Ok? ==> r.value.gender == JStr([]) && r.value.subreddits == JNum(0)
  {
    var inv := (a: RedditRecord) => a.gender == JStr([]) && a.subreddits == JNum(0);
    forall a, d, p | inv(a) && Step(a, d, p).Ok? ensures inv(Step(a, d, p).value) {
      StepKeepsScalars(a, d, p);
    }
    Archive.ProcessCompanyInvariant(Initial, Step, parseCsv, archive, supported, inv);
  }

  /** The gender file with an `account_gender` column records that column's
      first value in the intended rule, while the code as written keeps ''. */
  lemma GenderRecordedOnlyWhenIntended(acc: RedditRecord, row: Json, rows: seq<Json>, g: Json)
    requires row == JObj([Prop(Lit("account_gender"), g)])
    ensures StepIntended(acc, JArr([row] + rows), GenderFile) == Ok(acc.(gender := g))
    ensures Step(acc, JArr([row] + rows), GenderFile) == Ok(acc)
  {
    assert !IsArrayIndex(Lit("account_gender")) by {
      assert !IsDigitUnit(Lit("account_gender")[0]);
    }
    JsonUtils.GetValuesFromPlainObject([Prop(Lit("account_gender"), g)], [Lit("account_gender")]);
  }

  /** The intended rule records the number of subscribed subreddits. */
  lemma SubredditCountRecordedOnlyWhenIntended(acc: RedditRecord, rows: seq<Json>)
    ensures StepIntended(acc, JArr(rows), SubredditsFile) == Ok(acc.(subreddits := JNum(|rows|)))
    ensures Step(acc, JArr(rows), SubredditsFile) == Ok(acc)
  {
  }

  /** The intended rule fails exactly when the rule as written does, and
      differs from it only in the gender and the subreddit count. */
  lemma IntendedChangesOnlyScalars(acc: RedditRecord, data: Json, path: JsString)
    ensures StepIntended(acc, data, path).Ok? <==> Step(acc, data, path).Ok?
    ensures StepIntended(acc, data, path).Ok? ==>
      var r := StepIntended(acc, data, path).value; var w := Step(acc, data, path).value;
      r.ipLogs == w.ipLogs && r.contributions == w.contributions
  {
  }

  /** An archive holding just the gender file: the intended extraction
      records its gender, the code as written returns the initial record. */
  lemma GenderFileRecorded(e: Archive.Entry, supported: seq<JsString>, parseCsv: JsString -> Result<Json>,
                           t: JsString, row: Json, rows: seq<Json>, g: Json)
    requires Archive.Kept(e, supported) && Archive.BaseName(e.path) == GenderFile
    requires e.text == Some(t) && parseCsv(t) == Ok(JArr([row] + rows))
    requires row == JObj([Prop(Lit("account_gender"), g)])
    ensures ProcessReddit(Some([e]), supported, parseCsv) == Ok(Initial.(gender := g))
    ensures ProcessRedditAsWritten(Some([e]), supported, parseCsv) == Ok(Initial)
  {
    Archive.ProcessCompanyIsFold(Initial, StepIntended, parseCsv, [e], supported);
    Archive.ProcessCompanyIsFold(Initial, Step, parseCsv, [e], supported);
    GenderRecordedOnlyWhenIntended(Initial, row, rows, g);
    assert [e][1..] == [];
  }

  /** A basename no rule names leaves the record unchanged. */
  lemma UnmatchedFileIsNoOp(acc: RedditRecord, data: Json, path: JsString)
    requires !IsRuleFile(path)
    ensures Step(acc, data, path) == Ok(acc)
  {
  }

  /** The row-copying rules append one record per row after the records
      already there; everything else in the record stays as it was. */
  lemma RowRulesAppend(acc: RedditRecord, data: Json, path: JsString)
    requires path in [IpLogsFile, CommentsFile, PostsFile, MessagesFile]
    requires Step(acc, data, path).Ok?
    ensures data.JArr?
    ensures var r := Step(acc, data, path).value; var n := |data.elems|;
      && (path == IpLogsFile ==>
            Extends(r.ipLogs, acc.ipLogs, n) && r == acc.(ipLogs := r.ipLogs))
      && (path == CommentsFile ==>
            Extends(r.contributions.comments, acc.contributions.comments, n)
            && r == acc.(contributions := acc.contributions.(comments := r.contributions.comments)))
      && (path == PostsFile ==>
            Extends(r.contributions.posts, acc.contributions.posts, n)
            && r == acc.(contributions := acc.contributions.(posts := r.contributions.posts)))
      && (path == MessagesFile ==>
            Extends(r.contributions.messages, acc.contributions.messages, n)
            && r == acc.(contributions := acc.contributions.(messages := r.contributions.messages)))
  {
    var c := acc.contributions;
    assert IpLogsFile != GenderFile && CommentsFile != GenderFile && PostsFile != GenderFile && MessagesFile != GenderFile;
    assert CommentsFile != IpLogsFile && PostsFile != IpLogsFile && MessagesFile != IpLogsFile;
    assert PostsFile != CommentsFile;
    assert MessagesFile != CommentsFile by { assert MessagesFile[0] != CommentsFile[0]; }
    assert PostsFile != VotesFile && MessagesFile != VotesFile;
    assert MessagesFile != PostsFile;
    if path == IpLogsFile {
      JsonUtils.PopulateShape(acc.ipLogs, data.elems, [Lit("date"), Lit("ip")]);
    } else if path == CommentsFile {
      JsonUtils.PopulateShape(c.comments, data.elems, [Lit("date"), Lit("subreddit")]);
    } else if path == PostsFile {
      JsonUtils.PopulateShape(c.posts, data.elems, [Lit("date"), Lit("subreddit")]);
    } else {
      JsonUtils.PopulateShape(c.messages, data.elems, [Lit("date"), Lit("from")]);
    }
  }

  /** A row whose direction is 'none' casts no vote. */
  lemma NoneVoteIgnored(row: Json)
    requires JsonUtils.GetValuesFromObject(row, [Lit("permalink"), Lit("direction")]).Ok?
    requires At(JsonUtils.GetValuesFromObject(row, [Lit("permalink"), Lit("direction")]).value, 1) == JStr(Lit("none"))
    ensures VoteOf(row) == Ok(None)
  {
  }

  /** Any other row with a string first value casts exactly one vote, up
      exactly when its second value is the string 'up'. */
  lemma OtherVoteRecorded(row: Json)
    requires JsonUtils.GetValuesFromObject(row, [Lit("permalink"), Lit("direction")]).Ok?
    requires var values := JsonUtils.GetValuesFromObject(row, [Lit("permalink"), Lit("direction")]).value;
      |values| > 0 && values[0].JStr? && At(values, 1) != JStr(Lit("none"))
    ensures var values := JsonUtils.GetValuesFromObject(row, [Lit("permalink"), Lit("direction")]).value;
      && VoteOf(row).Ok? && VoteOf(row).value.Some?
      && VoteOf(row).value.value.subreddit == SubredditOf(values[0].s)
      && (VoteOf(row).value.value.direction <==> At(values, 1) == JStr(Lit("up")))
  {
  }

  /** The vote rule appends the rows' votes, one per voting row, in row
      order, after the votes already recorded. */
  lemma {:induction false} VotesOfCount(rows: seq<Json>)
    ensures VotesOf(rows).Ok? ==> |VotesOf(rows).value| <= |rows|
    ensures VotesOf(rows).Ok? ==>
      (|VotesOf(rows).value| == |rows| <==> forall i :: 0 <= i < |rows| ==> VoteOf(rows[i]) != Ok(None))
  {
    if rows != [] && VotesOf(rows).Ok? {
      VotesOfCount(rows[1..]);
      var tail := rows[1..];
      assert forall i :: 1 <= i < |rows| ==> tail[i - 1] == rows[i];
      var n1 := |VotesOf(tail).value|;
      if VoteOf(rows[0]) == Ok(None) {
        assert |VotesOf(rows).value| == n1 <= |rows| - 1;
      } else {
        assert |VotesOf(rows).value| == n1 + 1;
        if n1 == |tail| {
          forall i | 0 <= i < |rows| ensures VoteOf(rows[i]) != Ok(None) {
            if i > 0 { assert VoteOf(tail[i - 1]) != Ok(None); }
          }
        }
        if forall i :: 0 <= i < |rows| ==> VoteOf(rows[i]) != Ok(None) {
          assert forall i :: 0 <= i < |tail| ==> VoteOf(tail[i]) != Ok(None) by {
            forall i | 0 <= i < |tail| ensures VoteOf(tail[i]) != Ok(None) {
              assert tail[i] == rows[i + 1];
            }
          }
        }
      }
    }
  }

  /** The vote case only ever adds the rows' votes after the ones already
      there, at most one per row, and changes nothing else. */
  lemma VotesAppended(acc: RedditRecord, data: Json)
    ensures Step(acc, data, VotesFile).Ok? ==>
      && data.JArr? && VotesOf(data.elems).Ok?
      && var r := Step(acc, data, VotesFile).value;
      && var n := |acc.contributions.votes|;
      && Extends(r.contributions.votes, acc.contributions.votes, |VotesOf(data.elems).value|)
      && r.contributions.votes[n..] == VotesOf(data.elems).value
      && |r.contributions.votes| <= n + |data.elems|
      && r == acc.(contributions := acc.contributions.(votes := r.contributions.votes))
  {
    assert VotesFile != GenderFile && VotesFile != IpLogsFile && VotesFile != CommentsFile;
    if Step(acc, data, VotesFile).Ok? {
      var old_ := acc.contributions.votes;
      var added := VotesOf(data.elems).value;
      assert (old_ + added)[..|old_|] == old_;
      assert (old_ + added)[|old_|..] == added;
      VotesOfCount(data.elems);
    }
  }

  /** The subreddit is the text strictly between the first "/r/" and the
      first '/' after it. */
  lemma SubredditBetweenSlashes(permalink: JsString)
    requires IndexOf(permalink, Lit("/r/"), 0) >= 0
    requires IndexOf(permalink, Lit("/"), IndexOf(permalink, Lit("/r/"), 0) + 3) >= 0
    ensures var k := IndexOf(permalink, Lit("/r/"), 0);
      var e := IndexOf(permalink, Lit("/"), k + 3);
      && k + 3 <= e < |permalink|
      && SubredditOf(permalink) == permalink[k + 3..e]
      && forall i :: k + 3 <= i < e ==> permalink[i] != 0x2F
  {
    var k := IndexOf(permalink, Lit("/r/"), 0);
    IndexOfSpec(permalink, Lit("/r/"), 0);
    var e := IndexOf(permalink, Lit("/"), k + 3);
    IndexOfSpec(permalink, Lit("/"), k + 3);
    assert |Lit("/r/")| == 3;
    forall i | k + 3 <= i < e ensures permalink[i] != 0x2F {
      assert !OccursAt(permalink, Lit("/"), i);
      assert permalink[i..i + 1] == [permalink[i]];
      assert Lit("/") == [0x2F];
    }
  }

  /** A permalink with "/r/" but no later '/' gives everything up to and
      including "/r/": the end index -1 is clamped to 0 and the bounds swap. */
  lemma SubredditWithoutClosingSlash(permalink: JsString)
    requires IndexOf(permalink, Lit("/r/"), 0) >= 0
    requires IndexOf(permalink, Lit("/"), IndexOf(permalink, Lit("/r/"), 0) + 3) == -1
    ensures var k := IndexOf(permalink, Lit("/r/"), 0);
      k + 3 <= |permalink| && SubredditOf(permalink) == permalink[..k + 3]
  {
    IndexOfSpec(permalink, Lit("/r/"), 0);
  }
}

=== FILE: score_slice.dfy ===
/** scoreControllerSlice (ScoreboardPage/scoreControllerSlice.tsx): the
    reducer that keeps the user's nickname, score, uploaded flag and the
    fetched scoreboard. The HTTP thunks are not modelled; only the actions
    the reducer reacts to are, with the payload a fulfilled getAll carries. */
module ScoreSlice {
  import opened JsStrings

  /** The three figures of a score. The slice and the scoreboard spell the
      field names differently, so the triple is kept abstract. */
  datatype Score = Score(total: int, reddit: int, insta: int)

  /** One scoreboard entry, as the service returns it. */
  datatype Entry = Entry(nickname: JsString, score: Score)

  datatype State = State(nickname: JsString, score: Score, allScores: seq<Entry>, uploadedScore: bool)

  const Zero: Score := Score(0, 0, 0)

  /** The state before any action: no nickname, zero scores, nothing fetched
      and nothing uploaded. */
  const Initial: State := State([], Zero, [], false)

  /** The asynchronous thunks of the slice. */
  datatype Thunk = AddScore | GetAll | Refresh | Delete

  /** The stage of a thunk an action reports; a fulfilled getAll carries the
      fetched entries, the other thunks' payloads are ignored. */
  datatype Phase = Pending | Fulfilled(payload: seq<Entry>) | Rejected

  datatype Action = DeleteLocalScore | Async(thunk: Thunk, phase: Phase)

  /** The fields of the state, for stating which of them an action writes. */
  datatype Field = Nickname | ScoreField | AllScores | Uploaded

  /** The fields each handled action assigns, read off the reducer table;
      every other action is ignored. */
  function Writes(a: Action): set<Field>
  {
    match a
    case DeleteLocalScore => {Nickname, ScoreField, AllScores}
    case Async(AddScore, Fulfilled(_)) => {Uploaded}
    case Async(GetAll, Fulfilled(_)) => {AllScores}
    case Async(Delete, Fulfilled(_)) => {Nickname, Uploaded, AllScores}
    case Async(_, _) => {}
  }

  /** `s` and `t` hold the same value in field `f`. */
  predicate Agree(s: State, t: State, f: Field)
  {
    match f
    case Nickname => s.nickname == t.nickname
    case ScoreField => s.score == t.score
    case AllScores => s.allScores == t.allScores
    case Uploaded => s.uploadedScore == t.uploadedScore
  }

  /** `s` and `t` agree on every field outside `fs`. */
  predicate AgreeOutside(s: State, t: State, fs: set<Field>)
  {
    (Nickname !in fs ==> s.nickname == t.nickname) &&
    (ScoreField !in fs ==> s.score == t.score) &&
    (AllScores !in fs ==> s.allScores == t.allScores) &&
    (Uploaded !in fs ==> s.uploadedScore == t.uploadedScore)
  }

  /** The reducer, deleteLocalScore and the three fulfilled cases. */
  function Reduce(s: State, a: Action): (r: State)
    ensures AgreeOutside(s, r, Writes(a))
    ensures a == DeleteLocalScore ==> r.nickname == [] && r.score == Zero && r.allScores == []
    ensures a.Async? && a.thunk == AddScore && a.phase.Fulfilled? ==> r.uploadedScore
    ensures a.Async? && a.thunk == GetAll && a.phase.Fulfilled? ==> r.allScores == a.phase.payload
    ensures a.Async? && a.thunk == Delete && a.phase.Fulfilled? ==>
      r.nickname == [] && !r.uploadedScore && r.allScores == []
  {
    match a
    case DeleteLocalScore => s.(nickname := [], score := Zero, allScores := [])
    case Async(AddScore, Fulfilled(_)) => s.(uploadedScore := true)
    case Async(GetAll, Fulfilled(data)) => s.(allScores := data)
    case Async(Delete, Fulfilled(_)) => s.(nickname := [], uploadedScore := false, allScores := [])
    case Async(_, _) => s
  }

  /** The state after dispatching `acts` in order. */
  function ReduceAll(s: State, acts: seq<Action>): State
  {
    if acts == [] then s else Reduce(ReduceAll(s, acts[..|acts| - 1]), acts[|acts| - 1])
  }

  /** What an action writes does not depend on the state it is applied to. */
  lemma WritesConstant(s: State, t: State, a: Action, f: Field)
    requires f in Writes(a)
    ensures Agree(Reduce(s, a), Reduce(t, a), f)
  {
  }

  /** An action leaves the fields it does not write as they were. */
  lemma FrameKept(s: State, a: Action, f: Field)
    requires f !in Writes(a)
    ensures Agree(Reduce(s, a), s, f)
  {
  }

  /** A field no dispatched action writes keeps its starting value. */
  lemma {:induction false} Untouched(s: State, acts: seq<Action>, f: Field)
    requires forall j :: 0 <= j < |acts| ==> f !in Writes(acts[j])
    ensures Agree(ReduceAll(s, acts), s, f)
  {
    if acts != [] {
      var init := acts[..|acts| - 1];
      Untouched(s, init, f);
      FrameKept(ReduceAll(s, init), acts[|acts| - 1], f);
    }
  }

  /** The last action that writes a field decides its value, whatever came
      before it. */
  lemma {:induction false} LastWriteWins(s: State, acts: seq<Action>, i: nat, f: Field)
    requires i < |acts| && f in Writes(acts[i])
    requires forall j :: i < j < |acts| ==> f !in Writes(acts[j])
    ensures Agree(ReduceAll(s, acts), Reduce(Initial, acts[i]), f)
  {
    var init := acts[..|acts| - 1];
    if i == |acts| - 1 {
      WritesConstant(ReduceAll(s, init), Initial, acts[i], f);
    } else {
      LastWriteWins(s, init, i, f);
      FrameKept(ReduceAll(s, init), acts[|acts| - 1], f);
    }
  }

  /** The score figures change only through deleteLocalScore, which zeroes
      them: after any run they are zero if it was dispatched and the
      starting figures otherwise. */
  lemma {:induction false} ScoreOnlyCleared(s: State, acts: seq<Action>)
    ensures ReduceAll(s, acts).score == (if DeleteLocalScore in acts then Zero else s.score)
  {
    if acts != [] {
      var init := acts[..|acts| - 1];
      ScoreOnlyCleared(s, init);
      assert acts == init + [acts[|acts| - 1]];
    }
  }

  /** The uploaded flag is set exactly when a fulfilled addScore was
      dispatched with no fulfilled delete after it, or it was set at the
      start and no fulfilled delete came. */
  lemma {:induction false} UploadedIffLastAdd(s: State, acts: seq<Action>)
    ensures ReduceAll(s, acts).uploadedScore <==>
      (exists i :: 0 <= i < |acts| && Uploaded in Writes(acts[i]) && acts[i].Async? && acts[i].thunk == AddScore &&
         forall j :: i < j < |acts| ==> Uploaded !in Writes(acts[j])) ||
      (s.uploadedScore && forall j :: 0 <= j < |acts| ==> Uploaded !in Writes(acts[j]))
  {
    if acts != [] {
      var n := |acts| - 1;
      var init := acts[..n];
      UploadedIffLastAdd(s, init);
      if Uploaded in Writes(acts[n]) {
        LastWriteWins(s, acts, n, Uploaded);
      } else {
        FrameKept(ReduceAll(s, init), acts[n], Uploaded);
        assert forall j :: 0 <= j < n ==> acts[j] == init[j];
      }
    }
  }

  /** Refresh completions and every pending or rejected action leave any
      state as it is. */
  lemma {:induction false} IgnoredKeepState(s: State, acts: seq<Action>)
    requires forall j :: 0 <= j < |acts| ==> acts[j].Async? && (acts[j].thunk == Refresh || !acts[j].phase.Fulfilled?)
    ensures ReduceAll(s, acts) == s
  {
    if acts != [] {
      IgnoredKeepState(s, acts[..|acts| - 1]);
    }
  }
}

=== FILE: scoreboard.dfy ===
/** getScoreboardList (ScoreboardPage/ScoreboardPage.tsx): the list of ranked
    scoreboard items for the selected company. The company names come from a
    constant table that is not part of this model, so they are parameters. */
module Scoreboard {
  import opened JsStrings
  import Sorting
  import ScoreSlice

  /** Which figure of a score the board shows. */
  datatype Board = RedditBoard | InstagramBoard | TotalBoard

  /** The switch on the selected company: the Reddit name first, then the
      Instagram name, and the total for anything else. */
  function BoardOf(selected: JsString, redditName: JsString, instagramName: JsString): (b: Board)
    ensures b == RedditBoard <==> selected == redditName
    ensures b == InstagramBoard <==> selected != redditName && selected == instagramName
  {
    if selected == redditName then RedditBoard
    else if selected == instagramName then InstagramBoard
    else TotalBoard
  }

  function Figure(s: ScoreSlice.Score, b: Board): int
  {
    match b
    case RedditBoard => s.reddit
    case InstagramBoard => s.insta
    case TotalBoard => s.total
  }

  /** A nickname with the figure the board shows for it. */
  datatype Ranked = Ranked(nickname: JsString, score: int)

  function ScoreOf(r: Ranked): int { r.score }

  function RankedOf(e: ScoreSlice.Entry, b: Board): Ranked
  {
    Ranked(e.nickname, Figure(e.score, b))
  }

  /** The entries with a strictly positive figure, in their original order. */
  function Kept(all: seq<ScoreSlice.Entry>, b: Board): seq<Ranked>
  {
    if all == [] then []
    else (if Figure(all[0].score, b) > 0 then [RankedOf(all[0], b)] else []) + Kept(all[1..], b)
  }

  /** One row of the list: its 1-based place, the entry, and whether it is
      the current user's. */
  datatype Item = Item(rank: nat, nickname: JsString, score: int, highlighted: bool)

  function Label(sorted: seq<Ranked>, nickname: JsString): seq<Item>
  {
    seq(|sorted|, i requires 0 <= i < |sorted| =>
      Item(i + 1, sorted[i].nickname, sorted[i].score, sorted[i].nickname == nickname))
  }

  /** The entries an item list shows, without rank and highlight. */
  function Shown(items: seq<Item>): seq<Ranked>
  {
    seq(|items|, i requires 0 <= i < |items| => Ranked(items[i].nickname, items[i].score))
  }

  /** getScoreboardList: keep the positive figures, sort them ascending
      (stably, as ECMA-262 requires of Array.prototype.sort), and label each
      with its place and whether it is the user's. */
  function ScoreboardList(all: seq<ScoreSlice.Entry>, selected: JsString, redditName: JsString,
                          instagramName: JsString, nickname: JsString): (r: seq<Item>)
  {
    Label(Sorting.SortBy(Kept(all, BoardOf(selected, redditName, instagramName)), ScoreOf), nickname)
  }

  /** Every entry with a positive figure is kept, every kept item comes
      from such an entry, and there are no more items than entries. */
  lemma {:induction false} KeptSpec(all: seq<ScoreSlice.Entry>, b: Board)
    ensures |Kept(all, b)| <= |all|
    ensures forall k :: 0 <= k < |Kept(all, b)| ==> Kept(all, b)[k].score > 0
    ensures forall i :: 0 <= i < |all| && Figure(all[i].score, b) > 0 ==> RankedOf(all[i], b) in Kept(all, b)
    ensures forall k :: 0 <= k < |Kept(all, b)| ==> exists i :: 0 <= i < |all| && Kept(all, b)[k] == RankedOf(all[i], b)
  {
    if all != [] {
      KeptSpec(all[1..], b);
      var head := if Figure(all[0].score, b) > 0 then [RankedOf(all[0], b)] else [];
      var k := Kept(all, b);
      assert k == head + Kept(all[1..], b);
      forall i | 1 <= i < |all| && Figure(all[i].score, b) > 0 ensures RankedOf(all[i], b) in k {
        assert all[i] == all[1..][i - 1];
      }
      forall j | 0 <= j < |k| ensures exists i :: 0 <= i < |all| && k[j] == RankedOf(all[i], b) {
        if j < |head| {
          assert k[j] == RankedOf(all[0], b);
        } else {
          var i :| 0 <= i < |all[1..]| && Kept(all[1..], b)[j - |head|] == RankedOf(all[1..][i], b);
          assert k[j] == RankedOf(all[i + 1], b);
        }
      }
    }
  }

  /** Kept distributes over a split of the entries, so it keeps their order. */
  lemma {:induction false} KeptConcat(xs: seq<ScoreSlice.Entry>, ys: seq<ScoreSlice.Entry>, b: Board)
    ensures Kept(xs + ys, b) == Kept(xs, b) + Kept(ys, b)
  {
    if xs == [] {
      assert xs + ys == ys;
    } else {
      var zs := xs + ys;
      assert zs[0] == xs[0] && zs[1..] == xs[1..] + ys;
      KeptConcat(xs[1..], ys, b);
    }
  }

  /** Dropping rank and highlight gives back the sorted list, the i-th item
      has place i + 1, and exactly the user's items are highlighted. */
  lemma LabelSpec(sorted: seq<Ranked>, nickname: JsString)
    ensures Shown(Label(sorted, nickname)) == sorted
    ensures forall i :: 0 <= i < |sorted| ==> Label(sorted, nickname)[i].rank == i + 1
    ensures forall i :: 0 <= i < |sorted| ==>
      (Label(sorted, nickname)[i].highlighted <==> Label(sorted, nickname)[i].nickname == nickname)
  {
  }

  /** The list shows a permutation of the kept entries in non-decreasing
      order of figure, one item per kept entry, labelled 1, 2, ... and
      highlighted exactly where the nickname is the user's. */
  lemma ScoreboardListSpec(all: seq<ScoreSlice.Entry>, selected: JsString, redditName: JsString,
                           instagramName: JsString, nickname: JsString)
    ensures var kept := Kept(all, BoardOf(selected, redditName, instagramName));
      var r := ScoreboardList(all, selected, redditName, instagramName, nickname);
      |r| == |kept| &&
      multiset(Shown(r)) == multiset(kept) &&
      Sorting.SortedBy(Shown(r), ScoreOf) &&
      (forall i :: 0 <= i < |r| ==> r[i].rank == i + 1 && r[i].score > 0) &&
      (forall i :: 0 <= i < |r| ==> (r[i].highlighted <==> r[i].nickname == nickname))
  {
    var b := BoardOf(selected, redditName, instagramName);
    var kept := Kept(all, b);
    var sorted := Sorting.SortBy(kept, ScoreOf);
    LabelSpec(sorted, nickname);
    KeptSpec(all, b);
    forall i | 0 <= i < |sorted| ensures sorted[i].score > 0 {
      assert sorted[i] in multiset(kept);
    }
  }

  /** Entries with equal figures keep the order the service returned them in. */
  lemma ScoreboardListStable(all: seq<ScoreSlice.Entry>, selected: JsString, redditName: JsString,
                             instagramName: JsString, nickname: JsString, v: int)
    ensures var kept := Kept(all, BoardOf(selected, redditName, instagramName));
      Sorting.WithRank(Shown(ScoreboardList(all, selected, redditName, instagramName, nickname)), ScoreOf, v)
        == Sorting.WithRank(kept, ScoreOf, v)
  {
    var kept := Kept(all, BoardOf(selected, redditName, instagramName));
    LabelSpec(Sorting.SortBy(kept, ScoreOf), nickname);
    Sorting.SortByStable(kept, ScoreOf, v);
  }
}

=== FILE: sorting.dfy ===
/** Stable sorting by an integer rank. Both orderings in the model are of
    this kind: the array-index keys of an object (ascending index) and the
    scoreboard (Array.prototype.sort with comparator `a.score - b.score`, which
    ECMA-262 requires to be stable). */
module Sorting {

  predicate SortedBy<T>(xs: seq<T>, rank: T -> int)
  {
    forall i, j :: 0 <= i < j < |xs| ==> rank(xs[i]) <= rank(xs[j])
  }

  /** The elements of `xs` whose rank is `v`, in their order in `xs`. */
  function WithRank<T>(xs: seq<T>, rank: T -> int, v: int): seq<T>
  {
    if xs == [] then []
    else (if rank(xs[0]) == v then [xs[0]] else []) + WithRank(xs[1..], rank, v)
  }

  /** Inserts `x` in front of the first element whose rank is not below its own. */
  function Insert<T>(x: T, sorted: seq<T>, rank: T -> int): seq<T>
  {
    if sorted == [] then [x]
    else if rank(x) <= rank(sorted[0]) then [x] + sorted
    else [sorted[0]] + Insert(x, sorted[1..], rank)
  }

  lemma {:induction false} InsertPermutes<T>(x: T, sorted: seq<T>, rank: T -> int)
    ensures multiset(Insert(x, sorted, rank)) == multiset(sorted) + multiset{x}
  {
    if sorted != [] && rank(x) > rank(sorted[0]) {
      InsertPermutes(x, sorted[1..], rank);
      assert sorted == [sorted[0]] + sorted[1..];
    }
  }

  lemma {:induction false} InsertSorted<T>(x: T, sorted: seq<T>, rank: T -> int)
    requires SortedBy(sorted, rank)
    ensures SortedBy(Insert(x, sorted, rank), rank)
  {
    if sorted != [] && rank(x) > rank(sorted[0]) {
      var tail := sorted[1..];
      var rest := Insert(x, tail, rank);
      InsertSorted(x, tail, rank);
      assert forall k :: 0 <= k < |tail| ==> tail[k] == sorted[k + 1];
      InsertAbove(x, tail, rank, rank(sorted[0]));
      var r := [sorted[0]] + rest;
      forall i, j | 0 <= i < j < |r|
        ensures rank(r[i]) <= rank(r[j])
      {
        assert r[j] == rest[j - 1];
        if i > 0 {
          assert r[i] == rest[i - 1];
        }
      }
    }
  }

  /** Inserting an element ranked at least `lo` among elements ranked at
      least `lo` gives elements ranked at least `lo`. */
  lemma {:induction false} InsertAbove<T>(x: T, sorted: seq<T>, rank: T -> int, lo: int)
    requires forall k :: 0 <= k < |sorted| ==> lo <= rank(sorted[k])
    requires lo <= rank(x)
    ensures forall k :: 0 <= k < |Insert(x, sorted, rank)| ==> lo <= rank(Insert(x, sorted, rank)[k])
  {
    if sorted != [] && rank(x) > rank(sorted[0]) {
      var tail := sorted[1..];
      assert forall k :: 0 <= k < |tail| ==> tail[k] == sorted[k + 1];
      InsertAbove(x, tail, rank, lo);
      var r := [sorted[0]] + Insert(x, tail, rank);
      forall k | 1 <= k < |r| ensures lo <= rank(r[k]) {
        assert r[k] == Insert(x, tail, rank)[k - 1];
      }
    }
  }

  /** Insertion sort; an element is inserted in front of the equal-ranked
      elements that followed it, so equal ranks keep their input order. */
  function SortBy<T>(xs: seq<T>, rank: T -> int): (r: seq<T>)
    ensures multiset(r) == multiset(xs)
    ensures |r| == |xs|
    ensures SortedBy(r, rank)
  {
    if xs == [] then []
    else
      var rest := SortBy(xs[1..], rank);
      InsertPermutes(xs[0], rest, rank);
      InsertSorted(xs[0], rest, rank);
      InsertLength(xs[0], rest, rank);
      assert xs == [xs[0]] + xs[1..];
      Insert(xs[0], rest, rank)
  }

  lemma {:induction false} InsertLength<T>(x: T, sorted: seq<T>, rank: T -> int)
    ensures |Insert(x, sorted, rank)| == |sorted| + 1
  {
    if sorted != [] && rank(x) > rank(sorted[0]) {
      InsertLength(x, sorted[1..], rank);
    }
  }

  lemma {:induction false} InsertWithRank<T>(x: T, sorted: seq<T>, rank: T -> int, v: int)
    requires SortedBy(sorted, rank)
    ensures WithRank(Insert(x, sorted, rank), rank, v)
      == (if rank(x) == v then [x] else []) + WithRank(sorted, rank, v)
  {
    if sorted == [] {
    } else if rank(x) <= rank(sorted[0]) {
      assert ([x] + sorted)[1..] == sorted;
    } else {
      InsertWithRank(x, sorted[1..], rank, v);
      var r := Insert(x, sorted[1..], rank);
      assert ([sorted[0]] + r)[1..] == r;
      if rank(x) == v {
        // every element ranked below x, sorted[0] included, has a rank other than v
        WithRankBelow(sorted, rank, v, rank(sorted[0]));
      }
    }
  }

  /** When every element ranked `v` comes after the first element, and the
      first is ranked below `v`, the first element contributes nothing. */
  lemma WithRankBelow<T>(sorted: seq<T>, rank: T -> int, v: int, r0: int)
    requires |sorted| > 0 && rank(sorted[0]) == r0 && r0 < v
    ensures WithRank(sorted, rank, v) == WithRank(sorted[1..], rank, v)
  {
  }

  /** Sorting is stable: the elements of any one rank appear in the output in
      exactly the order they had in the input. */
  lemma {:induction false} SortByStable<T>(xs: seq<T>, rank: T -> int, v: int)
    ensures WithRank(SortBy(xs, rank), rank, v) == WithRank(xs, rank, v)
  {
    if xs != [] {
      SortByStable(xs[1..], rank, v);
      InsertWithRank(xs[0], SortBy(xs[1..], rank), rank, v);
    }
  }
}

=== FILE: uri_coding.dfy ===
/** The two standard functions decodeString composes: `escape` (section
    B.2.1.1 of ECMA-262) and `decodeURIComponent` (the Decode operation of
    ECMA-262 with an empty reserved set, in the ECMAScript 2015 wording that
    checks each continuation octet as it is read). The main result is that
    their composition decodes a string whose code units are UTF-8 octets,
    exactly as RFC 3629 prescribes, and throws URIError otherwise. */
module UriCoding {
  import opened JsStrings
  import opened JsValues
  import Utf8

  const Percent: CodeUnit := 0x25
  const LetterU: CodeUnit := 0x75

  /** The code units `escape` leaves alone: A-Z a-z 0-9 @ * _ + - . / */
  predicate Unescaped(c: CodeUnit)
  {
    || 0x41 <= c <= 0x5A || 0x61 <= c <= 0x7A || 0x30 <= c <= 0x39
    || c == 0x40 || c == 0x2A || c == 0x5F || c == 0x2B || c == 0x2D || c == 0x2E || c == 0x2F
  }

  /** The upper-case hexadecimal digit for `d`. */
  function HexDigit(d: int): CodeUnit
    requires 0 <= d < 16
  {
    if d < 10 then 0x30 + d else 0x37 + d
  }

  predicate IsHexDigit(c: CodeUnit)
  {
    0x30 <= c <= 0x39 || 0x41 <= c <= 0x46 || 0x61 <= c <= 0x66
  }

  function HexValue(c: CodeUnit): (d: int)
    requires IsHexDigit(c)
    ensures 0 <= d < 16
  {
    if c <= 0x39 then c as int - 0x30
    else if c <= 0x46 then c as int - 0x37
    else c as int - 0x57
  }

  /** `escape` applied to one code unit: unchanged, %XX below 256, %uXXXX above. */
  function EscapeUnit(c: CodeUnit): JsString
  {
    if Unescaped(c) then [c]
    else if c < 0x100 then [Percent, HexDigit(c / 0x10), HexDigit(c % 0x10)]
    else [Percent, LetterU, HexDigit(c / 0x1000), HexDigit(c / 0x100 % 0x10),
          HexDigit(c / 0x10 % 0x10), HexDigit(c % 0x10)]
  }

  /** The global function `escape`. */
  function Escape(s: JsString): JsString
  {
    if s == [] then [] else EscapeUnit(s[0]) + Escape(s[1..])
  }

  function Prefix(p: JsString, r: Result<JsString>): Result<JsString>
  {
    match r
    case Ok(s) => Ok(p + s)
    case Err(e) => Err(e)
  }

  /** Reads `k` escaped continuation octets (%XX with XX in 80..BF) from the
      front of `u`, or None when any of them is missing or malformed. */
  function ContinuationOctets(u: JsString, k: nat): (r: Option<seq<Utf8.Byte>>)
    ensures r.Some? ==> |r.value| == k && Utf8.AllContinuation(r.value)
    decreases k
  {
    if k == 0 then Some([])
    else if |u| < 3 || u[0] != Percent || !IsHexDigit(u[1]) || !IsHexDigit(u[2]) then None
    else
      var b := HexValue(u[1]) * 0x10 + HexValue(u[2]);
      if !Utf8.IsContinuation(b) then None
      else
        match ContinuationOctets(u[3..], k - 1)
        case None => None
        case Some(rest) => Some([b] + rest)
  }

  /** The global function `decodeURIComponent`: a code unit other than '%'
      is copied; %XX below 80 gives that code unit; %XX with a lead octet of
      a two- to four-octet sequence must be followed by that many escaped
      continuation octets forming a valid UTF-8 sequence, which is replaced
      by the UTF-16 form of its code point. Anything else throws URIError. */
  function DecodeUriComponent(t: JsString): Result<JsString>
    decreases |t|
  {
    if t == [] then Ok([])
    else if t[0] != Percent then Prefix([t[0]], DecodeUriComponent(t[1..]))
    else if |t| < 3 || !IsHexDigit(t[1]) || !IsHexDigit(t[2]) then Err(URIError)
    else
      var b := HexValue(t[1]) * 0x10 + HexValue(t[2]);
      if b < 0x80 then Prefix([b], DecodeUriComponent(t[3..]))
      else
        var n := Utf8.LeadingOnes(b);
        if n == 1 || n > 4 || |t| < 3 * n then Err(URIError)
        else
          match ContinuationOctets(t[3..], n - 1)
          case None => Err(URIError)
          case Some(tail) =>
            var octets := [b] + tail;
            assert octets[1..] == tail;
            match Utf8.ScalarOf(octets)
            case None => Err(URIError)
            case Some(c) => Prefix(Utf8.Utf16Of(c), DecodeUriComponent(t[3 * n..]))
  }

  predicate AllBytes(s: JsString)
  {
    forall i :: 0 <= i < |s| ==> s[i] < 0x100
  }

  function AsBytes(s: JsString): (r: seq<Utf8.Byte>)
    requires AllBytes(s)
    ensures |r| == |s| && forall i :: 0 <= i < |s| ==> r[i] == s[i]
  {
    seq(|s|, i requires 0 <= i < |s| => s[i] as Utf8.Byte)
  }

  /** Reference meaning of decoding double-encoded text: the code units are
      read as octets and decoded as UTF-8; a code unit above 255 or a
      malformed octet sequence is a URIError. */
  function Utf8Text(s: JsString): Result<JsString>
  {
    if !AllBytes(s) then Err(URIError)
    else
      match Utf8.Decode(AsBytes(s))
      case None => Err(URIError)
      case Some(cs) => Ok(Utf8.Utf16Encode(cs))
  }

  lemma HexDigitValue(d: int)
    requires 0 <= d < 16
    ensures IsHexDigit(HexDigit(d)) && HexValue(HexDigit(d)) == d
  {
  }

  /** An octet escaped as %XX reads back as itself. */
  lemma EscapedOctet(c: CodeUnit)
    requires !Unescaped(c) && c < 0x100
    ensures var e := EscapeUnit(c);
      |e| == 3 && e[0] == Percent && IsHexDigit(e[1]) && IsHexDigit(e[2])
      && HexValue(e[1]) * 0x10 + HexValue(e[2]) == c
  {
    HexDigitValue(c / 0x10);
    HexDigitValue(c % 0x10);
  }

  lemma AsBytesSlices(s: JsString, n: nat)
    requires AllBytes(s) && n <= |s|
    ensures AllBytes(s[..n]) && AllBytes(s[n..])
    ensures AsBytes(s)[..n] == AsBytes(s[..n])
    ensures AsBytes(s)[n..] == AsBytes(s[n..])
  {
    var bs := AsBytes(s);
    assert AllBytes(s[..n]) by {
      forall i | 0 <= i < n ensures s[..n][i] < 0x100 { assert s[..n][i] == s[i]; }
    }
    assert AllBytes(s[n..]) by {
      forall i | 0 <= i < |s| - n ensures s[n..][i] < 0x100 { assert s[n..][i] == s[n + i]; }
    }
    assert bs[..n] == AsBytes(s[..n]) by {
      var p := AsBytes(s[..n]);
      forall i | 0 <= i < n ensures bs[..n][i] == p[i] { assert s[..n][i] == s[i]; }
    }
    assert bs[n..] == AsBytes(s[n..]) by {
      var q := AsBytes(s[n..]);
      forall i | 0 <= i < |s| - n ensures bs[n..][i] == q[i] { assert s[n..][i] == s[n + i]; }
    }
  }

  /** The first code unit is ASCII: it is copied. */
  lemma Utf8TextAscii(s: JsString)
    requires s != [] && s[0] < 0x80
    ensures Utf8Text(s) == Prefix([s[0]], Utf8Text(s[1..]))
  {
    if AllBytes(s) {
      AsBytesSlices(s, 1);
      var bs := AsBytes(s);
      match Utf8.Decode(bs[1..]) {
        case None =>
        case Some(cs) => assert ([s[0] as Utf8.Scalar] + cs)[1..] == cs;
      }
    } else {
      assert !AllBytes(s[1..]) by {
        var i :| 0 <= i < |s| && s[i] >= 0x100;
        assert s[1..][i - 1] == s[i];
      }
    }
  }

  /** The first code unit is a lead octet announcing `n` octets and the next
      `n` - 1 are continuation octets: the sequence decodes to one scalar. */
  lemma Utf8TextSequence(s: JsString, n: nat)
    requires s != [] && 0x80 <= s[0] < 0x100 && n == Utf8.LeadingOnes(s[0])
    requires n != 1 && n <= 4 && |s| >= n && Utf8.AllContinuation(s[1..n])
    ensures var octets: seq<Utf8.Byte> := s[..n];
      match Utf8.ScalarOf(octets)
      case None => Utf8Text(s) == Err(URIError)
      case Some(c) => Utf8Text(s) == Prefix(Utf8.Utf16Of(c), Utf8Text(s[n..]))
  {
    assert forall k :: 1 <= k < n ==> s[1..n][k - 1] == s[k];
    var octets: seq<Utf8.Byte> := s[..n];
    if AllBytes(s) {
      var bs := AsBytes(s);
      AsBytesSlices(s, n);
      assert bs[1..n] == s[1..n];
      assert bs[..n] == octets;
      match Utf8.ScalarOf(octets) {
        case None =>
        case Some(c) =>
          match Utf8.Decode(bs[n..]) {
            case None =>
            case Some(cs) => assert ([c] + cs)[1..] == cs;
          }
      }
    } else {
      assert !AllBytes(s[n..]) by {
        var i :| 0 <= i < |s| && s[i] >= 0x100;
        assert s[n..][i - n] == s[i];
      }
    }
  }

  /** A lead octet that announces no valid length, or is not followed by
      enough continuation octets, is an error. */
  lemma Utf8TextBadLead(s: JsString, n: nat)
    requires s != [] && 0x80 <= s[0] < 0x100 && n == Utf8.LeadingOnes(s[0])
    requires n == 1 || n > 4 || |s| < n || !Utf8.AllContinuation(s[1..n])
    ensures Utf8Text(s) == Err(URIError)
  {
    if AllBytes(s) {
      var bs := AsBytes(s);
      if n != 1 && n <= 4 && |s| >= n {
        assert bs[1..n] == s[1..n];
      }
    }
  }

  /** The reference decoding, one step at a time. */
  lemma Utf8TextStep(s: JsString)
    requires s != []
    ensures s[0] < 0x80 ==> Utf8Text(s) == Prefix([s[0]], Utf8Text(s[1..]))
    ensures s[0] >= 0x100 ==> Utf8Text(s) == Err(URIError)
    ensures 0x80 <= s[0] < 0x100 ==>
      var n := Utf8.LeadingOnes(s[0]);
      if n == 1 || n > 4 || |s| < n || !Utf8.AllContinuation(s[1..n]) then Utf8Text(s) == Err(URIError)
      else
        var octets: seq<Utf8.Byte> := s[..n];
        match Utf8.ScalarOf(octets)
        case None => Utf8Text(s) == Err(URIError)
        case Some(c) => Utf8Text(s) == Prefix(Utf8.Utf16Of(c), Utf8Text(s[n..]))
  {
    if s[0] < 0x80 {
      Utf8TextAscii(s);
    } else if s[0] < 0x100 {
      var n := Utf8.LeadingOnes(s[0]);
      if n == 1 || n > 4 || |s| < n || !Utf8.AllContinuation(s[1..n]) {
        Utf8TextBadLead(s, n);
      } else {
        Utf8TextSequence(s, n);
      }
    }
  }

  /** Escaping an octet in 80..FF gives exactly three code units, so the
      escape of `s` past its first `k` such octets is the escape of the rest. */
  lemma {:induction false} EscapeDropOctets(s: JsString, k: nat)
    requires k <= |s| && forall i :: 0 <= i < k ==> 0x80 <= s[i] < 0x100
    ensures |Escape(s)| >= 3 * k && Escape(s)[3 * k..] == Escape(s[k..])
    decreases k
  {
    if k > 0 {
      EscapeDropOctets(s[1..], k - 1);
      assert s[1..][k - 1..] == s[k..];
      assert |EscapeUnit(s[0])| == 3;
    }
  }

  /** Reading escaped continuation octets from `escape(u)` succeeds exactly
      when the first `k` code units of `u` are continuation octets, and
      yields those octets. */
  lemma {:induction false} ContinuationOfEscaped(u: JsString, k: nat)
    ensures var r := ContinuationOctets(Escape(u), k);
      && (r.Some? <==> |u| >= k && Utf8.AllContinuation(u[..k]))
      && (r.Some? ==> r.value == u[..k])
    decreases k
  {
    if k > 0 && u != [] {
      var t := Escape(u);
      var c := u[0];
      assert t == EscapeUnit(c) + Escape(u[1..]);
      if Utf8.IsContinuation(c) {
        EscapedOctet(c);
        assert t[3..] == Escape(u[1..]);
        ContinuationOfEscaped(u[1..], k - 1);
        if |u| >= k {
          assert u[1..][..k - 1] == u[1..k];
          assert u[..k] == [c] + u[1..k];
        }
      } else if !Unescaped(c) && c < 0x100 {
        EscapedOctet(c);
      } else if !Unescaped(c) {
        assert t[1] == LetterU;
      } else {
        assert t[0] == c;
      }
      if |u| >= k { assert u[..k][0] == c; }
    }
  }

  /** `decodeURIComponent(escape(s))` is UTF-8 decoding of the code units of `s`. */
  lemma {:induction false} DecodeEscaped(s: JsString)
    ensures DecodeUriComponent(Escape(s)) == Utf8Text(s)
    decreases |s|, 2
  {
    if s == [] {
      assert Utf8.Decode([]) == Some([]);
      return;
    }
    var c := s[0];
    var t := Escape(s);
    assert t == EscapeUnit(c) + Escape(s[1..]);
    if Unescaped(c) {
      Utf8TextStep(s);
      assert t[0] == c && t[1..] == Escape(s[1..]);
      DecodeEscaped(s[1..]);
    } else if c < 0x80 {
      Utf8TextStep(s);
      EscapedOctet(c);
      assert t[3..] == Escape(s[1..]);
      DecodeEscaped(s[1..]);
    } else if c >= 0x100 {
      Utf8TextStep(s);
      assert t[1] == LetterU;
    } else {
      DecodeEscapedLead(s);
    }
  }

  /** The case of DecodeEscaped where `s` starts with an octet in 80..FF. */
  lemma {:induction false} DecodeEscapedLead(s: JsString)
    requires s != [] && 0x80 <= s[0] < 0x100
    ensures DecodeUriComponent(Escape(s)) == Utf8Text(s)
    decreases |s|, 1
  {
    var c := s[0];
    var n := Utf8.LeadingOnes(c);
    if n != 1 && n <= 4 && |s| >= n && Utf8.AllContinuation(s[1..n]) {
      DecodeEscapedSequence(s, n);
    } else {
      var t := Escape(s);
      assert t == EscapeUnit(c) + Escape(s[1..]);
      Utf8TextStep(s);
      EscapedOctet(c);
      assert t[3..] == Escape(s[1..]);
      if n != 1 && n <= 4 {
        ContinuationOfEscaped(s[1..], n - 1);
        if |s| >= n {
          assert s[1..][..n - 1] == s[1..n];
        }
      }
    }
  }

  /** The case of DecodeEscapedLead where a whole multi-octet sequence of
      continuation octets follows the lead. */
  lemma {:induction false} DecodeEscapedSequence(s: JsString, n: nat)
    requires s != [] && 0x80 <= s[0] < 0x100 && n == Utf8.LeadingOnes(s[0])
    requires n != 1 && n <= 4 && |s| >= n && Utf8.AllContinuation(s[1..n])
    ensures DecodeUriComponent(Escape(s)) == Utf8Text(s)
    decreases |s|, 0
  {
    SequenceOctets(s, n);
    var tail: seq<Utf8.Byte> := s[1..n];
    var octets: seq<Utf8.Byte> := s[..n];
    EscapedSequence(s, n, tail);
    DecodeUriSequence(Escape(s), s[0] as Utf8.Byte, n, tail);
    Utf8TextSequence(s, n);
    assert [s[0] as Utf8.Byte] + tail == octets;
    match Utf8.ScalarOf(octets) {
      case None =>
      case Some(cp) =>
        DecodeEscaped(s[n..]);
    }
  }

  /** The escape of a lead octet and its continuation octets: %XX for the
      lead, then the escaped continuation octets, then the escape of the rest. */
  lemma EscapedSequence(s: JsString, n: nat, tail: seq<Utf8.Byte>)
    requires s != [] && 0x80 <= s[0] < 0x100 && 1 <= n <= |s| && tail == s[1..n]
    requires forall i :: 0 <= i < n ==> 0x80 <= s[i] < 0x100
    requires Utf8.AllContinuation(s[1..n])
    ensures var t := Escape(s);
      && |t| >= 3 * n && t[0] == Percent && IsHexDigit(t[1]) && IsHexDigit(t[2])
      && HexValue(t[1]) * 0x10 + HexValue(t[2]) == s[0]
      && ContinuationOctets(t[3..], n - 1) == Some(tail)
      && t[3 * n..] == Escape(s[n..])
  {
    var c := s[0];
    var t := Escape(s);
    var e := EscapeUnit(c);
    assert t == e + Escape(s[1..]);
    EscapedOctet(c);
    assert t[3..] == Escape(s[1..]);
    ContinuationOfEscaped(s[1..], n - 1);
    assert s[1..][..n - 1] == s[1..n];
    EscapeDropOctets(s, n);
  }

  /** A lead octet and the continuation octets after it are all octets in 80..FF. */
  lemma SequenceOctets(s: JsString, n: nat)
    requires s != [] && 0x80 <= s[0] < 0x100 && 1 <= n <= |s| && Utf8.AllContinuation(s[1..n])
    ensures forall i :: 0 <= i < n ==> 0x80 <= s[i] < 0x100
  {
    forall i | 1 <= i < n ensures 0x80 <= s[i] < 0x100 {
      assert s[1..n][i - 1] == s[i];
    }
  }

  /** decodeURIComponent on an escaped lead octet followed by the escaped
      continuation octets it announces. */
  lemma DecodeUriSequence(t: JsString, b: Utf8.Byte, n: nat, tail: seq<Utf8.Byte>)
    requires |t| >= 3 && t[0] == Percent && IsHexDigit(t[1]) && IsHexDigit(t[2])
    requires HexValue(t[1]) * 0x10 + HexValue(t[2]) == b
    requires b >= 0x80 && n == Utf8.LeadingOnes(b) && n != 1 && n <= 4 && |t| >= 3 * n
    requires ContinuationOctets(t[3..], n - 1) == Some(tail)
    ensures Utf8.WellFramed([b] + tail)
    ensures match Utf8.ScalarOf([b] + tail)
      case None => DecodeUriComponent(t) == Err(URIError)
      case Some(c) => DecodeUriComponent(t) == Prefix(Utf8.Utf16Of(c), DecodeUriComponent(t[3 * n..]))
  {
    assert ([b] + tail)[1..] == tail;
  }
}

=== FILE: utf8.dfy ===
/** UTF-8 as defined in RFC 3629, and the UTF-16 form JavaScript strings use
    for the decoded code points. This is the reference the decoding of
    double-encoded text is proved against. */
module Utf8 {
  import opened JsStrings
  import opened JsValues

  type Byte = x: int | 0 <= x < 0x100

  /** A Unicode scalar value: a code point that is not a surrogate. */
  type Scalar = x: int | 0 <= x < 0xD800 || 0xE000 <= x < 0x11_0000

  /** The number of leading one bits of an octet. */
  function LeadingOnes(b: Byte): (n: nat)
    ensures n <= 8
  {
    if b < 0x80 then 0
    else if b < 0xC0 then 1
    else if b < 0xE0 then 2
    else if b < 0xF0 then 3
    else if b < 0xF8 then 4
    else if b < 0xFC then 5
    else if b < 0xFE then 6
    else if b < 0xFF then 7
    else 8
  }

  /** A continuation octet has the form 10xxxxxx. */
  predicate IsContinuation(b: int)
  {
    0x80 <= b < 0xC0
  }

  predicate AllContinuation(bs: seq<int>)
  {
    forall i :: 0 <= i < |bs| ==> IsContinuation(bs[i])
  }

  /** A multi-octet sequence whose lead octet announces its length and whose
      other octets are continuation octets. */
  predicate WellFramed(octets: seq<Byte>)
  {
    2 <= |octets| <= 4 && LeadingOnes(octets[0]) == |octets| && AllContinuation(octets[1..])
  }

  /** The bits a framed sequence carries, most significant first. */
  function Payload(octets: seq<Byte>): int
    requires WellFramed(octets)
  {
    var b0: int := octets[0];
    var b1: int := octets[1];
    if |octets| == 2 then
      (b0 - 0xC0) * 0x40 + (b1 - 0x80)
    else
      var b2: int := octets[2];
      if |octets| == 3 then
        (b0 - 0xE0) * 0x1000 + (b1 - 0x80) * 0x40 + (b2 - 0x80)
      else
        var b3: int := octets[3];
        (b0 - 0xF0) * 0x4_0000 + (b1 - 0x80) * 0x1000 + (b2 - 0x80) * 0x40 + (b3 - 0x80)
  }

  /** The scalar value a framed sequence encodes; None when it is an overlong
      form, a surrogate or above U+10FFFF, which RFC 3629 forbids. */
  function ScalarOf(octets: seq<Byte>): (r: Option<Scalar>)
    requires WellFramed(octets)
    ensures r.Some? ==> r.value >= 0x80
  {
    var v := Payload(octets);
    if |octets| == 2 then (if 0x80 <= v then Some(v) else None)
    else if |octets| == 3 then (if 0x800 <= v && !(0xD800 <= v < 0xE000) then Some(v) else None)
    else if 0x1_0000 <= v <= 0x10_FFFF then Some(v) else None
  }

  /** The UTF-8 octets of one scalar value (RFC 3629, section 3). */
  function EncodeScalar(c: Scalar): (r: seq<Byte>)
    ensures 1 <= |r| <= 4
  {
    if c < 0x80 then [c]
    else if c < 0x800 then [0xC0 + c / 0x40, 0x80 + c % 0x40]
    else if c < 0x1_0000 then [0xE0 + c / 0x1000, 0x80 + c / 0x40 % 0x40, 0x80 + c % 0x40]
    else [0xF0 + c / 0x4_0000, 0x80 + c / 0x1000 % 0x40, 0x80 + c / 0x40 % 0x40, 0x80 + c % 0x40]
  }

  function Encode(cs: seq<Scalar>): seq<Byte>
  {
    if cs == [] then [] else EncodeScalar(cs[0]) + Encode(cs[1..])
  }

  function Cons(c: Scalar, rest: Option<seq<Scalar>>): Option<seq<Scalar>>
  {
    match rest
    case None => None
    case Some(cs) => Some([c] + cs)
  }

  /** The scalar values an octet string encodes, or None when it is not
      well-formed UTF-8. */
  function Decode(bs: seq<Byte>): Option<seq<Scalar>>
    decreases |bs|
  {
    if bs == [] then Some([])
    else
      var n := LeadingOnes(bs[0]);
      if n == 0 then Cons(bs[0], Decode(bs[1..]))
      else if n == 1 || n > 4 || |bs| < n || !AllContinuation(bs[1..n]) then None
      else
        match ScalarOf(bs[..n])
        case None => None
        case Some(c) => Cons(c, Decode(bs[n..]))
  }

  lemma DivMod64(x: int, q: int, r: int)
    requires 0 <= r < 0x40 && x == q * 0x40 + r
    ensures x / 0x40 == q && x % 0x40 == r
  {
  }

  /** Every multi-octet encoding is well framed and decodes back to its scalar. */
  lemma EncodeScalarFramed(c: Scalar)
    requires c >= 0x80
    ensures WellFramed(EncodeScalar(c))
    ensures ScalarOf(EncodeScalar(c)) == Some(c)
  {
    var e := EncodeScalar(c);
    var q := c / 0x40;
    DivMod64(c, q, c % 0x40);
    if c < 0x800 {
      assert Payload(e) == c;
    } else {
      var q2 := q / 0x40;
      DivMod64(q, q2, q % 0x40);
      assert c / 0x1000 == q2;
      if c < 0x1_0000 {
        assert Payload(e) == c;
      } else {
        DivMod64(q2, q2 / 0x40, q2 % 0x40);
        assert c / 0x4_0000 == q2 / 0x40;
        assert Payload(e) == c;
      }
    }
  }

  /** A sequence that decodes to a scalar is that scalar's encoding: UTF-8
      admits one encoding per scalar value. */
  lemma ScalarOfEncodes(octets: seq<Byte>)
    requires WellFramed(octets) && ScalarOf(octets).Some?
    ensures EncodeScalar(ScalarOf(octets).value) == octets
  {
    if |octets| == 2 {
      ScalarOfEncodesTwo(octets);
    } else if |octets| == 3 {
      ScalarOfEncodesThree(octets);
    } else {
      ScalarOfEncodesFour(octets);
    }
  }

  lemma ScalarOfEncodesTwo(octets: seq<Byte>)
    requires WellFramed(octets) && ScalarOf(octets).Some? && |octets| == 2
    ensures EncodeScalar(ScalarOf(octets).value) == octets
  {
    var c := ScalarOf(octets).value;
    var b0: int := octets[0];
    var b1: int := octets[1];
    DivMod64(c, b0 - 0xC0, b1 - 0x80);
    assert EncodeScalar(c) == octets;
  }

  lemma ScalarOfEncodesThree(octets: seq<Byte>)
    requires WellFramed(octets) && ScalarOf(octets).Some? && |octets| == 3
    ensures EncodeScalar(ScalarOf(octets).value) == octets
  {
    var c := ScalarOf(octets).value;
    var b0: int := octets[0];
    var b1: int := octets[1];
    var b2: int := octets[2];
    var q := (b0 - 0xE0) * 0x40 + (b1 - 0x80);
    DivMod64(c, q, b2 - 0x80);
    DivMod64(q, b0 - 0xE0, b1 - 0x80);
    assert c / 0x1000 == q / 0x40;
    assert EncodeScalar(c) == octets;
  }

  lemma ScalarOfEncodesFour(octets: seq<Byte>)
    requires WellFramed(octets) && ScalarOf(octets).Some? && |octets| == 4
    ensures EncodeScalar(ScalarOf(octets).value) == octets
  {
    var c := ScalarOf(octets).value;
    var b0: int := octets[0];
    var b1: int := octets[1];
    var b2: int := octets[2];
    var b3: int := octets[3];
    var q2 := (b0 - 0xF0) * 0x40 + (b1 - 0x80);
    var q := q2 * 0x40 + (b2 - 0x80);
    DivMod64(c, q, b3 - 0x80);
    DivMod64(q, q2, b2 - 0x80);
    DivMod64(q2, b0 - 0xF0, b1 - 0x80);
    assert c / 0x1000 == q / 0x40;
    assert c / 0x4_0000 == q2 / 0x40;
    assert EncodeScalar(c) == octets;
  }

  lemma {:induction false} DecodeEncodedScalar(c: Scalar, rest: seq<Byte>)
    ensures Decode(EncodeScalar(c) + rest) == Cons(c, Decode(rest))
  {
    var e := EncodeScalar(c);
    var bs := e + rest;
    if c < 0x80 {
      assert bs[1..] == rest;
    } else {
      EncodeScalarFramed(c);
      assert bs[..|e|] == e;
      assert bs[1..|e|] == e[1..];
      assert bs[|e|..] == rest;
    }
  }

  /** Decoding undoes encoding. */
  lemma {:induction false} DecodeEncode(cs: seq<Scalar>)
    ensures Decode(Encode(cs)) == Some(cs)
  {
    if cs != [] {
      DecodeEncodedScalar(cs[0], Encode(cs[1..]));
      DecodeEncode(cs[1..]);
      assert [cs[0]] + cs[1..] == cs;
    }
  }

  /** Decoding accepts only the encodings it would produce. */
  lemma {:induction false} EncodeDecode(bs: seq<Byte>)
    requires Decode(bs).Some?
    ensures Encode(Decode(bs).value) == bs
    decreases |bs|
  {
    if bs != [] {
      var n := LeadingOnes(bs[0]);
      if n == 0 {
        EncodeDecode(bs[1..]);
        assert EncodeScalar(bs[0]) == bs[..1];
        EncodeDecodeStep(bs, 1, bs[0], Decode(bs[1..]).value);
      } else {
        DecodeSequence(bs, n);
        ScalarOfEncodes(bs[..n]);
        EncodeDecode(bs[n..]);
        EncodeDecodeStep(bs, n, ScalarOf(bs[..n]).value, Decode(bs[n..]).value);
      }
    }
  }

  lemma EncodeDecodeStep(bs: seq<Byte>, n: nat, c: Scalar, rest: seq<Scalar>)
    requires n <= |bs| && EncodeScalar(c) == bs[..n] && Encode(rest) == bs[n..]
    ensures Encode([c] + rest) == bs
  {
    EncodeCons(c, rest);
    SplitAt(bs, n);
  }

  /** A decodable string that starts with a lead octet decodes to the
      scalar of its first `n` octets, then the decoding of the rest. */
  lemma DecodeSequence(bs: seq<Byte>, n: nat)
    requires bs != [] && Decode(bs).Some? && n == LeadingOnes(bs[0]) && n > 0
    ensures n <= |bs| && WellFramed(bs[..n]) && ScalarOf(bs[..n]).Some? && Decode(bs[n..]).Some?
    ensures Decode(bs).value == [ScalarOf(bs[..n]).value] + Decode(bs[n..]).value
  {
    assert bs[..n][1..] == bs[1..n];
  }

  lemma SplitAt<T>(xs: seq<T>, n: nat)
    requires n <= |xs|
    ensures xs[..n] + xs[n..] == xs
  {
  }

  lemma EncodeCons(c: Scalar, cs: seq<Scalar>)
    ensures Encode([c] + cs) == EncodeScalar(c) + Encode(cs)
  {
    assert ([c] + cs)[1..] == cs;
  }

  /** UTF-8 decoding is exactly the inverse of encoding. */
  lemma DecodeIffEncode(bs: seq<Byte>, cs: seq<Scalar>)
    ensures Decode(bs) == Some(cs) <==> bs == Encode(cs)
  {
    if Decode(bs) == Some(cs) {
      EncodeDecode(bs);
    }
    if bs == Encode(cs) {
      DecodeEncode(cs);
    }
  }

  /** The UTF-16 code units of one scalar value: itself below U+10000,
      otherwise a surrogate pair. */
  function Utf16Of(c: Scalar): (r: JsString)
    ensures c < 0x1_0000 ==> r == [c]
    ensures c >= 0x1_0000 ==>
      && |r| == 2
      && 0xD800 <= r[0] < 0xDC00 && 0xDC00 <= r[1] < 0xE000
      && (r[0] as int - 0xD800) * 0x400 + (r[1] as int - 0xDC00) + 0x1_0000 == c
  {
    if c < 0x1_0000 then [c]
    else [0xD800 + (c - 0x1_0000) / 0x400, 0xDC00 + (c - 0x1_0000) % 0x400]
  }

  function Utf16Encode(cs: seq<Scalar>): JsString
  {
    if cs == [] then [] else Utf16Of(cs[0]) + Utf16Encode(cs[1..])
  }
}
